=== FILE: README.md ===
# FastAPI boilerplate: access control, modelled in Dafny

This project models the authorisation core of a FastAPI backend. That core covers:

- user, role and permission management;
- role-based access control;
- an owner-or-permission file store;
- the small string, validation and pagination helpers these rely on.

The database is one immutable value, `AccessGraph.Store`. It has four tables:

- users;
- roles;
- permissions;
- file records.

Each table is a map from id to row, with an autoincrement counter. The many-to-many links are duplicate-free id sequences held on the owning row:

- `users.roles` for `user_roles`;
- `users.permissions` for `user_permissions`;
- `roles.permissions` for `role_permissions`.

`AccessGraph.Valid` collects the database constraints:

- ids lie below their counter;
- foreign keys resolve;
- emails, usernames, role names, permission names and file paths are unique.

Every handler is a pure function from a store (and its inputs) to an `Outcome`. An `Outcome` is either an HTTP error (status and detail) or a `Response` carrying the session's store and the reply body. `Http.EndWithCommit` and `Http.EndWithoutCommit` decide what survives the request, because the request session of `src/database/db.py` never commits by itself.

The role and permission assignments also depend on what the request's session has loaded. The relationships `user.roles`, `user.permissions` and `role.permissions` load lazily, and an `AsyncSession` cannot load them on attribute access: it raises `MissingGreenlet`. Only the guard's query eager-loads anything, namely the caller's roles with their permissions and the caller's direct permissions. `Authorization.Loaded` records these collections, and `Authorization.GuardLoaded` is what the guard leaves behind.

The file routes also thread a `Disk`. This is the set of object paths present under `storage/public` and under `storage/private`.

Four things outside the code are parameters:

- password hashing is an injective symbolic digest with a salt;
- each request carries its `Authorization` header and a token decoder;
- the uuid of an upload is a parameter;
- the random draws are a function.

Modules follow the source tree:

| module | source |
|---|---|
| `Permissions` | `src/utils/permissions.py` |
| `Deps` | `src/routes/deps.py` |
| `Authorization` | `src/services/authorization.py` |
| `AccessGraph` | `src/models/*.py`, plus the lookup queries |
| `FileRoutes` | `src/routes/files/route.py` |
| `FileUtils` | `src/utils/files.py` |
| `RoleRoutes` | `src/routes/roles/route.py` |
| `PermissionRoutes` | `src/routes/permissions/route.py` |
| `UserRoutes` | `src/routes/users/*.py` |
| `AuthRoutes` | `src/routes/auth/route.py` |
| `Seed` | `scripts/seed_admin.py` |
| `Strings` | `src/utils/strings.py` |
| `Validators` | `src/utils/validators.py` |
| `Responses` | `src/utils/responses.py` |
| `Listing` | the shared paginated list body |
| `DbConfig` | `src/configs/db.py` |
| `Credentials` | `src/utils/security.py` |

`Text` and `Wrappers` hold shared string and result helpers.

Verify with:

    dafny verify --resource-limit 2000000 --verification-time-limit 0 --warn-contradictory-assumptions *.dfy

## Model

| member | source | states |
|---|---|---|
| Permissions.AnyNamed | src/utils/permissions.py:37-39 | The direct-permission scan succeeds iff some direct permission has exactly that name |
| Permissions.AnyRoleGrants | src/utils/permissions.py:42-45 | The nested role scan succeeds iff some permission of some held role has exactly that name |
| Permissions.PermissionNames | src/routes/deps.py:55-57 | The collected name set contains every direct permission name and every permission name of every held role |
| Permissions.HasPermission | src/utils/permissions.py:34-47 | `has_permission` holds iff the name is in the union of direct and role-derived permission names (exact, case-sensitive match) |
| Permissions.HasAnyPermission | src/utils/permissions.py:50-52 | True iff some listed name is held; false on the empty list |
| Permissions.HasAllPermissions | src/utils/permissions.py:55-57 | True iff every listed name is held; true on the empty list |
| Permissions.CheckFileAccess | src/utils/permissions.py:5-31 | Access iff (allow_owner and a truthy owner id equal to the user's id) or (a truthy required permission that the user holds); owner id 0 or None disables the owner path |
| Permissions.CheckFileAccessFailsClosed | src/utils/permissions.py:28-31 | A non-owner is refused when no required permission is set, or when it is the empty string |
| Permissions.LoadedNamesAreGrants | src/routes/deps.py:31-37 | A name is collected from the loaded user iff, in the stored graph, a permission with that name is linked to the user directly or through one of its roles |
| Permissions.HasPermissionIsGrant | src/utils/permissions.py:34-47 | `has_permission` on the loaded user coincides with that graph-level grant |
| Permissions.AdminChecksDisagree | src/utils/permissions.py:60-62 | A user whose roles are all named "admin" passes the "admin" role test of `require_admin` but fails `is_admin`, which looks for "Administrator" |
| Deps.BearerCredential | src/routes/deps.py:12 | `HTTPBearer(auto_error=False)` yields a credential only for a header "scheme token": one space-free scheme word equal to "bearer" in any letter case, one space, and a non-empty token; the header is exactly scheme, space and token |
| Deps.BearerCredentialOfWellFormed | src/routes/deps.py:12 | Conversely, a bearer scheme word (any case), one space and a non-empty token give exactly that credential, so a header yields a credential iff it has this form |
| Deps.GetCurrentUser | src/routes/deps.py:12-21 | Authentication of a request: a header `HTTPBearer` rejects (absent, no space, empty token, another scheme) gives 401 "Missing or invalid authorization header"; every failure is 401; success names a stored user |
| Deps.Authenticate | src/routes/deps.py:15-40 | Every failure is 401. Success iff the credential is present with scheme "bearer" (any case), the token decodes, its `user_id` claim is an integer other than 0, and that id is a stored user; that id is the result |
| Deps.RequirePermission | src/routes/deps.py:51-65 | Authentication failures pass through unchanged; otherwise 403 "Permission '<name>' required" unless the name is held, and the same user id is returned when it is |
| Deps.RequireAdmin | src/routes/deps.py:43-48 | Authentication failures pass through; otherwise 403 "Admin role required" unless some held role is named exactly "admin", else the same user id |
| Deps.RequirePermissionAgreesWithHasPermission | src/routes/deps.py:55-59 | The guard accepts iff authentication succeeds and `has_permission` holds for the loaded user; its rejections after authentication are 403 |
| Deps.RequirePermissionIsGraphGrant | src/routes/deps.py:51-65 | The guard accepts iff authentication succeeds and the stored graph grants the name to that user |
| Authorization.CreateRole | src/services/authorization.py:18-24 | Fails (unique violation) iff a role with the name exists; otherwise exactly one role with that name and description is added under the next id, and nothing else changes |
| Authorization.CreatePermission | src/services/authorization.py:39-45 | Fails iff a permission with the name exists; otherwise exactly one permission is added, and nothing else changes |
| Authorization.AssignRoleToUser | src/services/authorization.py:60-71 | NotFound "User or Role not found" when the user or the role is missing. Otherwise, reading the lazy `user.roles` of a user the session has not loaded fails with the MissingGreenlet error. Otherwise success: only that user's role list changes, to the old set plus the role, and a role already held leaves the store identical |
| Authorization.AssignPermissionToRole | src/services/authorization.py:74-89 | NotFound when the role or the permission is missing; otherwise the MissingGreenlet error when `role.permissions` is not loaded; otherwise only that role's permissions change, by set-union with the permission, and an existing link leaves the store identical |
| Authorization.AssignPermissionToUser | src/services/authorization.py:92-103 | NotFound when the user or the permission is missing; otherwise the MissingGreenlet error when `user.permissions` is not loaded; otherwise only that user's direct permissions change, by set-union, and the user's roles are kept |
| Authorization.AssignRoleToUserOnlyCaller | src/services/authorization.py:60-71 | In the session the guard loaded, an existing role can be assigned to an existing user iff that user is the caller; any other user gives the MissingGreenlet error |
| Authorization.AssignPermissionToRoleOnlyHeldRoles | src/services/authorization.py:74-89 | In that session a permission can be linked to an existing role iff the caller holds the role |
| Authorization.AssignmentsWithAllLoaded | src/services/authorization.py:60-103 | With every collection loaded, each of the three assignments succeeds iff its two rows exist |
| Authorization.AssignRoleToUserIdempotent | src/services/authorization.py:66-68 | Repeating a successful role assignment on its result, in the same session, succeeds and returns the same store |
| Authorization.AssignPermissionToRoleIdempotent | src/services/authorization.py:81-83 | Repeating a successful role-permission link on its result, in the same session, returns the same store |
| Authorization.AssignPermissionToUserIdempotent | src/services/authorization.py:98-100 | Repeating a successful direct grant on its result, in the same session, returns the same store |
| Authorization.CreateRolePreservesValid | src/models/roles.py:1-15 | Creating a role keeps every database constraint, including unique role names |
| Authorization.CreatePermissionPreservesValid | src/models/permissions.py:1-16 | Creating a permission keeps every database constraint, including unique permission names |
| Authorization.UserLinksChangePreservesValid | src/models/user_permission.py:1-11 | Replacing one user's link lists by duplicate-free lists of existing ids keeps every constraint (composite keys of the association tables) |
| Authorization.LinkRoleToUserPreservesValid | src/services/authorization.py:66-68 | Adding a `user_roles` pair between stored rows keeps every constraint |
| Authorization.LinkPermissionToUserPreservesValid | src/services/authorization.py:98-100 | Adding a `user_permissions` pair between stored rows keeps every constraint |
| Authorization.LinkPermissionToRolePreservesValid | src/models/role_permission.py:1-10 | Adding a `role_permissions` pair between stored rows keeps every constraint, the composite key included |
| Authorization.AssignRoleToUserPreservesValid | src/services/authorization.py:60-71 | A role assignment keeps every database constraint |
| Authorization.AssignPermissionToUserPreservesValid | src/services/authorization.py:92-103 | A direct permission grant keeps every database constraint |
| Authorization.AssignPermissionToRolePreservesValid | src/models/role_permission.py:1-10 | A role-permission link keeps every database constraint, the composite key included |
| Authorization.GrantsMonotone | src/utils/permissions.py:37-45 | When every link of a store survives into another with the same names, every graph grant survives too |
| Authorization.AssignmentsOnlyAddGrants | src/utils/permissions.py:37-45 | No successful assignment (role to user, permission to user, permission to role) withdraws any user's grant |
| Authorization.AssignRoleKeepsHasPermission | src/services/authorization.py:60-71 | After a role assignment, every name `has_permission` granted to any user before is still granted |
| AccessGraph.FullName | src/models/users.py:51-54 | The full name is the non-empty first and last names joined by one space: empty iff both are empty or absent, starting with the first and ending with the last |
| AccessGraph.EmptyStoreValid | src/models/users.py:16-49 | The empty database satisfies every constraint |
| AccessGraph.IdsBelow | src/routes/users/read.py:36-40 | The ids of a table below its counter, ascending and complete: every listed id is a row, every row below the counter is listed, and no id repeats |
| AccessGraph.IdsBelowCount | src/routes/users/read.py:31-32 | When every id is below the counter, the listed ids are as many as the table's rows (`count(id)`) |
| AccessGraph.FindUserByEmail | src/routes/users/create.py:16-17 | Finds a user with exactly that email, or reports that none has it |
| AccessGraph.FindRoleByName | src/services/authorization.py:27-30 | `get_role_by_name`: a role whose name equals the query, or none iff no role has that name |
| AccessGraph.FindPermissionByName | src/services/authorization.py:48-51 | `get_permission_by_name`: a permission with that name, or none iff none has it |
| AccessGraph.FindRoleByNameUnique | src/models/roles.py:1-15 | In a valid store the lookup returns the one role carrying the name |
| AccessGraph.FindPermissionByNameUnique | src/models/permissions.py:1-16 | In a valid store the lookup returns the one permission carrying the name |
| AccessGraph.FindUserByEmailUnique | src/models/users.py:22 | When one user has the email, the lookup returns that user |
| AccessGraph.InsertUser | src/routes/users/create.py:35-37 | Adds exactly the given user under the next id, and nothing else changes |
| AccessGraph.InsertUserPreservesValid | src/models/users.py:22-24 | Inserting a link-free user whose email and username are free keeps the store valid |
| AccessGraph.InsertUserKeepsUnique | src/models/users.py:22-24 | Such an insertion keeps email and username uniqueness |
| AccessGraph.AppendIfAbsent | src/services/authorization.py:66-67 | The list after `if x not in l: l.append(x)` holds exactly the old members plus x, stays duplicate-free, and is unchanged when x was present |
| Http.OffsetLimit | src/routes/users/read.py:38-39 | `.offset(o).limit(n)` yields at most n rows, nothing past the end, exactly the rows o, o+1, … in order, and as many as remain up to n |
| Http.PageOf | src/routes/users/read.py:35-41 | Page p of size n is at most n rows, row i being row (p-1)·n+i of the full list |
| Listing.Paginate | src/routes/roles/route.py:49-70 | A paginated body echoes the count, page and size; its items are page p; total_pages is the least page count covering all rows; items are non-empty iff p ≤ total_pages |
| Listing.RowOnItsPage | src/routes/roles/route.py:54-62 | Every row i appears as item i mod n of page i div n + 1, and that page lies within total_pages |
| Responses.FloorDiv | src/utils/responses.py:50 | Python's `//`: the floor of the quotient, for either sign of the divisor |
| Responses.TotalPagesIsCeiling | src/utils/responses.py:50 | For a positive page size, total_pages is ⌈total/size⌉: it covers the total, one page fewer does not, and it is 0 iff total is 0 |
| Responses.PageStartsWithinTotal | src/utils/responses.py:50 | A page number is at most total_pages iff that page starts before the last row |
| Responses.SuccessIgnoresStatus | src/utils/responses.py:8-15 | The status-code argument never changes the body |
| Responses.ErrorResponse | src/utils/responses.py:18-30 | success is false, message as given; an "errors" key is present iff errors is given and non-empty, holding them; no other keys |
| Responses.ErrorResponseEmptyIsAbsent | src/utils/responses.py:28-29 | An empty errors dict gives the same body as none |
| Responses.PaginatedResponse | src/utils/responses.py:33-53 | Division by zero (no body) iff page_size is 0; otherwise success true with the items and the paging figures |
| Responses.PaginatedResponseEchoes | src/utils/responses.py:41-53 | Reading the pagination object back yields total, page and page_size unchanged, and the ceiling page count: `total_pages` pages cover `total`, and one page fewer does not |
| Credentials.HashPassword | src/utils/security.py:27-36 | A hash is a well-formed bcrypt value made with the given salt |
| Credentials.VerifyAfterHash | src/utils/security.py:39-44 | Verification accepts the password a hash was made from, for any salt |
| Credentials.VerifyRejectsOtherPassword | src/utils/security.py:39-44 | Verification rejects every other password |
| DbConfig.GetDatabaseUrl | src/configs/db.py:13-27 | Error iff the type is neither postgres nor mysql. Postgres: "postgresql+asyncpg" if async, else "postgresql", port default 5432. MySQL: "mysql+aiomysql" or "mysql+pymysql", port default 3306 |
| DbConfig.UrlEndsWithHostPortName | src/configs/db.py:13-27 | For a supported type, the URL ends with "@", DB_HOST, ":", the set non-empty DB_PORT or the type's default port, "/" and DB_NAME, verbatim |
| DbConfig.DbTypeIgnoresCase | src/configs/db.py:6 | Environments differing only in the letter case of DB_TYPE give the same URL |
| DbConfig.DefaultSettings | src/configs/db.py:6-11 | With nothing set, the settings are postgres / postgres / password / localhost / no port / fastapi_db |
| DbConfig.DefaultUrl | src/configs/db.py:18-21 | With nothing set, the URL is the local PostgreSQL one on port 5432, with or without the asyncpg driver |
| Strings.PrefixSlice | src/utils/strings.py:32 | Python's `s[:n]`: always a prefix of s, whose length is n clamped between 0 and the length of s, or for negative n that length plus n, clamped likewise |
| Strings.Truncate | src/utils/strings.py:28-32 | Text within the limit is returned as is; when the suffix fits the limit, a longer text becomes a prefix of itself plus the suffix, exactly max_length long |
| Strings.TruncateOverflowsShortLimit | src/utils/strings.py:32 | When the limit is below the suffix length, the result is longer than the limit |
| Strings.TruncateOverflowExample | src/utils/strings.py:32 | `truncate("abcdef", 2)` is "abcde...", eight characters |
| Strings.TruncateBounded | src/utils/strings.py:28-32 | Corrected truncate: text within the limit unchanged; otherwise never longer than the limit, and either a prefix of the text or ending in the suffix |
| Strings.TruncateBoundedAgrees | src/utils/strings.py:28-32 | Wherever the suffix fits (or no truncation happens) the corrected and the original truncate agree |
| Strings.TruncateBoundedIdempotent | src/utils/strings.py:28-32 | Truncating a truncated text again changes nothing |
| Strings.MaskLocal | src/utils/strings.py:41-44 | An empty local part is an error; 1–2 characters become the first plus '*'; longer ones keep first and last, star the middle, and keep the length |
| Strings.SplitAtFirst | src/utils/strings.py:40 | `split('@', 1)`: the address is local + "@" + domain with no '@' in the local part |
| Strings.MaskEmail | src/utils/strings.py:35-46 | No '@': unchanged; an '@' in first position: error (IndexError); otherwise the masked local part, '@', and the domain verbatim |
| Strings.MaskEmailKeepsDomain | src/utils/strings.py:40-46 | The masked address splits at its first '@' into the original domain |
| Strings.MaskEmailIdempotent | src/utils/strings.py:35-46 | Masking a masked address changes nothing |
| Strings.ExtractFilenameFromPath | src/utils/strings.py:49-51 | The result contains no '/', is the whole path when there is none, and otherwise is what follows the last '/' |
| Strings.ExtractFilenameOfJoin | src/utils/strings.py:49-51 | Extracting from directory + "/" + name gives back the name |
| Strings.Alphabet | src/utils/strings.py:17-19 | The alphabet has 62 letters and digits, or 94 characters with punctuation |
| Strings.GenerateRandomString | src/utils/strings.py:15-20 | Exactly `length` characters (none for a negative length), all from the alphabet; letters and digits only without punctuation |
| Strings.GenerateRandomStringReachesAll | src/utils/strings.py:15-20 | Every string over the alphabet is produced by some choice of draws |
| Validators.MatchRepeatMeaning | src/utils/validators.py:39-40 | `re.match("^C{lo,hi}$")` accepts exactly lo..hi characters of C, optionally followed by one newline |
| Validators.IsValidUsername | src/utils/validators.py:37-40 | An accepted name has 3 to 31 characters, all allowed except possibly a final one |
| Validators.ValidUsernameIff | src/utils/validators.py:37-40 | Valid iff 3–30 characters from [A-Za-z0-9_-], or such a name plus one trailing newline |
| Validators.UsernameTrailingNewline | src/utils/validators.py:39-40 | "abc\n" is accepted while "ab\n" and "abc\n\n" are not |
| Validators.IsValidPhone | src/utils/validators.py:11-14 | Valid iff, after one optional leading '+', at least 10 characters remain, all digits, whitespace, '-', '(' or ')' |
| Validators.IsValidEmail | src/utils/validators.py:5-8 | An address is accepted iff, less one final newline, it splits into a non-empty local part of `[a-zA-Z0-9._%+-]`, '@', a non-empty domain of `[a-zA-Z0-9.-]`, '.', and a top-level label of at least two letters; an accepted address has a single '@' and ends in two letters |
| Validators.ValidEmailFromParts | src/utils/validators.py:5-8 | Every local@domain.tld with allowed characters and a top-level label of at least two letters is accepted, with or without a final newline |
| Validators.ValidEmailHasParts | src/utils/validators.py:5-8 | Conversely, every accepted address is such a local@domain.tld, followed by at most one newline |
| Validators.PartsMatch | src/utils/validators.py:7 | In any such split the '@' is the first one, and the text after it is a host the pattern matches |
| Validators.HostShape | src/utils/validators.py:7 | A matching host has no '@' and ends in two letters |
| Validators.IsStrongPassword | src/utils/validators.py:17-34 | Valid iff length ≥ min and an upper-case letter, a lower-case letter and a digit occur; otherwise the message of the first failing check, in that order |
| Validators.StrongPasswordExtends | src/utils/validators.py:17-34 | Appending characters never makes a strong password weak |
| FileUtils.Components | src/utils/files.py:22 | The parts of a path as `PurePath` sees them: no empty, "." or '/'-containing part |
| FileUtils.PathName | src/utils/files.py:22 | `Path(p).name`: no '/', never "."; empty iff the path has no parts; otherwise the text after the last '/' when that is a proper part |
| FileUtils.Suffix | src/utils/files.py:22 | `Path.suffix`: non-empty iff the name has a '.' that is neither first nor last; then it is the name's tail from the last '.' |
| FileUtils.GetFileExtension | src/utils/files.py:149-151 | The suffix of the final path part, lower-cased character by character: same length, each character the lower-case form of the suffix's, starting with '.' when non-empty |
| FileUtils.ExtensionIgnoresCase | src/utils/files.py:169-190 | Two file names that differ only in letter case have the same extension and the same image/video/audio/document verdict |
| FileUtils.GenerateUniqueFilename | src/utils/files.py:20-23 | The name is the uuid followed by the original's suffix with its letter case kept: it starts with the uuid, is its own final path part, its suffix is the original's and is everything after the uuid |
| FileUtils.UniqueNamesDiffer | src/utils/files.py:20-23 | Different uuids give different stored names, whatever the originals |
| FileUtils.StoredNameKeepsSuffix | src/utils/files.py:22-23 | A uuid-like stem plus a suffix is its own final path part and has that suffix |
| FileUtils.ValidateFileType | src/utils/files.py:26-32 | Accepted iff the content type is present and allowed; otherwise 400 with the allowed-types message |
| FileUtils.FormatMegabytes | src/utils/files.py:44 | The megabyte figure of the message is the size in MiB rounded to one decimal |
| FileUtils.ValidateFileSize | src/utils/files.py:35-45 | Accepted iff size ≤ max_size; otherwise 400 "File too large. Maximum size: …" |
| FileUtils.DefaultSizeLimit | src/utils/files.py:11 | With the default limit of 10·1024·1024 a file of exactly that size passes, a larger one is refused with "10.0MB" in the message |
| FileUtils.RelativePath | src/utils/files.py:90 | directory + "/" + name when a directory is given, else the name; its last '/'-part is the name |
| FileUtils.SaveUploadMetadata | src/utils/files.py:48-97 | Type check only when allowed types are given, then the size check. On success: the relative path under the directory ending in the uuid name, size as uploaded, content type defaulting to "application/octet-stream", filename defaulting to "file", owner echoed |
| FileUtils.GetFileUrlFallsBackToPrivate | src/utils/files.py:135-136 | Any other level gets the private URL |
| FileUtils.GetFileUrlInjective | src/utils/files.py:114-136 | Over the four access levels, two URLs are equal iff path and level are: distinct files never share a URL |
| FileUtils.Root | src/utils/files.py:196 | A path has a root iff it starts with '/'; the root is "/" or, for exactly two leading slashes, "//" |
| FileUtils.AsPosix | src/utils/files.py:196 | `PurePosixPath(p).as_posix()` is never empty ("." for no parts), and reading it again as a path gives the same root and the same parts |
| FileUtils.SanitizePath | src/utils/files.py:193-199 | Accepted iff the normalised path neither contains ".." nor starts with '/'; the accepted result is that path; otherwise 400 "Invalid file path" |
| FileUtils.ComponentsOfJoin | src/utils/files.py:196 | Joining proper parts with '/' and splitting again gives the same parts |
| FileUtils.SanitizePathIdempotent | src/utils/files.py:193-199 | Sanitising an accepted path again accepts it unchanged |
| FileRoutes.UserDirectory | src/routes/files/route.py:35 | The upload directory is one path segment "user_" followed by decimal digits whose value is the user id |
| FileRoutes.UserDirectoryInjective | src/routes/files/route.py:35 | Two users share an upload directory iff they are the same user |
| FileRoutes.UploadRecord | src/routes/files/route.py:40-49 | The record is owned by the uploader, active, download count 0, with the upload's size, the requested level and permission, a path under user_<id>/, a filename that is the path's last segment and starts with the uuid, the original filename or "file", the content type or "application/octet-stream", and the original's extension |
| FileRoutes.InsertFile | src/routes/files/route.py:51-53 | Adds exactly the record under the next file id, and nothing else changes |
| FileRoutes.UploadAs | src/routes/files/route.py:33-55 | Oversize: 400 and nothing written. Otherwise the object is written in the area the level selects, and the commit fails with 500 iff the path is already stored; on success exactly one such record is added |
| FileRoutes.UploadFile | src/routes/files/route.py:19-26 | Authentication runs first: its 401 leaves disk and database alone; otherwise the upload as the authenticated user |
| FileRoutes.InsertFilePreservesValid | src/models/files.py:12-18 | Inserting a record of a stored owner with a free path keeps the constraints (unique file_path, owner foreign key) |
| FileRoutes.UploadPreservesValid | src/routes/files/route.py:40-53 | A successful upload by a stored user keeps every constraint |
| FileRoutes.Select | src/routes/files/route.py:68-74 | Filtering keeps exactly the listed ids whose record passes, in the same order |
| FileRoutes.OwnedActive | src/routes/files/route.py:68-71 | Exactly the user's active files, ascending |
| FileRoutes.ListOwnFiles | src/routes/files/route.py:66-75 | At most page_size of the user's active files, the i-th being the ((page-1)·page_size + i)-th of them |
| FileRoutes.ListMyFiles | src/routes/files/route.py:58-75 | 401 first, then 422 for bad paging, then that page of the caller's own active files |
| FileRoutes.GetFile | src/routes/files/route.py:78-117 | 401 first; 404 for a missing or inactive record before any access check; success iff owner or holder of the truthy required permission, and the object is in storage/private; then only that record's download count rises by one and the original filename is served; every 403 is a refused non-owner |
| FileRoutes.GetFileAgreesWithCheckFileAccess | src/routes/files/route.py:91-107 | The route's inline decision equals `check_file_access` with the owner path enabled |
| FileRoutes.DownloadCountsOnce | src/routes/files/route.py:114-115 | After commit the download count rises by exactly one on success and stays put on every failure |
| FileRoutes.GetFileIgnoresFileGrantTables | src/models/files.py:31-44 | The file_permissions and file_roles tables never change the download decision or its errors |
| FileRoutes.LoadIgnoresFileGrantTables | src/routes/deps.py:31-37 | The loaded user does not depend on those tables |
| FileRoutes.UpdateFile | src/routes/files/route.py:120-147 | 401, then 404 for a missing record (inactive ones included), then 403 for a non-owner. Then a truthy level, and any non-None permission or active flag, are written; owner, path, names, size and count stay |
| FileRoutes.UpdateFileIdempotent | src/routes/files/route.py:137-142 | Applying the same patch again returns the same store |
| FileRoutes.UpdateFilePreservesValid | src/routes/files/route.py:137-144 | An owner's patch keeps every constraint |
| FileRoutes.WithoutFile | src/routes/files/route.py:167 | Deleting the row removes exactly that record and, by cascade, its file_permissions and file_roles pairs |
| FileRoutes.DeleteFile | src/routes/files/route.py:150-170 | 401, 404 for a missing record, then 403 for a non-owner, all leaving the disk alone. Otherwise the object is removed from the area the current level names, and the row goes whatever that removal found |
| FileRoutes.RemoveFromUndoesPut | src/utils/files.py:100-111 | Saving puts the object in the area its level selects, and deleting from that area afterwards restores the disk when the object was new |
| FileRoutes.DeleteFilePreservesValid | src/routes/files/route.py:166-168 | A successful delete keeps every constraint |
| FileRoutes.DeleteAfterRelabelLeavesPublicObject | src/routes/files/route.py:137-138 | A record relabelled off "public" whose object lies in storage/public is deleted while the object stays there |
| FileRoutes.DeleteFileRemovingStorage | src/routes/files/route.py:166 | Corrected delete: same outcome as the route, but the object is removed from both areas |
| FileRoutes.DeleteFileRemovingStorageLeavesNothing | src/routes/files/route.py:166 | After the corrected delete no area holds the deleted record's object |
| RoleRoutes.CreateRoleBody | src/routes/roles/route.py:36-40 | 400 "Role already exists" iff the name is taken; otherwise exactly one role is added |
| RoleRoutes.CreateRoleEndpoint | src/routes/roles/route.py:30-35 | The administrator.create guard's 401/403 come first, then the body |
| RoleRoutes.ListRoles | src/routes/roles/route.py:43-70 | Unguarded. 422 iff the paging is out of range; otherwise the role count, and page p of the roles in id order |
| RoleRoutes.AssignRoleBody | src/routes/roles/route.py:80-86 | 404 when the user or the role is missing; 500 with the MissingGreenlet text when the user's roles are not loaded; otherwise the user id, and only that user's roles grow by the role |
| RoleRoutes.AssignRole | src/routes/roles/route.py:73-79 | The administrator.update guard first; then the body, with user and role in the right order, in the session the guard loaded the caller into |
| RoleRoutes.AssignRoleToOtherUserFails | src/services/authorization.py:66 | As written, after the guard an existing role assignment succeeds iff the target user is the caller; for any other user it is 500 with the MissingGreenlet text |
| RoleRoutes.AssignRoleLoaded | src/routes/roles/route.py:73-86 | Corrected endpoint with the target loaded: after the guard, 404 iff the user or the role is missing, otherwise only that user's roles grow by the role |
| RoleRoutes.CreatedRoleIsLost | src/database/db.py:19-21 | The created role is reported with its new id, yet after the session closes the database is unchanged and holds no role of that name |
| RoleRoutes.CreatedRoleIsKept | src/services/authorization.py:18-24 | With a commit the role is stored and `get_role_by_name` finds it |
| RoleRoutes.AssignedRoleIsLost | src/database/db.py:19-21 | A reported role assignment is absent from the database after the session closes |
| RoleRoutes.AssignedRoleIsKept | src/services/authorization.py:60-71 | With a commit and the target loaded, the user holds the role afterwards, the store stays valid, and only that user's links changed |
| PermissionRoutes.CreatePermissionBody | src/routes/permissions/route.py:36-42 | No duplicate pre-check: a taken name surfaces as 500 with the unique-violation text; otherwise exactly one permission is added |
| PermissionRoutes.CreatePermissionEndpoint | src/routes/permissions/route.py:30-35 | The administrator.create guard first, then the body |
| PermissionRoutes.ListPermissions | src/routes/permissions/route.py:45-72 | Unguarded. 422 iff the paging is out of range; otherwise the permission count and page p in id order |
| PermissionRoutes.AssignPermToRoleBody | src/routes/permissions/route.py:82-88 | 404 when the role or the permission is missing; 500 with the MissingGreenlet text when the role's permissions are not loaded; otherwise the role id, and only that role's permissions grow |
| PermissionRoutes.AssignPermToRole | src/routes/permissions/route.py:75-81 | The administrator.update guard first, then the body in the session the guard loaded the caller into |
| PermissionRoutes.AssignPermToUnheldRoleFails | src/services/authorization.py:81 | As written, after the guard a permission can be linked to an existing role iff the caller holds that role; otherwise 500 with the MissingGreenlet text |
| PermissionRoutes.AssignPermToRoleLoaded | src/routes/permissions/route.py:75-88 | Corrected endpoint: after the guard, 404 iff the role or the permission is missing, otherwise only that role's permissions grow |
| PermissionRoutes.AssignPermToUserBody | src/routes/permissions/route.py:98-104 | 404 when the user or the permission is missing; 500 with the MissingGreenlet text when the user's permissions are not loaded; otherwise the user id, and only that user's direct permissions grow |
| PermissionRoutes.AssignPermToUser | src/routes/permissions/route.py:91-97 | The administrator.update guard first, then the body in the session the guard loaded the caller into |
| PermissionRoutes.AssignPermToOtherUserFails | src/services/authorization.py:98 | As written, after the guard a direct grant to an existing user succeeds iff that user is the caller; otherwise 500 with the MissingGreenlet text |
| PermissionRoutes.AssignPermToUserLoaded | src/routes/permissions/route.py:91-104 | Corrected endpoint: after the guard, 404 iff the user or the permission is missing, otherwise only that user's direct permissions grow |
| PermissionRoutes.CreatedPermissionIsLost | src/database/db.py:19-21 | A reported permission creation leaves no permission of that name once the session closes |
| PermissionRoutes.CreatedPermissionIsKept | src/services/authorization.py:39-45 | With a commit the permission is stored and found by name |
| UserRoutes.CreatedUser | src/routes/users/create.py:24-33 | The new user copies email, username, names and phone, stores a hash that verifies the password, is active and has no links |
| UserRoutes.CreateUser | src/routes/users/create.py:13-44 | Unguarded. Fails iff the email or username is taken, always as 500 (a taken email reads "400: Email already registered"); otherwise exactly that user is added |
| UserRoutes.CreateUserPreservesValid | src/routes/users/create.py:35-37 | A successful create keeps every constraint |
| UserRoutes.GetAllUsers | src/routes/users/read.py:23-51 | The administrator.read guard, then 422 for bad paging; on success the caller holds administrator.read and the body is the paginated user list in id order |
| UserRoutes.GetUser | src/routes/users/read.py:54-63 | The administrator.read guard, then 404 iff no user has the id, else that user |
| UserRoutes.Patched | src/routes/users/update.py:25-32 | Only supplied fields change; email and links never do; a supplied password is stored as a hash that verifies it |
| UserRoutes.UpdateUserBody | src/routes/users/update.py:20-38 | 404 iff the user is missing; 500 iff the patch sets the password or is_active to null or takes another user's username; otherwise only that user changes, to the patched row |
| UserRoutes.UpdateUser | src/routes/users/update.py:13-19 | The administrator.update guard first, then the body |
| UserRoutes.UpdateUserBodyIdempotent | src/routes/users/update.py:25-32 | Re-applying a patch without a password to its result changes nothing |
| UserRoutes.UpdateUserBodyPreservesValid | src/routes/users/update.py:20-38 | A successful update keeps every constraint |
| UserRoutes.DeleteUserBody | src/routes/users/delete.py:17-24 | 404 iff the user is missing; 500 when the user owns files (the owner foreign key); otherwise only that user row goes and its id is echoed |
| UserRoutes.DeleteUser | src/routes/users/delete.py:11-16 | The administrator.delete guard first, then the body |
| UserRoutes.DeleteUserBodyPreservesValid | src/routes/users/delete.py:21-22 | A successful delete keeps every constraint |
| UserRoutes.DeletedUserIsNotFound | src/routes/users/read.py:60-62 | After a committed delete, another reader allowed to read users gets 404 for that id |
| UserRoutes.GetProfile | src/routes/users/profile.py:19-21 | 401 iff authentication fails; otherwise the authenticated user's row unchanged |
| UserRoutes.ChangePasswordAs | src/routes/users/profile.py:27-33 | 400 "Old password is incorrect" iff the old password does not verify; otherwise only the hash changes, to one that verifies the new password |
| UserRoutes.ChangePassword | src/routes/users/profile.py:24-26 | Authentication first, then the change for the authenticated user |
| UserRoutes.ChangePasswordPreservesValid | src/routes/users/profile.py:30-32 | A password change keeps every constraint |
| AuthRoutes.SignedUpUser | src/routes/auth/route.py:22 | The signed-up user has the email and username, a hash that verifies the password, no profile fields, no links |
| AuthRoutes.Signup | src/routes/auth/route.py:15-26 | 400 "Email already registered" for a taken email; 500 for a taken username; success iff both are free, adding exactly that user |
| AuthRoutes.SignupPreservesValid | src/routes/auth/route.py:22-24 | A successful sign-up keeps every constraint |
| AuthRoutes.TokenClaims | src/routes/auth/route.py:40 | The token payload names exactly the user id (a falsy id names none) |
| AuthRoutes.Token | src/routes/auth/route.py:29-41 | One 401 "Invalid credentials" for both an unknown email and a wrong password; success gives a bearer token signing the user's id |
| AuthRoutes.TokenAuthenticates | src/routes/auth/route.py:40-41 | When decoding inverts encoding, the issued token authenticates its user on later requests |
| AuthRoutes.SignupThenToken | src/routes/auth/route.py:15-41 | Logging in right after signing up, with the same email and password, gives a token for the new user |
| AuthRoutes.ChangePasswordThenToken | src/routes/users/profile.py:30-33 | After a password change, login works with the new password and fails with any different old one |
| Seed.EnsurePermission | scripts/seed_admin.py:38-44 | Afterwards a permission of that name exists; the store is unchanged when one did, else exactly one is added |
| Seed.EnsurePermissions | scripts/seed_admin.py:38-44 | Afterwards every listed permission exists; only permissions were added; nothing changes when all existed |
| Seed.EnsureAdminRole | scripts/seed_admin.py:47-54 | Afterwards the role "admin" exists and is returned: the existing one, or exactly one new role with the admin description |
| Seed.LinkPermission | scripts/seed_admin.py:57-77 | Afterwards the named permission is linked to the role; only that role's links grew; nothing changes when the link existed |
| Seed.LinkPermissions | scripts/seed_admin.py:57-77 | Afterwards every listed permission is linked to the role; nothing changes when all were |
| Seed.DefaultNames | scripts/seed_admin.py:26-31 | The names of the four default administrator permissions, in order |
| Seed.RoleWithDefaults | scripts/seed_admin.py:47-77 | With the defaults present, the admin role exists and links all four; users and files are untouched; a store already prepared is returned as is |
| Seed.Prepare | scripts/seed_admin.py:38-77 | The permission and role phase: afterwards the admin role holds all four permissions; users and files are untouched; an already prepared store is unchanged |
| Seed.AdminUser | scripts/seed_admin.py:89 | The admin user has the configured email and username and a hash verifying the configured password |
| Seed.AddAdmin | scripts/seed_admin.py:89-101 | Exactly one user is added, with the configured credentials and the admin role; roles and permissions are untouched |
| Seed.SeedAdmin | scripts/seed_admin.py:34-102 | The transaction fails (and is rolled back) iff the email is free but the username taken. On success the store is valid, prepared, and has the admin email; an existing admin email leaves users untouched |
| Seed.AdminReadyKept | scripts/seed_admin.py:89-101 | Adding users does not undo the role and permission phase |
| Seed.SeededAdminHoldsEveryPermission | scripts/seed_admin.py:89-101 | A newly created admin user holds all four default permissions through the admin role |
| Seed.AdminRoleGrantsDefaults | scripts/seed_admin.py:57-77 | Any user holding the prepared admin role is granted every default permission |
| Seed.SeedAdminIdempotent | scripts/seed_admin.py:38-101 | Running the seed on its own result succeeds and changes nothing, whatever salt the second run draws |
| Text.Lower | src/configs/db.py:6 | Lower-casing keeps the length, maps each upper-case ASCII letter to its lower-case one, and leaves no upper-case letter |
| Text.LowerIdempotent | src/utils/files.py:151 | Lower-casing twice is lower-casing once |
| Text.Split | src/utils/strings.py:51 | `split('/')` gives at least one part, none holding '/', the last being what follows the last '/' |
| Text.JoinSplit | src/utils/strings.py:51 | Joining the parts with the separator gives back the string |
| Text.NatToStringRoundTrip | src/routes/files/route.py:35 | The decimal form of an id reads back as that id |

## Left out

- Password hashing internals (bcrypt, the SHA-256 pre-hash, the secret key) are foreign cryptography. `Credentials` states only that verification accepts the hashed password and rejects every other one. The salt is a parameter.
- JWT signing and decoding are not part of this model. Encoding is a function parameter, and each request carries its decoder. The `exp` claim is not modelled, so token expiry is not checked. `AuthRoutes.TokenAuthenticates` assumes the encoder never returns an empty token.
- Deps.ClaimedUserId: only integer and null `user_id` claims are modelled. A string, boolean or float claim, and the `int(user_id)` conversion applied to it (a ValueError, hence 500, for a non-numeric string), are not. The tokens the server itself issues carry an integer claim (`AuthRoutes.TokenClaims`).
- Ids are unbounded naturals, while every id column is a 32-bit `Integer`. A path id or claimed id outside that range makes the database driver raise, which surfaces as 500; the model answers it as an absent row (404, or 401 for a claimed id).
- AccessGraph.IdsBelow: listing in ascending id order is a modelling choice. The list queries carry no `ORDER BY`, so the database may return rows in any order; the model fixes the order so that a page's contents are determined.
- Authorization.MissingGreenlet: the detail of the lazy-load 500 is the exception's message without the trailing link to the library's error documentation.
- Http.UniqueViolation: a shortened stand-in for the text of the driver's IntegrityError. `PermissionRoutes.CreatePermissionBody` (after its "Create permission error: " prefix) and `UserRoutes.CreateUser` (for a taken username) carry it as their 500 detail. The real text also names the dialect's exception class and the constraint, and adds a DETAIL line, the SQL and its parameters. Under MySQL it is the (1062, "Duplicate entry ...") form instead.
- Store lookups and unique constraints follow PostgreSQL's exact string comparison. MySQL is also a supported `DB_TYPE`, and its default collation compares names and emails case-insensitively. That collation is not modelled for `FindRoleByName`, `FindPermissionByName`, `FindUserByEmail` or the unique columns.
- The filesystem is the two sets of `Disk`. Directory creation, byte contents and `FileResponse` streaming are I/O. The absolute storage root (`get_storage_path`, the current working directory) is left out because only the relative path reaches the database.
- `uuid.uuid4()` and `secrets.choice` are randomness. The uuid is a parameter with the canonical 36-character shape, and the random draws are a function argument.
- Validators.IsValidPhone: `\d` and `\s` are taken in their ASCII sense, not Python's Unicode classes.
- Validators.IsStrongPassword: the digit class `\d` is ASCII-only for the same reason.
- Text.Lower: lower-cases ASCII letters only, not Python's full Unicode `str.lower`.
- FileUtils.FormatMegabytes: rounds the exact quotient `n / 2^20` to tenths, half to even. Python rounds the float `max_size / (1024 * 1024)`, which equals that quotient only for `max_size < 2^53`; a larger configured limit may print a different figure.
- `format_file_size`, `get_mime_type`, `slugify`, `sanitize_filename`, `is_valid_url` and `generate_token` are left out. They rest on float formatting, the platform mimetypes table, Unicode `\w` classes and URL-safe base64.
- `src/utils/datetime.py` and `src/utils/email.py` are left out: they are clock and SMTP I/O. `created_at` and `updated_at` are not modelled.
- `validate_image` and `validate_document` are `ValidateFileType` applied to fixed sets. They are not modelled separately.
- The `list_roles` and `list_permissions` service functions are never called. The list endpoints run their own queries, which are modelled.
- The `role_ids` and `permission_ids` fields of the file PATCH body are accepted but never read by the handler, so they are not modelled.
- Pydantic request validation is left out: `EmailStr`, field types, and the 422 for a malformed body. Response-model serialisation is left out too. Paging bounds are kept, as a 422 after the guards.
- The app bootstrap is left out: CORS, middlewares, the static mount of `storage/public`, and the lifespan hooks. Async scheduling and concurrent requests are left out too. Every handler runs as one sequential store transition.
- Column widths (`String(255)` and similar) are not modelled. `download_count` is an unbounded natural number, not a 32-bit integer column.
- `src/models/user_role.py` is not part of this model's sources. The `user_roles` table it defines is modelled like `user_permissions`.

## Findings

| source | as written | input that shows it | evidently intended | confidence | as-written member | corrected member |
|---|---|---|---|---|---|---|
| src/database/db.py:19-21 | The request session is closed without a commit. Role and permission creation and assignment only `flush`, so their changes are rolled back | Any successful POST to create a role or a permission, or to assign one | The changes persist, as they do for the user and file routes that commit | not executed | RoleRoutes.CreatedRoleIsLost, RoleRoutes.AssignedRoleIsLost, PermissionRoutes.CreatedPermissionIsLost | RoleRoutes.CreatedRoleIsKept, RoleRoutes.AssignedRoleIsKept, PermissionRoutes.CreatedPermissionIsKept |
| src/utils/strings.py:32 | `text[:max_length - len(suffix)] + suffix` with a limit below the suffix length slices from the end | `truncate("abcdef", 2)` returns "abcde...", eight characters | A result never longer than `max_length` | not executed | Strings.TruncateOverflowExample | Strings.TruncateBounded |
| src/routes/files/route.py:166 | Delete removes the object from the area named by the record's current level, which PATCH can change | Upload public, PATCH `access_level` to "private", then DELETE: the object stays in storage/public and is still served | Removing the object wherever it was written | not executed | FileRoutes.DeleteAfterRelabelLeavesPublicObject | FileRoutes.DeleteFileRemovingStorage |
| src/services/authorization.py:66 | `user.roles`, `role.permissions` and `user.permissions` are lazy relationships read in an `AsyncSession`. Only the caller's own collections were eager-loaded by the guard, so any other target needs a lazy load, which raises `MissingGreenlet` | An administrator assigns an existing role to an existing user other than themself (POST /roles/{role_id}/assign/{user_id}): 500. Likewise linking a permission to a role they do not hold, or granting one directly to another user | Each assignment succeeds for any existing rows, as the 404 branch promises for missing ones | not executed | RoleRoutes.AssignRoleToOtherUserFails, PermissionRoutes.AssignPermToUnheldRoleFails, PermissionRoutes.AssignPermToOtherUserFails | RoleRoutes.AssignRoleLoaded, PermissionRoutes.AssignPermToRoleLoaded, PermissionRoutes.AssignPermToUserLoaded |

=== FILE: auth_routes.dfy ===
/** Sign-up and login (src/routes/auth/route.py). Token signing is a
    parameter `encode`; a request carries the matching `decode` (see
    `Deps.AuthRequest`), so a login round trip holds whenever decoding
    undoes encoding. */
module AuthRoutes {
  import opened Wrappers
  import opened Credentials
  import opened AccessGraph
  import opened Http
  import opened Deps
  import UserRoutes
  import Text

  /** The `SignupIn` body, also the login form. */
  datatype SignupIn = SignupIn(email: string, password: string, username: Option<string>)

  /** The user `signup` inserts: email, username and password hash only. */
  function SignedUpUser(data: SignupIn, salt: nat): (u: User)
    ensures u.email == data.email && u.username == data.username
    ensures u.firstName.None? && u.lastName.None? && u.phone.None?
    ensures VerifyPassword(data.password, u.passwordHash)
    ensures u.isActive && u.roles == [] && u.permissions == []
  {
    NewUser(data.email, HashPassword(data.password, salt), data.username, None, None, None)
  }

  /** `signup`: a taken email is 400; otherwise the user is inserted and
      committed, and a taken username fails that commit with a 500. */
  function Signup(s: Store, data: SignupIn, salt: nat): (r: Outcome<Id>)
    requires Bounded(s)
    ensures EmailTaken(s, data.email) ==> r == Failure(Error(BadRequest, "Email already registered"))
    ensures !EmailTaken(s, data.email) && UsernameTaken(s, data.username, None) ==> r == Failure(ServerError)
    ensures r.Success? <==> !EmailTaken(s, data.email) && !UsernameTaken(s, data.username, None)
    ensures r.Success? ==> AddsOneUser(s, r.value.store, r.value.body, SignedUpUser(data, salt))
  {
    if FindUserByEmail(s, data.email).Some? then Failure(Error(BadRequest, "Email already registered"))
    else if UsernameTaken(s, data.username, None) then Failure(ServerError)
    else
      var (t, id) := InsertUser(s, SignedUpUser(data, salt));
      Success(Response(t, id))
  }

  lemma SignupPreservesValid(s: Store, data: SignupIn, salt: nat)
    requires Valid(s) && Signup(s, data, salt).Success?
    ensures Valid(Signup(s, data, salt).value.store)
  {
    InsertUserPreservesValid(s, SignedUpUser(data, salt));
  }

  /** `TokenWithUserOut`: the access token, its type, and the user. */
  datatype TokenOut = TokenOut(accessToken: string, tokenType: string, userId: Id)

  /** The payload `token` signs: only the user id. Expiry is left out. */
  function TokenClaims(id: Id): (c: Claims)
    ensures ClaimedUserId(c) == (if id == 0 then None else Some(id))
  {
    map["user_id" := IntClaim(id)]
  }

  /** `token`: the first user with the email, if its password verifies, gets
      a signed token; an unknown email and a wrong password are the same
      401. */
  function Token(s: Store, form: SignupIn, encode: Claims -> string): (r: Result<TokenOut, Error>)
    requires Bounded(s)
    ensures r.Failure? <==>
      FindUserByEmail(s, form.email).None? || !VerifyPassword(form.password, s.users[FindUserByEmail(s, form.email).value].passwordHash)
    ensures r.Failure? ==> r.error == Error(Unauthorized, "Invalid credentials")
    ensures r.Success? ==>
      && r.value.userId in s.users
      && s.users[r.value.userId].email == form.email
      && VerifyPassword(form.password, s.users[r.value.userId].passwordHash)
      && r.value.tokenType == "bearer"
      && r.value.accessToken == encode(TokenClaims(r.value.userId))
  {
    match FindUserByEmail(s, form.email)
    case None => Failure(Error(Unauthorized, "Invalid credentials"))
    case Some(id) =>
      if !VerifyPassword(form.password, s.users[id].passwordHash) then Failure(Error(Unauthorized, "Invalid credentials"))
      else Success(TokenOut(encode(TokenClaims(id)), "bearer", id))
  }

  /** The request a client sends with a token it was issued. */
  function BearerRequest(token: string, decode: string -> Option<Claims>): AuthRequest {
    AuthRequest(Some("Bearer " + token), decode)
  }

  /** A token `token` issues authenticates its user on later requests, as
      long as the decoder undoes the encoder and the user still exists. */
  lemma TokenAuthenticates(s: Store, form: SignupIn, encode: Claims -> string, decode: string -> Option<Claims>)
    requires Bounded(s) && Token(s, form, encode).Success?
    requires forall c: Claims :: decode(encode(c)) == Some(c) && encode(c) != ""
    ensures var out := Token(s, form, encode).value;
      GetCurrentUser(s, BearerRequest(out.accessToken, decode)) == Success(out.userId)
  {
    var out := Token(s, form, encode).value;
    assert decode(encode(TokenClaims(out.userId))) == Some(TokenClaims(out.userId));
    assert Text.Lower("Bearer") == "bearer";
    assert "Bearer" + " " + out.accessToken == "Bearer " + out.accessToken;
    BearerCredentialOfWellFormed("Bearer", out.accessToken);
    assert BearerCredential(BearerRequest(out.accessToken, decode).authorization)
      == Some(Credential("Bearer", out.accessToken));
  }

  /** Signing up and then logging in with the same email and password
      gives a token for the new user. */
  lemma SignupThenToken(s: Store, data: SignupIn, salt: nat, encode: Claims -> string)
    requires Bounded(s) && Signup(s, data, salt).Success?
    ensures var r := Signup(s, data, salt).value;
      Bounded(r.store) && Token(r.store, data, encode) == Success(TokenOut(encode(TokenClaims(r.body)), "bearer", r.body))
  {
    var r := Signup(s, data, salt).value;
    var t := r.store;
    assert Bounded(t);
    assert forall k | k in t.users && t.users[k].email == data.email :: k == r.body;
    FindUserByEmailUnique(t, data.email, r.body);
  }

  /** After a password change, login works with the new password and no
      longer with an old one that differs from it. */
  lemma ChangePasswordThenToken(s: Store, uid: Id, oldPassword: string, newPassword: string, salt: nat,
                                encode: Claims -> string)
    requires Valid(s) && uid in s.users
    requires UserRoutes.ChangePasswordAs(s, uid, oldPassword, newPassword, salt).Success?
    ensures var t := UserRoutes.ChangePasswordAs(s, uid, oldPassword, newPassword, salt).value.store;
      && Bounded(t)
      && Token(t, SignupIn(s.users[uid].email, newPassword, None), encode).Success?
      && Token(t, SignupIn(s.users[uid].email, newPassword, None), encode).value.userId == uid
      && (oldPassword != newPassword ==> Token(t, SignupIn(s.users[uid].email, oldPassword, None), encode).Failure?)
  {
    var t := UserRoutes.ChangePasswordAs(s, uid, oldPassword, newPassword, salt).value.store;
    assert Bounded(t);
    var email := s.users[uid].email;
    forall k | k in t.users && t.users[k].email == email
      ensures k == uid
    {
      assert t.users[k].email == s.users[k].email;
    }
    FindUserByEmailUnique(t, email, uid);
    if oldPassword != newPassword {
      VerifyRejectsOtherPassword(newPassword, oldPassword, salt);
    }
  }
}

=== FILE: authorization.dfy ===
/** The role and permission service (src/services/authorization.py): store
    transitions on the session's state. A service call that raises leaves
    the state as it was. */
module Authorization {
  import opened Wrappers
  import opened AccessGraph
  import opened Permissions
  import opened Http

  /** The exceptions the service raises: `ValueError` for a missing
      endpoint, the database's unique-constraint violation on flush, and
      SQLAlchemy's `MissingGreenlet` for a lazy load inside an
      `AsyncSession`. */
  datatype ServiceError =
    | NotFoundError(message: string)
    | IntegrityError(message: string)
    | LazyLoadError(message: string)

  type ServiceResult<T> = Result<Response<T>, ServiceError>

  /** The text of `MissingGreenlet`. */
  const MissingGreenlet := "greenlet_spawn has not been called; can't call await_only() here. Was IO attempted in an unexpected place?"

  /** How the assignment endpoints report a service failure: `except
      ValueError` is 404 and any other exception 500, each with the
      exception's text as detail. */
  function AsHttpError(e: ServiceError): (h: Error)
    ensures h.detail == e.message
    ensures h.status == (if e.NotFoundError? then NotFound else InternalError)
  {
    match e
    case NotFoundError(m) => Error(NotFound, m)
    case IntegrityError(m) => Error(InternalError, m)
    case LazyLoadError(m) => Error(InternalError, m)
  }

  /** The relationship collections a request session already holds: the
      users in `userLinks` have `roles` and `permissions` loaded, the roles
      in `rolePermissions` have `permissions` loaded. The relationships are
      lazy (src/models/users.py:47-48, src/models/roles.py:15), so reading
      any other collection would need a lazy load, which an `AsyncSession`
      refuses. */
  datatype Loaded = Loaded(userLinks: set<Id>, rolePermissions: set<Id>)

  /** What an endpoint's session holds once its guard has passed:
      `get_current_user` eager-loaded the caller's roles with their
      permissions and the caller's direct permissions, and `session.get`
      hands back those same objects from the identity map. */
  function GuardLoaded(s: Store, caller: Id): Loaded
    requires caller in s.users
  {
    Loaded({caller}, set r | r in s.users[caller].roles)
  }

  /** Every collection loaded, as an eager load of the target in the
      service, or `lazy="selectin"` on the relationships, would give. */
  function AllLoaded(s: Store): Loaded {
    Loaded(s.users.Keys, s.roles.Keys)
  }

  /** `session.get(Users, id)` finds a row: path ids are plain ints. */
  predicate HasUser(s: Store, id: int) { id >= 0 && id in s.users }
  predicate HasRole(s: Store, id: int) { id >= 0 && id in s.roles }
  predicate HasPermissionRow(s: Store, id: int) { id >= 0 && id in s.permissions }

  /** `t` differs from `s` at most in the one user `uid`, and that user keeps
      everything but its role and permission lists. */
  predicate OnlyUserLinksChanged(s: Store, t: Store, uid: Id)
    requires uid in s.users
  {
    && t.roles == s.roles && t.permissions == s.permissions && t.files == s.files
    && t.filePermissions == s.filePermissions && t.fileRoles == s.fileRoles
    && t.nextUserId == s.nextUserId && t.nextRoleId == s.nextRoleId
    && t.nextPermissionId == s.nextPermissionId && t.nextFileId == s.nextFileId
    && t.users.Keys == s.users.Keys
    && (forall v | v in s.users && v != uid :: t.users[v] == s.users[v])
    && t.users[uid].email == s.users[uid].email
    && t.users[uid].passwordHash == s.users[uid].passwordHash
    && t.users[uid].username == s.users[uid].username
    && t.users[uid].firstName == s.users[uid].firstName
    && t.users[uid].lastName == s.users[uid].lastName
    && t.users[uid].phone == s.users[uid].phone
    && t.users[uid].isActive == s.users[uid].isActive
  }

  /** `t` differs from `s` at most in the permission list of role `rid`. */
  predicate OnlyRoleLinksChanged(s: Store, t: Store, rid: Id)
    requires rid in s.roles
  {
    && t.users == s.users && t.permissions == s.permissions && t.files == s.files
    && t.filePermissions == s.filePermissions && t.fileRoles == s.fileRoles
    && t.nextUserId == s.nextUserId && t.nextRoleId == s.nextRoleId
    && t.nextPermissionId == s.nextPermissionId && t.nextFileId == s.nextFileId
    && t.roles.Keys == s.roles.Keys
    && (forall v | v in s.roles && v != rid :: t.roles[v] == s.roles[v])
    && t.roles[rid].name == s.roles[rid].name
    && t.roles[rid].description == s.roles[rid].description
  }

  /** `t` is `s` plus exactly one new role, under the next id. */
  predicate AddsOneRole(s: Store, t: Store, id: Id, name: string, description: Option<string>) {
    && id == s.nextRoleId && id !in s.roles
    && t == s.(roles := t.roles, nextRoleId := s.nextRoleId + 1)
    && t.roles.Keys == s.roles.Keys + {id}
    && (forall k | k in s.roles :: t.roles[k] == s.roles[k])
    && t.roles[id] == Role(name, description, [])
  }

  /** `t` is `s` plus exactly one new permission, under the next id. */
  predicate AddsOnePermission(s: Store, t: Store, id: Id, name: string, description: Option<string>) {
    && id == s.nextPermissionId && id !in s.permissions
    && t == s.(permissions := t.permissions, nextPermissionId := s.nextPermissionId + 1)
    && t.permissions.Keys == s.permissions.Keys + {id}
    && (forall k | k in s.permissions :: t.permissions[k] == s.permissions[k])
    && t.permissions[id] == Permission(name, description)
  }

  /** `create_role`: insert a role carrying the given name and description;
      a taken name violates `roles.name UNIQUE` on flush. */
  function CreateRole(s: Store, name: string, description: Option<string>): (r: ServiceResult<Id>)
    requires Bounded(s)
    ensures r.Failure? <==> exists k | k in s.roles :: s.roles[k].name == name
    ensures r.Failure? ==> r.error.IntegrityError?
    ensures r.Success? ==> AddsOneRole(s, r.value.store, r.value.body, name, description)
  {
    if FindRoleByName(s, name).Some? then Failure(IntegrityError(UniqueViolation))
    else
      var id := s.nextRoleId;
      Success(Response(s.(roles := s.roles[id := Role(name, description, [])], nextRoleId := id + 1), id))
  }

  /** `create_permission`: insert a permission carrying the given name and
      description; a taken name violates `permissions.name UNIQUE`. */
  function CreatePermission(s: Store, name: string, description: Option<string>): (r: ServiceResult<Id>)
    requires Bounded(s)
    ensures r.Failure? <==> exists k | k in s.permissions :: s.permissions[k].name == name
    ensures r.Failure? ==> r.error.IntegrityError?
    ensures r.Success? ==> AddsOnePermission(s, r.value.store, r.value.body, name, description)
  {
    if FindPermissionByName(s, name).Some? then Failure(IntegrityError(UniqueViolation))
    else
      var id := s.nextPermissionId;
      Success(Response(s.(permissions := s.permissions[id := Permission(name, description)],
                          nextPermissionId := id + 1), id))
  }

  /** The `user_roles` pair `(uid, rid)`, added unless present. */
  function LinkRoleToUser(s: Store, uid: Id, rid: Id): (t: Store)
    requires uid in s.users
    ensures OnlyUserLinksChanged(s, t, uid)
    ensures t.users[uid].permissions == s.users[uid].permissions
    ensures forall x :: x in t.users[uid].roles <==> x in s.users[uid].roles || x == rid
    ensures NoDup(s.users[uid].roles) ==> NoDup(t.users[uid].roles)
    ensures rid in s.users[uid].roles ==> t == s
  {
    var u := s.users[uid];
    s.(users := s.users[uid := u.(roles := AppendIfAbsent(u.roles, rid))])
  }

  /** The `role_permissions` pair `(rid, pid)`, added unless present. */
  function LinkPermissionToRole(s: Store, rid: Id, pid: Id): (t: Store)
    requires rid in s.roles
    ensures OnlyRoleLinksChanged(s, t, rid)
    ensures forall x :: x in t.roles[rid].permissions <==> x in s.roles[rid].permissions || x == pid
    ensures NoDup(s.roles[rid].permissions) ==> NoDup(t.roles[rid].permissions)
    ensures pid in s.roles[rid].permissions ==> t == s
  {
    var ro := s.roles[rid];
    s.(roles := s.roles[rid := ro.(permissions := AppendIfAbsent(ro.permissions, pid))])
  }

  /** The `user_permissions` pair `(uid, pid)`, added unless present. */
  function LinkPermissionToUser(s: Store, uid: Id, pid: Id): (t: Store)
    requires uid in s.users
    ensures OnlyUserLinksChanged(s, t, uid)
    ensures t.users[uid].roles == s.users[uid].roles
    ensures forall x :: x in t.users[uid].permissions <==> x in s.users[uid].permissions || x == pid
    ensures NoDup(s.users[uid].permissions) ==> NoDup(t.users[uid].permissions)
    ensures pid in s.users[uid].permissions ==> t == s
  {
    var u := s.users[uid];
    s.(users := s.users[uid := u.(permissions := AppendIfAbsent(u.permissions, pid))])
  }

  /** `assign_role_to_user`: NotFound when either row is missing; then
      `role not in user.roles` reads the user's roles, which fails unless
      the session holds them; otherwise the role joins the user's roles
      unless it is already there. */
  function AssignRoleToUser(s: Store, loaded: Loaded, userId: int, roleId: int): (r: ServiceResult<Id>)
    ensures r.Failure? <==> !HasUser(s, userId) || !HasRole(s, roleId) || userId !in loaded.userLinks
    ensures (!HasUser(s, userId) || !HasRole(s, roleId)) ==> r == Failure(NotFoundError("User or Role not found"))
    ensures r.Failure? && !(!HasUser(s, userId) || !HasRole(s, roleId)) ==> r.error == LazyLoadError(MissingGreenlet)
    ensures r.Success? ==> r.value.body == userId && OnlyUserLinksChanged(s, r.value.store, userId)
    ensures r.Success? ==> r.value.store.users[userId].permissions == s.users[userId].permissions
    ensures r.Success? ==> forall x :: x in r.value.store.users[userId].roles <==> x in s.users[userId].roles || x == roleId
    ensures r.Success? && roleId in s.users[userId].roles ==> r.value.store == s
  {
    if !HasUser(s, userId) || !HasRole(s, roleId) then Failure(NotFoundError("User or Role not found"))
    else if userId !in loaded.userLinks then Failure(LazyLoadError(MissingGreenlet))
    else Success(Response(LinkRoleToUser(s, userId, roleId), userId as Id))
  }

  /** `assign_permission_to_role`: the same shape on a role's permissions,
      which must be loaded for `perm not in role.permissions`. The source
      logs and re-raises every error, so errors pass through. */
  function AssignPermissionToRole(s: Store, loaded: Loaded, roleId: int, permissionId: int): (r: ServiceResult<Id>)
    ensures r.Failure? <==>
      !HasRole(s, roleId) || !HasPermissionRow(s, permissionId) || roleId !in loaded.rolePermissions
    ensures (!HasRole(s, roleId) || !HasPermissionRow(s, permissionId)) ==> r == Failure(NotFoundError("Role or Permission not found"))
    ensures r.Failure? && !(!HasRole(s, roleId) || !HasPermissionRow(s, permissionId)) ==> r.error == LazyLoadError(MissingGreenlet)
    ensures r.Success? ==> r.value.body == roleId && OnlyRoleLinksChanged(s, r.value.store, roleId)
    ensures r.Success? ==> forall x :: x in r.value.store.roles[roleId].permissions <==> x in s.roles[roleId].permissions || x == permissionId
    ensures r.Success? && permissionId in s.roles[roleId].permissions ==> r.value.store == s
  {
    if !HasRole(s, roleId) || !HasPermissionRow(s, permissionId) then Failure(NotFoundError("Role or Permission not found"))
    else if roleId !in loaded.rolePermissions then Failure(LazyLoadError(MissingGreenlet))
    else Success(Response(LinkPermissionToRole(s, roleId, permissionId), roleId as Id))
  }

  /** `assign_permission_to_user`: the same shape on a user's direct
      permissions, which must be loaded for `perm not in user.permissions`. */
  function AssignPermissionToUser(s: Store, loaded: Loaded, userId: int, permissionId: int): (r: ServiceResult<Id>)
    ensures r.Failure? <==>
      !HasUser(s, userId) || !HasPermissionRow(s, permissionId) || userId !in loaded.userLinks
    ensures (!HasUser(s, userId) || !HasPermissionRow(s, permissionId)) ==> r == Failure(NotFoundError("User or Permission not found"))
    ensures r.Failure? && !(!HasUser(s, userId) || !HasPermissionRow(s, permissionId)) ==> r.error == LazyLoadError(MissingGreenlet)
    ensures r.Success? ==> r.value.body == userId && OnlyUserLinksChanged(s, r.value.store, userId)
    ensures r.Success? ==> r.value.store.users[userId].roles == s.users[userId].roles
    ensures r.Success? ==> forall x :: x in r.value.store.users[userId].permissions <==> x in s.users[userId].permissions || x == permissionId
    ensures r.Success? && permissionId in s.users[userId].permissions ==> r.value.store == s
  {
    if !HasUser(s, userId) || !HasPermissionRow(s, permissionId) then Failure(NotFoundError("User or Permission not found"))
    else if userId !in loaded.userLinks then Failure(LazyLoadError(MissingGreenlet))
    else Success(Response(LinkPermissionToUser(s, userId, permissionId), userId as Id))
  }

  /** After the guard, the role assignment reaches only the caller: for an
      existing user and role it succeeds exactly when the user is the one
      the guard loaded, and fails with the lazy-load error otherwise. */
  lemma AssignRoleToUserOnlyCaller(s: Store, caller: Id, userId: int, roleId: int)
    requires caller in s.users && HasUser(s, userId) && HasRole(s, roleId)
    ensures AssignRoleToUser(s, GuardLoaded(s, caller), userId, roleId).Success? <==> userId == caller
    ensures userId != caller ==>
      AssignRoleToUser(s, GuardLoaded(s, caller), userId, roleId) == Failure(LazyLoadError(MissingGreenlet))
  {
  }

  /** A permission can be linked only to a role the caller holds. */
  lemma AssignPermissionToRoleOnlyHeldRoles(s: Store, caller: Id, roleId: int, permissionId: int)
    requires caller in s.users && HasRole(s, roleId) && HasPermissionRow(s, permissionId)
    ensures AssignPermissionToRole(s, GuardLoaded(s, caller), roleId, permissionId).Success? <==>
      roleId in s.users[caller].roles
  {
  }

  /** With every collection loaded, each assignment fails exactly when a
      row is missing. */
  lemma AssignmentsWithAllLoaded(s: Store, userId: int, roleId: int, permissionId: int)
    ensures AssignRoleToUser(s, AllLoaded(s), userId, roleId).Success? <==> HasUser(s, userId) && HasRole(s, roleId)
    ensures AssignPermissionToRole(s, AllLoaded(s), roleId, permissionId).Success? <==>
      HasRole(s, roleId) && HasPermissionRow(s, permissionId)
    ensures AssignPermissionToUser(s, AllLoaded(s), userId, permissionId).Success? <==>
      HasUser(s, userId) && HasPermissionRow(s, permissionId)
  {
  }

  /** A second identical role assignment succeeds and changes nothing. */
  lemma AssignRoleToUserIdempotent(s: Store, loaded: Loaded, userId: int, roleId: int)
    requires AssignRoleToUser(s, loaded, userId, roleId).Success?
    ensures var t := AssignRoleToUser(s, loaded, userId, roleId).value.store;
      AssignRoleToUser(t, loaded, userId, roleId) == Success(Response(t, userId as Id))
  {
  }

  lemma AssignPermissionToRoleIdempotent(s: Store, loaded: Loaded, roleId: int, permissionId: int)
    requires AssignPermissionToRole(s, loaded, roleId, permissionId).Success?
    ensures var t := AssignPermissionToRole(s, loaded, roleId, permissionId).value.store;
      AssignPermissionToRole(t, loaded, roleId, permissionId) == Success(Response(t, roleId as Id))
  {
  }

  lemma AssignPermissionToUserIdempotent(s: Store, loaded: Loaded, userId: int, permissionId: int)
    requires AssignPermissionToUser(s, loaded, userId, permissionId).Success?
    ensures var t := AssignPermissionToUser(s, loaded, userId, permissionId).value.store;
      AssignPermissionToUser(t, loaded, userId, permissionId) == Success(Response(t, userId as Id))
  {
  }

  /** Role creation keeps the database constraints. */
  lemma CreateRolePreservesValid(s: Store, name: string, description: Option<string>)
    requires Valid(s)
    requires CreateRole(s, name, description).Success?
    ensures Valid(CreateRole(s, name, description).value.store)
  {
    var r := CreateRole(s, name, description);
    AddsOneRolePreservesValid(s, r.value.store, r.value.body, name, description);
  }

  lemma AddsOneRolePreservesValid(s: Store, t: Store, id: Id, name: string, description: Option<string>)
    requires Valid(s) && AddsOneRole(s, t, id, name, description)
    requires forall k | k in s.roles :: s.roles[k].name != name
    ensures Valid(t)
  {
    assert Bounded(t);
    AddsOneRoleKeepsLinked(s, t, id, name, description);
    AddsOneRoleKeepsUnique(s, t, id, name, description);
  }

  lemma AddsOneRoleKeepsLinked(s: Store, t: Store, id: Id, name: string, description: Option<string>)
    requires Linked(s) && AddsOneRole(s, t, id, name, description)
    ensures Linked(t)
  {
    assert t.users == s.users && t.permissions == s.permissions && t.files == s.files;
    forall r | r in t.roles ensures NoDup(t.roles[r].permissions) {
      if r != id { assert t.roles[r] == s.roles[r]; }
    }
    forall r, i | r in t.roles && 0 <= i < |t.roles[r].permissions|
      ensures t.roles[r].permissions[i] in t.permissions
    {
      assert r != id;
      assert t.roles[r] == s.roles[r];
    }
  }

  lemma AddsOneRoleKeepsUnique(s: Store, t: Store, id: Id, name: string, description: Option<string>)
    requires Unique(s) && AddsOneRole(s, t, id, name, description)
    requires forall k | k in s.roles :: s.roles[k].name != name
    ensures Unique(t)
  {
    assert t.users == s.users && t.permissions == s.permissions && t.files == s.files;
    forall a, b | a in t.roles && b in t.roles && t.roles[a].name == t.roles[b].name
      ensures a == b
    {
      if a != id && b != id { assert t.roles[a] == s.roles[a] && t.roles[b] == s.roles[b]; }
    }
  }

  lemma CreatePermissionPreservesValid(s: Store, name: string, description: Option<string>)
    requires Valid(s)
    requires CreatePermission(s, name, description).Success?
    ensures Valid(CreatePermission(s, name, description).value.store)
  {
    var r := CreatePermission(s, name, description);
    AddsOnePermissionPreservesValid(s, r.value.store, r.value.body, name, description);
  }

  lemma AddsOnePermissionPreservesValid(s: Store, t: Store, id: Id, name: string, description: Option<string>)
    requires Valid(s) && AddsOnePermission(s, t, id, name, description)
    requires forall k | k in s.permissions :: s.permissions[k].name != name
    ensures Valid(t)
  {
    assert Bounded(t);
    AddsOnePermissionKeepsLinked(s, t, id, name, description);
    AddsOnePermissionKeepsUnique(s, t, id, name, description);
  }

  lemma AddsOnePermissionKeepsLinked(s: Store, t: Store, id: Id, name: string, description: Option<string>)
    requires Linked(s) && AddsOnePermission(s, t, id, name, description)
    ensures Linked(t)
  {
    assert t.users == s.users && t.roles == s.roles && t.files == s.files;
    forall u, i | u in t.users && 0 <= i < |t.users[u].permissions|
      ensures t.users[u].permissions[i] in t.permissions
    {
      assert s.users[u].permissions[i] in s.permissions;
    }
    forall r, i | r in t.roles && 0 <= i < |t.roles[r].permissions|
      ensures t.roles[r].permissions[i] in t.permissions
    {
      assert s.roles[r].permissions[i] in s.permissions;
    }
  }

  lemma AddsOnePermissionKeepsUnique(s: Store, t: Store, id: Id, name: string, description: Option<string>)
    requires Unique(s) && AddsOnePermission(s, t, id, name, description)
    requires forall k | k in s.permissions :: s.permissions[k].name != name
    ensures Unique(t)
  {
    assert t.users == s.users && t.roles == s.roles && t.files == s.files;
    forall a, b | a in t.permissions && b in t.permissions && t.permissions[a].name == t.permissions[b].name
      ensures a == b
    {
      if a != id && b != id { assert t.permissions[a] == s.permissions[a] && t.permissions[b] == s.permissions[b]; }
    }
  }

  /** A store that differs from a valid one only in one user's (no-dup,
      existing) role and permission lists is valid. */
  lemma UserLinksChangePreservesValid(s: Store, t: Store, uid: Id)
    requires Valid(s) && uid in s.users && OnlyUserLinksChanged(s, t, uid)
    requires NoDup(t.users[uid].roles) && NoDup(t.users[uid].permissions)
    requires forall x | x in t.users[uid].roles :: x in s.roles
    requires forall x | x in t.users[uid].permissions :: x in s.permissions
    ensures Valid(t)
  {
    assert Bounded(t);
    forall u | u in t.users ensures NoDup(t.users[u].roles) && NoDup(t.users[u].permissions) {
      if u != uid { assert t.users[u] == s.users[u]; }
    }
    forall u, i | u in t.users && 0 <= i < |t.users[u].roles| ensures t.users[u].roles[i] in t.roles {
      if u != uid { assert t.users[u] == s.users[u]; }
      else { assert t.users[u].roles[i] in t.users[u].roles; }
    }
    forall u, i | u in t.users && 0 <= i < |t.users[u].permissions|
      ensures t.users[u].permissions[i] in t.permissions
    {
      if u != uid { assert t.users[u] == s.users[u]; }
      else { assert t.users[u].permissions[i] in t.users[u].permissions; }
    }
    assert Linked(t);
    forall a, b | a in t.users && b in t.users && t.users[a].email == t.users[b].email ensures a == b {
      assert s.users[a].email == s.users[b].email by {
        if a != uid { assert t.users[a] == s.users[a]; }
        if b != uid { assert t.users[b] == s.users[b]; }
      }
    }
    forall a, b | a in t.users && b in t.users && t.users[a].username.Some?
      && t.users[a].username == t.users[b].username
      ensures a == b
    {
      assert s.users[a].username == t.users[a].username by {
        if a != uid { assert t.users[a] == s.users[a]; }
      }
      assert s.users[b].username == t.users[b].username by {
        if b != uid { assert t.users[b] == s.users[b]; }
      }
    }
    assert Unique(t);
  }

  /** Inserting an association pair keeps foreign keys and the composite
      keys: no duplicate pair is ever inserted. */
  lemma LinkRoleToUserPreservesValid(s: Store, uid: Id, rid: Id)
    requires Valid(s) && uid in s.users && rid in s.roles
    ensures Valid(LinkRoleToUser(s, uid, rid))
  {
    UserLinksChangePreservesValid(s, LinkRoleToUser(s, uid, rid), uid);
  }

  lemma LinkPermissionToUserPreservesValid(s: Store, uid: Id, pid: Id)
    requires Valid(s) && uid in s.users && pid in s.permissions
    ensures Valid(LinkPermissionToUser(s, uid, pid))
  {
    UserLinksChangePreservesValid(s, LinkPermissionToUser(s, uid, pid), uid);
  }

  lemma LinkPermissionToRolePreservesValid(s: Store, rid: Id, pid: Id)
    requires Valid(s) && rid in s.roles && pid in s.permissions
    ensures Valid(LinkPermissionToRole(s, rid, pid))
  {
    var t := LinkPermissionToRole(s, rid, pid);
    assert Bounded(t);
    forall r | r in t.roles ensures NoDup(t.roles[r].permissions) {
      if r != rid { assert t.roles[r] == s.roles[r]; }
    }
    forall r, i | r in t.roles && 0 <= i < |t.roles[r].permissions|
      ensures t.roles[r].permissions[i] in t.permissions
    {
      if r != rid { assert t.roles[r] == s.roles[r]; }
      else { assert t.roles[r].permissions[i] in t.roles[r].permissions; }
    }
    assert Linked(t);
    forall a, b | a in t.roles && b in t.roles && t.roles[a].name == t.roles[b].name ensures a == b {
      assert s.roles[a].name == s.roles[b].name by {
        if a != rid { assert t.roles[a] == s.roles[a]; }
        if b != rid { assert t.roles[b] == s.roles[b]; }
      }
    }
    assert Unique(t);
  }

  /** Successful assignments keep the database constraints. */
  lemma AssignRoleToUserPreservesValid(s: Store, loaded: Loaded, userId: int, roleId: int)
    requires Valid(s)
    requires AssignRoleToUser(s, loaded, userId, roleId).Success?
    ensures Valid(AssignRoleToUser(s, loaded, userId, roleId).value.store)
  {
    LinkRoleToUserPreservesValid(s, userId, roleId);
  }

  lemma AssignPermissionToUserPreservesValid(s: Store, loaded: Loaded, userId: int, permissionId: int)
    requires Valid(s)
    requires AssignPermissionToUser(s, loaded, userId, permissionId).Success?
    ensures Valid(AssignPermissionToUser(s, loaded, userId, permissionId).value.store)
  {
    LinkPermissionToUserPreservesValid(s, userId, permissionId);
  }

  lemma AssignPermissionToRolePreservesValid(s: Store, loaded: Loaded, roleId: int, permissionId: int)
    requires Valid(s)
    requires AssignPermissionToRole(s, loaded, roleId, permissionId).Success?
    ensures Valid(AssignPermissionToRole(s, loaded, roleId, permissionId).value.store)
  {
    LinkPermissionToRolePreservesValid(s, roleId, permissionId);
  }

  /** `t` links every permission `s` links to any user, and names stay. */
  predicate LinksGrow(s: Store, t: Store) {
    && t.users.Keys == s.users.Keys
    && t.permissions == s.permissions
    && (forall u, p | u in s.users && p in s.users[u].permissions :: p in t.users[u].permissions)
    && (forall u, r | u in s.users && r in s.users[u].roles :: r in t.users[u].roles)
    && (forall r | r in s.roles :: r in t.roles)
    && (forall r, p | r in s.roles && p in s.roles[r].permissions :: p in t.roles[r].permissions)
  }

  /** Growing the links never withdraws a grant. */
  lemma GrantsMonotone(s: Store, t: Store, uid: Id, name: string)
    requires LinksGrow(s, t) && uid in s.users
    requires Grants(s, uid, name)
    ensures Grants(t, uid, name)
  {
    var p :| p in s.permissions && s.permissions[p].name == name &&
      (p in s.users[uid].permissions || exists r | r in s.users[uid].roles && r in s.roles :: p in s.roles[r].permissions);
    if p !in s.users[uid].permissions {
      var r :| r in s.users[uid].roles && r in s.roles && p in s.roles[r].permissions;
      assert r in t.users[uid].roles && r in t.roles && p in t.roles[r].permissions;
    }
  }

  /** Monotonicity: no assignment turns `has_permission` from true to false,
      for any user and any name. */
  lemma AssignmentsOnlyAddGrants(s: Store, loaded: Loaded, userId: int, roleId: int, permissionId: int)
    requires Linked(s)
    ensures AssignRoleToUser(s, loaded, userId, roleId).Success? ==>
      LinksGrow(s, AssignRoleToUser(s, loaded, userId, roleId).value.store)
    ensures AssignPermissionToUser(s, loaded, userId, permissionId).Success? ==>
      LinksGrow(s, AssignPermissionToUser(s, loaded, userId, permissionId).value.store)
    ensures AssignPermissionToRole(s, loaded, roleId, permissionId).Success? ==>
      LinksGrow(s, AssignPermissionToRole(s, loaded, roleId, permissionId).value.store)
  {
  }

  /** The same fact on the loaded user: every name `has_permission` granted
      before a role assignment is still granted after it. */
  lemma AssignRoleKeepsHasPermission(s: Store, loaded: Loaded, userId: int, roleId: int, uid: Id, name: string)
    requires Valid(s) && uid in s.users
    requires AssignRoleToUser(s, loaded, userId, roleId).Success?
    requires HasPermission(Load(s, uid), name)
    ensures var t := AssignRoleToUser(s, loaded, userId, roleId).value.store;
      Linked(t) && HasPermission(Load(t, uid), name)
  {
    var t := AssignRoleToUser(s, loaded, userId, roleId).value.store;
    AssignRoleToUserPreservesValid(s, loaded, userId, roleId);
    AssignmentsOnlyAddGrants(s, loaded, userId, roleId, 0);
    HasPermissionIsGrant(s, uid, name);
    GrantsMonotone(s, t, uid, name);
    HasPermissionIsGrant(t, uid, name);
  }
}

=== FILE: credentials.dfy ===
/** Password hashing (src/utils/security.py) kept abstract: a stored hash
    records the per-call salt and the password it was computed from, and
    verification succeeds exactly for that password. The real routine is a
    SHA-256 pre-hash followed by bcrypt; collisions are not modelled. */
module Credentials {

  /** A stored `password_hash` column value. `Malformed` is a string that
      bcrypt cannot parse. */
  datatype PasswordHash = Bcrypt(salt: nat, preimage: string) | Malformed(raw: string)

  /** `hash_password`: a fresh salt each call, so two hashes of one password
      may differ. */
  function HashPassword(password: string, salt: nat): (h: PasswordHash)
    ensures h.Bcrypt? && h.salt == salt
  {
    Bcrypt(salt, password)
  }

  /** `verify_password`: true only for the password the hash was made
      from; a malformed stored hash yields false instead of raising. */
  function VerifyPassword(password: string, h: PasswordHash): (ok: bool)
  {
    match h
    case Bcrypt(_, pre) => pre == password
    case Malformed(_) => false
  }

  lemma VerifyAfterHash(password: string, salt: nat)
    ensures VerifyPassword(password, HashPassword(password, salt))
  {
  }

  lemma VerifyRejectsOtherPassword(password: string, other: string, salt: nat)
    requires password != other
    ensures !VerifyPassword(other, HashPassword(password, salt))
  {
  }
}

=== FILE: db_config.dfy ===
/** Database URL assembly (src/configs/db.py). The environment is a
    parameter: a map from variable names to values, read once as the
    module does at import time. */
module DbConfig {
  import opened Wrappers
  import opened Text

  /** The settings read from the environment. `port` stays optional, as
      `os.getenv("DB_PORT")` has no default. */
  datatype DbSettings = DbSettings(
    dbType: string, user: string, password: string, host: string, port: Option<string>, name: string)

  /** `os.getenv(key, default)`. */
  function GetEnv(env: map<string, string>, key: string, default: string): (v: string)
    ensures key in env ==> v == env[key]
    ensures key !in env ==> v == default
  {
    if key in env then env[key] else default
  }

  /** The module-level reads: each variable or its default, with `DB_TYPE`
      lower-cased. */
  function LoadSettings(env: map<string, string>): (c: DbSettings)
    ensures c.dbType == Lower(GetEnv(env, "DB_TYPE", "postgres"))
    ensures c.user == GetEnv(env, "DB_USER", "postgres") && c.password == GetEnv(env, "DB_PASSWORD", "password")
    ensures c.host == GetEnv(env, "DB_HOST", "localhost") && c.name == GetEnv(env, "DB_NAME", "fastapi_db")
    ensures c.port == (if "DB_PORT" in env then Some(env["DB_PORT"]) else None)
  {
    DbSettings(
      Lower(GetEnv(env, "DB_TYPE", "postgres")),
      GetEnv(env, "DB_USER", "postgres"),
      GetEnv(env, "DB_PASSWORD", "password"),
      GetEnv(env, "DB_HOST", "localhost"),
      if "DB_PORT" in env then Some(env["DB_PORT"]) else None,
      GetEnv(env, "DB_NAME", "fastapi_db"))
  }

  /** `DB_PORT or default`: an unset or empty port falls back. */
  function PortOr(c: DbSettings, default: string): (p: string)
    ensures Truthy(c.port) ==> p == c.port.value
    ensures !Truthy(c.port) ==> p == default
  {
    if Truthy(c.port) then c.port.value else default
  }

  /** The part shared by every URL: `//user:password@host:port/name`. */
  function Authority(c: DbSettings, port: string): string {
    "://" + c.user + ":" + c.password + "@" + c.host + ":" + port + "/" + c.name
  }

  /** Its head, `//user:password`. */
  function UserInfo(c: DbSettings): string {
    "://" + c.user + ":" + c.password
  }

  /** Its tail, `@host:port/name`. */
  function Location(host: string, port: string, name: string): string {
    "@" + host + ":" + port + "/" + name
  }

  const UnsupportedType := "DB_TYPE must be 'postgres' or 'mysql'"

  /** `get_database_url`: PostgreSQL on 5432 with the asyncpg driver when
      asynchronous and no driver otherwise; MySQL on 3306 with aiomysql
      or pymysql; any other type raises `ValueError`. */
  function GetDatabaseUrl(c: DbSettings, async: bool): (r: Result<string, string>)
    ensures r.Failure? <==> c.dbType != "postgres" && c.dbType != "mysql"
    ensures r.Failure? ==> r.error == UnsupportedType
    ensures c.dbType == "postgres" ==>
      r == Success((if async then "postgresql+asyncpg" else "postgresql") + Authority(c, PortOr(c, "5432")))
    ensures c.dbType == "mysql" ==>
      r == Success((if async then "mysql+aiomysql" else "mysql+pymysql") + Authority(c, PortOr(c, "3306")))
  {
    if c.dbType == "postgres" then
      var port := PortOr(c, "5432");
      var driver := if async then "asyncpg" else "";
      assert async ==> "postgresql+" + driver == "postgresql+asyncpg";
      if driver != "" then Success(("postgresql+" + driver) + Authority(c, port))
      else Success("postgresql" + Authority(c, port))
    else if c.dbType == "mysql" then
      var port := PortOr(c, "3306");
      var driver := if async then "aiomysql" else "pymysql";
      assert ("mysql+" + driver) == (if async then "mysql+aiomysql" else "mysql+pymysql");
      Success(("mysql+" + driver) + Authority(c, port))
    else Failure(UnsupportedType)
  }

  /** `DB_TYPE` is matched without regard to case: two environments that
      agree except for the case of `DB_TYPE` give the same URL. */
  lemma DbTypeIgnoresCase(env1: map<string, string>, env2: map<string, string>, async: bool)
    requires "DB_TYPE" in env1 && "DB_TYPE" in env2 && Lower(env1["DB_TYPE"]) == Lower(env2["DB_TYPE"])
    requires forall k | k in env1 && k != "DB_TYPE" :: k in env2 && env2[k] == env1[k]
    requires forall k | k in env2 && k != "DB_TYPE" :: k in env1
    ensures GetDatabaseUrl(LoadSettings(env1), async) == GetDatabaseUrl(LoadSettings(env2), async)
  {
    assert LoadSettings(env1) == LoadSettings(env2);
  }

  /** With nothing set, every setting takes its default. */
  lemma DefaultSettings()
    ensures LoadSettings(map[]) == DbSettings("postgres", "postgres", "password", "localhost", None, "fastapi_db")
  {
    LowerKeepsLower("postgres");
  }

  /** With nothing set, the URL is the local PostgreSQL one. */
  lemma DefaultUrl()
    ensures GetDatabaseUrl(LoadSettings(map[]), true)
      == Success("postgresql+asyncpg" + "://postgres:password@localhost:5432/fastapi_db")
    ensures GetDatabaseUrl(LoadSettings(map[]), false)
      == Success("postgresql" + "://postgres:password@localhost:5432/fastapi_db")
  {
    DefaultSettings();
    var c := DbSettings("postgres", "postgres", "password", "localhost", None, "fastapi_db");
    assert PortOr(c, "5432") == "5432";
    assert "://" + "postgres" == "://postgres";
    assert "://postgres" + ":" + "password" == "://postgres:password";
    assert "://postgres:password" + "@" + "localhost" == "://postgres:password@localhost";
    assert "://postgres:password@localhost" + ":" + "5432" == "://postgres:password@localhost:5432";
    assert "://postgres:password@localhost:5432" + "/" + "fastapi_db" == "://postgres:password@localhost:5432/fastapi_db";
  }

  /** The port the URL uses: a non-empty `DB_PORT`, otherwise the
      default of the database type. */
  function EffectivePort(env: map<string, string>, dbType: string): string {
    if "DB_PORT" in env && env["DB_PORT"] != "" then env["DB_PORT"]
    else if dbType == "postgres" then "5432" else "3306"
  }

  /** The URL ends with the configured host, port and database name,
      verbatim: `@host:port/name`. */
  lemma UrlEndsWithHostPortName(env: map<string, string>, async: bool)
    requires LoadSettings(env).dbType == "postgres" || LoadSettings(env).dbType == "mysql"
    ensures var url := GetDatabaseUrl(LoadSettings(env), async);
      var tail := "@" + GetEnv(env, "DB_HOST", "localhost") + ":" + EffectivePort(env, LoadSettings(env).dbType)
                  + "/" + GetEnv(env, "DB_NAME", "fastapi_db");
      url.Success? && |tail| <= |url.value| && url.value[|url.value| - |tail|..] == tail
  {
    var c := LoadSettings(env);
    var port := EffectivePort(env, c.dbType);
    assert port == PortOr(c, if c.dbType == "postgres" then "5432" else "3306");
    UrlEndsWithLocation(c, async, port);
    assert Location(c.host, port, c.name) ==
      "@" + GetEnv(env, "DB_HOST", "localhost") + ":" + port + "/" + GetEnv(env, "DB_NAME", "fastapi_db");
  }

  /** For a supported type, the URL ends with `@host:port/name` for the
      port the type selects. */
  lemma UrlEndsWithLocation(c: DbSettings, async: bool, port: string)
    requires c.dbType == "postgres" || c.dbType == "mysql"
    requires port == PortOr(c, if c.dbType == "postgres" then "5432" else "3306")
    ensures GetDatabaseUrl(c, async).Success?
    ensures var url, tail := GetDatabaseUrl(c, async).value, Location(c.host, port, c.name);
      |tail| <= |url| && url[|url| - |tail|..] == tail
  {
    var tail := Location(c.host, port, c.name);
    AuthoritySplit(c, port);
    var url := GetDatabaseUrl(c, async).value;
    if c.dbType == "postgres" {
      var driver := if async then "postgresql+asyncpg" else "postgresql";
      assert url == driver + Authority(c, port);
      EndsWithSuffix(driver, UserInfo(c), tail);
    } else {
      var driver := if async then "mysql+aiomysql" else "mysql+pymysql";
      assert url == driver + Authority(c, port);
      EndsWithSuffix(driver, UserInfo(c), tail);
    }
  }

  /** `Authority` is the user part followed by the location part. */
  lemma AuthoritySplit(c: DbSettings, port: string)
    ensures Authority(c, port) == UserInfo(c) + Location(c.host, port, c.name)
  {
    var u := UserInfo(c);
    assert u + "@" == "://" + c.user + ":" + c.password + "@";
    assert u + "@" + c.host + ":" + port + "/" + c.name == u + ("@" + c.host + ":" + port + "/" + c.name);
  }

  lemma EndsWithSuffix(a: string, b: string, t: string)
    ensures |t| <= |a + (b + t)| && (a + (b + t))[|a + (b + t)| - |t|..] == t
  {
    var x := a + (b + t);
    assert x[|a|..] == b + t;
    assert (b + t)[|b|..] == t;
    assert x[|x| - |t|..] == x[|a|..][|b|..];
  }
}

=== FILE: deps.dfy ===
/** Request authentication and the route guards (src/routes/deps.py). Token
    decoding is a parameter: the JWT library is not part of this model. */
module Deps {
  import opened Wrappers
  import opened AccessGraph
  import opened Permissions
  import opened Http
  import Text

  /** The four permission names that guard the administrative endpoints. */
  const AdminCreate := "administrator.create"
  const AdminRead := "administrator.read"
  const AdminUpdate := "administrator.update"
  const AdminDelete := "administrator.delete"

  /** `HTTPAuthorizationCredentials`: the scheme word and the token after it. */
  datatype Credential = Credential(scheme: string, credentials: string)

  /** A claim value in a decoded token payload. */
  datatype ClaimValue = IntClaim(i: int) | NullClaim

  type Claims = map<string, ClaimValue>

  /** What a request brings to authentication: its `Authorization` header,
      if any, and the token decoder, which fails (None) on a malformed, badly
      signed or expired token. */
  datatype AuthRequest = AuthRequest(authorization: Option<string>, decode: string -> Option<Claims>)

  /** `HTTPBearer(auto_error=False)`: the `Authorization` header is split at
      its first space into scheme and token (section 2.1 of RFC 6750); a
      missing header, an empty part, or a scheme other than "bearer" compared
      case-insensitively (section 2.1 of RFC 7235) gives no credential. */
  function BearerCredential(header: Option<string>): (c: Option<Credential>)
    ensures c.Some? ==> header.Some? && Text.Lower(c.value.scheme) == "bearer"
    ensures c.Some? ==> c.value.credentials != "" && header.value == c.value.scheme + " " + c.value.credentials
    ensures c.Some? ==> ' ' !in c.value.scheme
  {
    if header.None? || header.value == "" then None
    else
      var h := header.value;
      var i := Text.FindChar(h, ' ');
      if i <= 0 || i == |h| - 1 then None
      else
        var scheme, token := h[..i], h[i + 1..];
        assert h == scheme + " " + token;
        if Text.Lower(scheme) != "bearer" then None else Some(Credential(scheme, token))
  }

  /** The converse: a header made of a bearer scheme word, one space and
      a non-empty token yields exactly that scheme and token. With the
      contract above, a header gives a credential iff it has this form. */
  lemma BearerCredentialOfWellFormed(scheme: string, token: string)
    requires Text.Lower(scheme) == "bearer" && token != ""
    ensures BearerCredential(Some(scheme + " " + token)) == Some(Credential(scheme, token))
  {
    forall k | 0 <= k < |scheme| ensures scheme[k] != ' ' {
      assert Text.Lower(scheme)[k] == Text.LowerChar(scheme[k]);
    }
    var h := scheme + " " + token;
    assert h == scheme + [' '] + token;
    Text.FindBefore(scheme, ' ', token);
    assert h[..|scheme|] == scheme;
    assert h[|scheme| + 1..] == token;
  }

  /** The user id a token payload names, if its `user_id` claim is truthy. */
  function ClaimedUserId(payload: Claims): (r: Option<int>)
    ensures r.Some? <==> "user_id" in payload && payload["user_id"].IntClaim? && payload["user_id"].i != 0
    ensures r.Some? ==> r.value == payload["user_id"].i
  {
    if "user_id" in payload && payload["user_id"].IntClaim? && payload["user_id"].i != 0
    then Some(payload["user_id"].i) else None
  }

  /** `get_current_user` on the credential `HTTPBearer` passed it: scheme
      check, then decoding, then a truthy `user_id` claim, then a stored
      user with that id. Every failure is 401. */
  function Authenticate(s: Store, cred: Option<Credential>, decode: string -> Option<Claims>): (r: Result<Id, Error>)
    ensures r.Failure? ==> r.error.status == Unauthorized
    ensures r.Success? ==> r.value in s.users
    ensures r.Success? <==>
      && cred.Some?
      && Text.Lower(cred.value.scheme) == "bearer"
      && decode(cred.value.credentials).Some?
      && ClaimedUserId(decode(cred.value.credentials).value).Some?
      && ClaimedUserId(decode(cred.value.credentials).value).value in s.users
    ensures r.Success? ==> r.value == ClaimedUserId(decode(cred.value.credentials).value).value
  {
    if cred.None? || Text.Lower(cred.value.scheme) != "bearer" then
      Failure(Error(Unauthorized, "Missing or invalid authorization header"))
    else
      match decode(cred.value.credentials)
      case None => Failure(Error(Unauthorized, "Invalid token"))
      case Some(payload) =>
        match ClaimedUserId(payload)
        case None => Failure(Error(Unauthorized, "Token missing user_id"))
        case Some(uid) =>
          if uid >= 0 && uid in s.users then Success(uid)
          else Failure(Error(Unauthorized, "User not found"))
  }

  /** The `get_current_user` dependency of a request: the credential is
      what `HTTPBearer` parses from the request's header. */
  function GetCurrentUser(s: Store, req: AuthRequest): (r: Result<Id, Error>)
    ensures r.Failure? ==> r.error.status == Unauthorized
    ensures r.Success? ==> r.value in s.users
    ensures BearerCredential(req.authorization).None? ==>
      r == Failure(Error(Unauthorized, "Missing or invalid authorization header"))
  {
    Authenticate(s, BearerCredential(req.authorization), req.decode)
  }

  /** Authentication reads the store only to find the claimed user. */
  lemma GetCurrentUserFrame(s: Store, t: Store, req: AuthRequest)
    requires GetCurrentUser(s, req).Success? && GetCurrentUser(s, req).value in t.users
    ensures GetCurrentUser(t, req) == GetCurrentUser(s, req)
  {
  }

  /** `require_permission(name)`: authenticate, then refuse with 403 unless
      `name` is among the user's direct and role permission names; the
      authenticated user passes through unchanged. */
  function RequirePermission(s: Store, req: AuthRequest, name: string): (r: Result<Id, Error>)
    requires Linked(s)
    ensures GetCurrentUser(s, req).Failure? ==> r == GetCurrentUser(s, req)
    ensures GetCurrentUser(s, req).Success? ==>
      var uid := GetCurrentUser(s, req).value;
      if name in PermissionNames(Load(s, uid)) then r == Success(uid)
      else r == Failure(Error(Forbidden, "Permission '" + name + "' required"))
  {
    var uid :- GetCurrentUser(s, req);
    var u := Load(s, uid);
    if name !in PermissionNames(u) then Failure(Error(Forbidden, "Permission '" + name + "' required"))
    else Success(uid)
  }

  /** `require_admin`: authenticate, then refuse with 403 unless some held
      role is named exactly "admin"; the user passes through unchanged. */
  function RequireAdmin(s: Store, req: AuthRequest): (r: Result<Id, Error>)
    requires Linked(s)
    ensures GetCurrentUser(s, req).Failure? ==> r == GetCurrentUser(s, req)
    ensures GetCurrentUser(s, req).Success? ==>
      var uid := GetCurrentUser(s, req).value;
      if HoldsRoleNamed(Load(s, uid), "admin") then r == Success(uid)
      else r == Failure(Error(Forbidden, "Admin role required"))
  {
    var uid :- GetCurrentUser(s, req);
    if !HoldsRoleNamed(Load(s, uid), "admin") then Failure(Error(Forbidden, "Admin role required"))
    else Success(uid)
  }

  /** The guard and `has_permission` agree: `require_permission` accepts
      exactly the authenticated users for whom `has_permission` holds, and
      an authentication failure is never reported as 403. */
  lemma RequirePermissionAgreesWithHasPermission(s: Store, req: AuthRequest, name: string)
    requires Linked(s)
    ensures RequirePermission(s, req, name).Success? <==>
      GetCurrentUser(s, req).Success? && HasPermission(Load(s, GetCurrentUser(s, req).value), name)
    ensures RequirePermission(s, req, name).Failure? ==>
      (RequirePermission(s, req, name).error.status == Unauthorized <==> GetCurrentUser(s, req).Failure?)
  {
  }

  /** The guard, read against the graph: it passes exactly when a stored
      permission with that name is linked to the user, directly or through
      a held role. */
  lemma RequirePermissionIsGraphGrant(s: Store, req: AuthRequest, name: string)
    requires Linked(s)
    ensures RequirePermission(s, req, name).Success? <==>
      GetCurrentUser(s, req).Success? && Grants(s, GetCurrentUser(s, req).value, name)
  {
    if GetCurrentUser(s, req).Success? {
      LoadedNamesAreGrants(s, GetCurrentUser(s, req).value, name);
    }
  }
}

=== FILE: file_routes.dfy ===
/** The file endpoints (src/routes/files/route.py) as store transitions.
    The disk is the set of relative paths present under `storage/public` and
    under `storage/private`; `uuid4()` is a parameter. Every handler here
    commits before it returns, so a successful outcome's store is what the
    database keeps. */
module FileRoutes {
  import opened Wrappers
  import opened Text
  import opened AccessGraph
  import opened Permissions
  import opened Http
  import opened Deps
  import opened FileUtils

  /** The relative paths present in the two storage areas. */
  datatype Disk = Disk(public: set<string>, private: set<string>)

  /** A handler's effect on the disk together with its outcome. */
  datatype Effect<T> = Effect(disk: Disk, out: Outcome<T>)

  const FileNotFound := Error(NotFound, "File not found")

  /** The per-user upload directory `user_<id>`: one path segment that
      ends in the decimal numeral of the id. */
  function UserDirectory(uid: Id): (d: string)
    ensures StartsWith(d, "user_") && '/' !in d && |d| > 5
    ensures All(d[5..], IsDigit) && DigitsValue(d[5..]) == uid
  {
    var n := NatToString(uid);
    assert forall k | 0 <= k < |n| :: n[k] != '/';
    NatToStringRoundTrip(uid);
    assert ("user_" + n)[5..] == n;
    "user_" + n
  }

  /** Different users upload into different directories. */
  lemma UserDirectoryInjective(a: Id, b: Id)
    ensures UserDirectory(a) == UserDirectory(b) <==> a == b
  {
  }

  /** Writing `path` into the public or the private area. */
  function Put(disk: Disk, path: string, public: bool): (d: Disk)
    ensures public ==> d.public == disk.public + {path} && d.private == disk.private
    ensures !public ==> d.private == disk.private + {path} && d.public == disk.public
  {
    if public then disk.(public := disk.public + {path}) else disk.(private := disk.private + {path})
  }

  /** Removing what was just written restores the disk when the path was
      not there before; writing leaves the path in the chosen area. */
  lemma RemoveFromUndoesPut(disk: Disk, path: string, public: bool)
    ensures path in (if public then Put(disk, path, public).public else Put(disk, path, public).private)
    ensures path !in (if public then disk.public else disk.private) ==>
      RemoveFrom(Put(disk, path, public), path, public) == disk
  {
  }

  /** True when some stored file already has this `file_path`. */
  predicate PathTaken(s: Store, path: string) {
    exists k | k in s.files :: s.files[k].filePath == path
  }

  // ---------------------------------------------------------------------
  // Upload

  /** What `upload_file` promises of the record it inserts. */
  predicate UploadedBy(f: FileRecord, uid: Id, uuid: string, file: Upload, accessLevel: string,
                       requiredPermission: Option<string>)
  {
    && f.ownerId == uid && f.accessLevel == accessLevel && f.requiredPermission == requiredPermission
    && f.isActive && f.downloadCount == 0 && f.fileSize == file.size
    && StartsWith(f.filePath, UserDirectory(uid) + "/")
    && f.filename == AfterLast(f.filePath, '/')
    && |f.filename| >= 36 && f.filename[..36] == uuid
    && f.originalFilename == (if Truthy(file.filename) then file.filename.value else "file")
    && f.mimeType == (if Truthy(file.contentType) then file.contentType.value else "application/octet-stream")
    && GetFileExtension(f.filename) == GetFileExtension(f.originalFilename)
  }

  /** The record built from the saved upload's metadata. */
  function UploadRecord(uid: Id, uuid: string, file: Upload, accessLevel: string,
                        requiredPermission: Option<string>): (f: FileRecord)
    requires IsUuid(uuid) && file.size <= MaxFileSize
    ensures UploadedBy(f, uid, uuid, file, accessLevel, requiredPermission)
  {
    var meta := SaveUploadMetadata(uuid, file, UserDirectory(uid), [], MaxFileSize, Some(uid)).value;
    NewFileRecord(AfterLast(meta.relativePath, '/'), meta.filename, meta.relativePath, meta.size,
                  meta.contentType, accessLevel, uid, requiredPermission)
  }

  /** `db.add(record)` and commit: the record gets the next id, and no
      other row changes. */
  function InsertFile(s: Store, f: FileRecord): (r: Response<Id>)
    requires Bounded(s)
    ensures r.body == s.nextFileId && r.body !in s.files
    ensures r.store == s.(files := r.store.files, nextFileId := s.nextFileId + 1)
    ensures r.store.files.Keys == s.files.Keys + {r.body}
    ensures forall k | k in s.files :: r.store.files[k] == s.files[k]
    ensures r.store.files[r.body] == f
  {
    var id := s.nextFileId;
    Response(s.(files := s.files[id := f], nextFileId := id + 1), id)
  }

  /** The body of `upload_file` for the authenticated user `uid`: save
      under `user_<id>` in the area the access level selects ("public" or
      not), then insert a record owned by the uploader whose `filename` is
      the last segment of its path. A path that is already stored violates
      `files.file_path UNIQUE` at commit, after the bytes were written. */
  function UploadAs(s: Store, disk: Disk, uid: Id, uuid: string, file: Upload,
                    accessLevel: string, requiredPermission: Option<string>): (e: Effect<Id>)
    requires Bounded(s) && IsUuid(uuid)
    ensures file.size > MaxFileSize ==> e.disk == disk && e.out.Failure? && e.out.error.status == BadRequest
    ensures e.out.Success? ==>
      var id, t := e.out.value.body, e.out.value.store;
      && id == s.nextFileId && id !in s.files
      && t == s.(files := t.files, nextFileId := id + 1)
      && t.files.Keys == s.files.Keys + {id}
      && (forall k | k in s.files :: t.files[k] == s.files[k])
    ensures e.out.Success? ==>
      var f := e.out.value.store.files[e.out.value.body];
      && UploadedBy(f, uid, uuid, file, accessLevel, requiredPermission)
      && !PathTaken(s, f.filePath)
      && e.disk == Put(disk, f.filePath, accessLevel == "public")
    ensures file.size <= MaxFileSize ==>
      var f := UploadRecord(uid, uuid, file, accessLevel, requiredPermission);
      && e.disk == Put(disk, f.filePath, accessLevel == "public")
      && (e.out.Failure? <==> PathTaken(s, f.filePath))
      && (e.out.Failure? ==> e.out.error == ServerError)
  {
    if file.size > MaxFileSize then Effect(disk, Failure(ValidateFileSize(file.size, MaxFileSize).error))
    else
      var f := UploadRecord(uid, uuid, file, accessLevel, requiredPermission);
      var written := Put(disk, f.filePath, accessLevel == "public");
      if PathTaken(s, f.filePath) then Effect(written, Failure(ServerError))
      else
        Effect(written, Success(InsertFile(s, f)))
  }

  /** `upload_file`: the `get_current_user` dependency runs first; its 401
      leaves disk and database alone. */
  function UploadFile(s: Store, disk: Disk, req: AuthRequest, uuid: string, file: Upload,
                      accessLevel: string, requiredPermission: Option<string>): (e: Effect<Id>)
    requires Bounded(s) && IsUuid(uuid)
    ensures GetCurrentUser(s, req).Failure? ==> e == Effect(disk, Failure(GetCurrentUser(s, req).error))
    ensures GetCurrentUser(s, req).Success? ==>
      e == UploadAs(s, disk, GetCurrentUser(s, req).value, uuid, file, accessLevel, requiredPermission)
  {
    match GetCurrentUser(s, req)
    case Failure(err) => Effect(disk, Failure(err))
    case Success(uid) => UploadAs(s, disk, uid, uuid, file, accessLevel, requiredPermission)
  }

  /** Inserting a record whose owner exists and whose path is free keeps
      the database constraints. */
  lemma InsertFilePreservesValid(s: Store, f: FileRecord)
    requires Valid(s) && f.ownerId in s.users && !PathTaken(s, f.filePath)
    ensures Valid(InsertFile(s, f).store)
  {
    assert InsertFile(s, f).store == s.(files := s.files[s.nextFileId := f], nextFileId := s.nextFileId + 1);
    AddFileKeepsValid(s, f);
  }

  /** An upload by a stored user keeps the database constraints. */
  lemma UploadPreservesValid(s: Store, disk: Disk, uid: Id, uuid: string, file: Upload,
                             accessLevel: string, requiredPermission: Option<string>)
    requires Valid(s) && IsUuid(uuid) && uid in s.users
    requires UploadAs(s, disk, uid, uuid, file, accessLevel, requiredPermission).out.Success?
    ensures Valid(UploadAs(s, disk, uid, uuid, file, accessLevel, requiredPermission).out.value.store)
  {
    var f := UploadRecord(uid, uuid, file, accessLevel, requiredPermission);
    InsertFilePreservesValid(s, f);
  }

  // ---------------------------------------------------------------------
  // Listing

  /** The ids of `ids` whose record `keep` accepts, in the same order. */
  function Select(m: map<Id, FileRecord>, ids: seq<Id>, keep: FileRecord -> bool): (r: seq<Id>)
    requires forall i | 0 <= i < |ids| :: ids[i] in m
    ensures forall k :: k in r <==> k in ids && keep(m[k])
    ensures Increasing(ids) ==> Increasing(r)
  {
    if |ids| == 0 then []
    else
      var init, last := ids[..|ids| - 1], ids[|ids| - 1];
      assert ids == init + [last];
      var r := Select(m, init, keep);
      if keep(m[last]) then
        assert Increasing(ids) ==> Increasing(r + [last]) by {
          if Increasing(ids) {
            forall i | 0 <= i < |r| ensures r[i] < last {
              assert r[i] in init;
              var j :| 0 <= j < |init| && init[j] == r[i];
              assert ids[j] == r[i];
            }
            AppendKeepsIncreasing(r, last);
          }
        }
        r + [last]
      else r
  }

  lemma AppendKeepsIncreasing(r: seq<Id>, last: Id)
    requires Increasing(r) && forall i | 0 <= i < |r| :: r[i] < last
    ensures Increasing(r + [last])
  {
  }

  /** The caller's active files, in id order. */
  function OwnedActive(s: Store, uid: Id): (ids: seq<Id>)
    ensures forall k :: k in ids <==> k in s.files && k < s.nextFileId && s.files[k].ownerId == uid && s.files[k].isActive
    ensures Increasing(ids)
  {
    Select(s.files, IdsBelow(s.files, s.nextFileId), (f: FileRecord) => f.ownerId == uid && f.isActive)
  }

  /** One page of `uid`'s active files, in id order. */
  function ListOwnFiles(s: Store, uid: Id, page: int, pageSize: int): (r: seq<Id>)
    requires ValidPaging(page, pageSize)
    ensures |r| <= pageSize
    ensures forall k | k in r :: k in s.files && s.files[k].ownerId == uid && s.files[k].isActive
    ensures var all := OwnedActive(s, uid);
      forall i | 0 <= i < |r| :: Offset(page, pageSize) + i < |all| && r[i] == all[Offset(page, pageSize) + i]
  {
    var all := OwnedActive(s, uid);
    var r := PageOf(all, page, pageSize);
    assert forall i | 0 <= i < |r| :: r[i] in all;
    r
  }

  /** `list_my_files`: authenticate, validate paging, then one page of the
      caller's active files. It reads only. */
  function ListMyFiles(s: Store, req: AuthRequest, page: int, pageSize: int): (r: Result<seq<Id>, Error>)
    ensures GetCurrentUser(s, req).Failure? ==> r == Failure(GetCurrentUser(s, req).error)
    ensures GetCurrentUser(s, req).Success? && !ValidPaging(page, pageSize) ==> r == Failure(PagingError)
    ensures GetCurrentUser(s, req).Success? && ValidPaging(page, pageSize) ==>
      r == Success(ListOwnFiles(s, GetCurrentUser(s, req).value, page, pageSize))
  {
    var uid :- GetCurrentUser(s, req);
    if !ValidPaging(page, pageSize) then Failure(PagingError)
    else Success(ListOwnFiles(s, uid, page, pageSize))
  }

  // ---------------------------------------------------------------------
  // Download

  /** The access decision of `get_file`, in its order: the owner; else a
      truthy required permission held directly or through a role; else no. */
  predicate RouteAllows(s: Store, uid: Id, f: FileRecord)
    requires Linked(s) && uid in s.users
  {
    if f.ownerId == uid then true
    else if Truthy(f.requiredPermission) then HasPermission(Load(s, uid), f.requiredPermission.value)
    else false
  }

  /** `get_file` once `uid` is authenticated: 404 for a missing or inactive
      record before any access check; 403 when access is refused; 404 when
      the object is absent from `storage/private` (the only area this route
      reads); then `download_count` goes up by one and the object is served
      under its original name. */
  function GetFileAs(s: Store, disk: Disk, uid: Id, fileId: int): (r: Outcome<(string, string)>)
    requires Linked(s) && uid in s.users
    ensures !(fileId in s.files && s.files[fileId].isActive) ==> r == Failure(FileNotFound)
    ensures r.Failure? && r.error.status == Forbidden ==>
      var f := s.files[fileId];
      f.ownerId != uid && !(Truthy(f.requiredPermission) && f.requiredPermission.value in PermissionNames(Load(s, uid)))
    ensures r.Success? <==>
      && fileId in s.files && s.files[fileId].isActive
      && (var f := s.files[fileId];
          (f.ownerId == uid || (Truthy(f.requiredPermission) && f.requiredPermission.value in PermissionNames(Load(s, uid))))
          && f.filePath in disk.private)
    ensures r.Success? ==> var f := s.files[fileId];
      && r.value.body == (f.filePath, f.originalFilename)
      && r.value.store == s.(files := s.files[fileId := f.(downloadCount := f.downloadCount + 1)])
  {
    if !(fileId in s.files && s.files[fileId].isActive) then Failure(FileNotFound)
    else
      var f := s.files[fileId];
      if f.ownerId != uid && Truthy(f.requiredPermission) && !HasPermission(Load(s, uid), f.requiredPermission.value) then
        Failure(Error(Forbidden, "Permission '" + f.requiredPermission.value + "' required"))
      else if f.ownerId != uid && !Truthy(f.requiredPermission) then Failure(Error(Forbidden, "Access denied"))
      else if f.filePath !in disk.private then Failure(FileNotFound)
      else Success(Response(s.(files := s.files[fileId := f.(downloadCount := f.downloadCount + 1)]),
                            (f.filePath, f.originalFilename)))
  }

  /** `get_file`: authentication first, its 401 passing through unchanged,
      then the download as the authenticated user. */
  function GetFile(s: Store, disk: Disk, req: AuthRequest, fileId: int): (r: Outcome<(string, string)>)
    requires Linked(s)
    ensures GetCurrentUser(s, req).Failure? ==> r == Failure(GetCurrentUser(s, req).error)
    ensures GetCurrentUser(s, req).Success? && !(fileId in s.files && s.files[fileId].isActive) ==>
      r == Failure(FileNotFound)
    ensures r.Failure? && r.error.status == Forbidden ==>
      var uid := GetCurrentUser(s, req).value; var f := s.files[fileId];
      f.ownerId != uid && !(Truthy(f.requiredPermission) && f.requiredPermission.value in PermissionNames(Load(s, uid)))
    ensures r.Success? <==>
      && GetCurrentUser(s, req).Success? && fileId in s.files && s.files[fileId].isActive
      && (var uid, f := GetCurrentUser(s, req).value, s.files[fileId];
          (f.ownerId == uid || (Truthy(f.requiredPermission) && f.requiredPermission.value in PermissionNames(Load(s, uid))))
          && f.filePath in disk.private)
    ensures r.Success? ==> var f := s.files[fileId];
      && r.value.body == (f.filePath, f.originalFilename)
      && r.value.store == s.(files := s.files[fileId := f.(downloadCount := f.downloadCount + 1)])
  {
    var uid :- GetCurrentUser(s, req);
    GetFileAs(s, disk, uid, fileId)
  }

  /** The route's inline decision is `check_file_access` with the owner path
      on: stored user ids are never 0, so the owner test needs no truthiness
      guard. */
  lemma GetFileAgreesWithCheckFileAccess(s: Store, uid: Id, fileId: Id)
    requires Valid(s) && uid in s.users && fileId in s.files
    ensures RouteAllows(s, uid, s.files[fileId]) ==
      CheckFileAccess(Load(s, uid), s.files[fileId].requiredPermission, Some(s.files[fileId].ownerId), true)
  {
    assert Load(s, uid).id == uid;
  }

  /** The download count moves only on success, and then by exactly one. */
  lemma DownloadCountsOnce(s: Store, disk: Disk, req: AuthRequest, fileId: int)
    requires Linked(s) && fileId in s.files
    ensures GetFile(s, disk, req, fileId).Success? ==>
      GetFile(s, disk, req, fileId).value.store.files[fileId].downloadCount == s.files[fileId].downloadCount + 1
    ensures EndWithCommit(s, GetFile(s, disk, req, fileId)).files[fileId].downloadCount
            == s.files[fileId].downloadCount + (if GetFile(s, disk, req, fileId).Success? then 1 else 0)
  {
  }

  /** `file_permissions` and `file_roles` play no part in the decision. */
  lemma GetFileIgnoresFileGrantTables(s: Store, disk: Disk, req: AuthRequest, fileId: int,
                                      fp: set<(Id, Id)>, fr: set<(Id, Id)>)
    requires Linked(s) && Linked(s.(filePermissions := fp, fileRoles := fr))
    ensures GetFile(s.(filePermissions := fp, fileRoles := fr), disk, req, fileId).Success?
            == GetFile(s, disk, req, fileId).Success?
    ensures GetFile(s, disk, req, fileId).Failure? ==>
      GetFile(s.(filePermissions := fp, fileRoles := fr), disk, req, fileId) == GetFile(s, disk, req, fileId)
  {
    var s' := s.(filePermissions := fp, fileRoles := fr);
    if GetCurrentUser(s, req).Success? {
      var uid := GetCurrentUser(s, req).value;
      LoadIgnoresFileGrantTables(s, s', uid);
    }
  }

  lemma LoadIgnoresFileGrantTables(s: Store, t: Store, uid: Id)
    requires Linked(s) && Linked(t) && uid in s.users
    requires t.users == s.users && t.roles == s.roles && t.permissions == s.permissions
    ensures Load(t, uid) == Load(s, uid)
  {
  }

  // ---------------------------------------------------------------------
  // Update

  /** The `FileUpdate` body. `role_ids` and `permission_ids` are accepted
      by the schema but never read by the handler, so they are not here. */
  datatype FilePatch = FilePatch(accessLevel: Option<string>, requiredPermission: Option<string>, isActive: Option<bool>)

  /** `update_file`: authenticate; 404 for a missing record (inactive ones
      included); 403 unless the caller owns it; then a truthy access level,
      and any non-None required permission or active flag, are written. */
  function UpdateFile(s: Store, req: AuthRequest, fileId: int, patch: FilePatch): (r: Outcome<Id>)
    ensures GetCurrentUser(s, req).Failure? ==> r == Failure(GetCurrentUser(s, req).error)
    ensures GetCurrentUser(s, req).Success? && fileId !in s.files ==> r == Failure(FileNotFound)
    ensures r.Success? <==>
      GetCurrentUser(s, req).Success? && fileId in s.files && s.files[fileId].ownerId == GetCurrentUser(s, req).value
    ensures r.Failure? && GetCurrentUser(s, req).Success? && fileId in s.files ==> r.error == Error(Forbidden, "Not authorized")
    ensures r.Success? ==> fileId in s.files && fileId in r.value.store.files
    ensures r.Success? ==> var f, g := s.files[fileId], r.value.store.files[fileId];
      && r.value.body == fileId
      && r.value.store == s.(files := s.files[fileId := g])
      && g.ownerId == f.ownerId && g.filePath == f.filePath && g.filename == f.filename
      && g.originalFilename == f.originalFilename && g.fileSize == f.fileSize && g.mimeType == f.mimeType
      && g.downloadCount == f.downloadCount
      && g.accessLevel == (if Truthy(patch.accessLevel) then patch.accessLevel.value else f.accessLevel)
      && g.requiredPermission == (if patch.requiredPermission.Some? then patch.requiredPermission else f.requiredPermission)
      && g.isActive == (if patch.isActive.Some? then patch.isActive.value else f.isActive)
  {
    var uid :- GetCurrentUser(s, req);
    if fileId !in s.files then Failure(FileNotFound)
    else
      var f := s.files[fileId];
      if f.ownerId != uid then Failure(Error(Forbidden, "Not authorized"))
      else
        var f1 := if Truthy(patch.accessLevel) then f.(accessLevel := patch.accessLevel.value) else f;
        var f2 := if patch.requiredPermission.Some? then f1.(requiredPermission := patch.requiredPermission) else f1;
        var f3 := if patch.isActive.Some? then f2.(isActive := patch.isActive.value) else f2;
        Success(Response(s.(files := s.files[fileId := f3]), fileId))
  }

  /** Applying the same patch twice is applying it once. */
  lemma UpdateFileIdempotent(s: Store, req: AuthRequest, fileId: int, patch: FilePatch)
    requires UpdateFile(s, req, fileId, patch).Success?
    ensures var t := UpdateFile(s, req, fileId, patch).value.store;
      UpdateFile(t, req, fileId, patch) == Success(Response(t, fileId))
  {
    var t := UpdateFile(s, req, fileId, patch).value.store;
    assert t.users == s.users;
    assert GetCurrentUser(t, req) == GetCurrentUser(s, req);
    var t2 := UpdateFile(t, req, fileId, patch).value.store;
    assert t2.files[fileId] == t.files[fileId];
    assert t2.files == t.files;
  }

  /** An owner's patch keeps the database constraints. */
  lemma UpdateFilePreservesValid(s: Store, req: AuthRequest, fileId: int, patch: FilePatch)
    requires Valid(s) && UpdateFile(s, req, fileId, patch).Success?
    ensures Valid(UpdateFile(s, req, fileId, patch).value.store)
  {
    var g := UpdateFile(s, req, fileId, patch).value.store.files[fileId];
    assert UpdateFile(s, req, fileId, patch).value.store == s.(files := s.files[fileId := g]);
    ReplaceFileKeepsValid(s, fileId, g);
  }

  // ---------------------------------------------------------------------
  // Delete

  /** `delete_file` of the storage helper: remove `path` from the area the
      flag selects, if it is there; failures are swallowed. */
  function RemoveFrom(disk: Disk, path: string, public: bool): (d: Disk)
    ensures public ==> d.public == disk.public - {path} && d.private == disk.private
    ensures !public ==> d.private == disk.private - {path} && d.public == disk.public
  {
    if public then disk.(public := disk.public - {path}) else disk.(private := disk.private - {path})
  }

  /** The store after `DELETE FROM files WHERE id = fileId`, with the
      `ON DELETE CASCADE` rows of `file_permissions` and `file_roles`. */
  function WithoutFile(s: Store, fileId: Id): (t: Store)
    ensures t.files.Keys == s.files.Keys - {fileId}
    ensures forall k | k in t.files :: t.files[k] == s.files[k]
    ensures forall p :: p in t.filePermissions <==> p in s.filePermissions && p.0 != fileId
    ensures forall p :: p in t.fileRoles <==> p in s.fileRoles && p.0 != fileId
    ensures t == s.(files := t.files, filePermissions := t.filePermissions, fileRoles := t.fileRoles)
  {
    s.(files := (map k | k in s.files && k != fileId :: s.files[k]),
       filePermissions := (set p | p in s.filePermissions && p.0 != fileId),
       fileRoles := (set p | p in s.fileRoles && p.0 != fileId))
  }

  /** `delete_file` as written: authenticate; 404; 403 unless the caller
      owns it; then the object is removed from the area named by the
      record's current access level, and the row goes whatever that
      removal found. */
  function DeleteFile(s: Store, disk: Disk, req: AuthRequest, fileId: int): (e: Effect<string>)
    ensures GetCurrentUser(s, req).Failure? ==> e == Effect(disk, Failure(GetCurrentUser(s, req).error))
    ensures GetCurrentUser(s, req).Success? && fileId !in s.files ==> e == Effect(disk, Failure(FileNotFound))
    ensures e.out.Success? <==>
      GetCurrentUser(s, req).Success? && fileId in s.files && s.files[fileId].ownerId == GetCurrentUser(s, req).value
    ensures e.out.Failure? ==> e.disk == disk
    ensures e.out.Success? ==> var f := s.files[fileId];
      && e.out.value.store == WithoutFile(s, fileId) && e.out.value.body == "File deleted"
      && (f.accessLevel == "public" ==> e.disk.public == disk.public - {f.filePath} && e.disk.private == disk.private)
      && (f.accessLevel != "public" ==> e.disk.private == disk.private - {f.filePath} && e.disk.public == disk.public)
  {
    match GetCurrentUser(s, req)
    case Failure(err) => Effect(disk, Failure(err))
    case Success(uid) =>
      if fileId !in s.files then Effect(disk, Failure(FileNotFound))
      else
        var f := s.files[fileId];
        if f.ownerId != uid then Effect(disk, Failure(Error(Forbidden, "Not authorized")))
        else Effect(RemoveFrom(disk, f.filePath, f.accessLevel == "public"), Success(Response(WithoutFile(s, fileId), "File deleted")))
  }

  /** Deleting a file keeps the database constraints, cascade included. */
  lemma DeleteFilePreservesValid(s: Store, disk: Disk, req: AuthRequest, fileId: int)
    requires Valid(s) && DeleteFile(s, disk, req, fileId).out.Success?
    ensures Valid(DeleteFile(s, disk, req, fileId).out.value.store)
  {
    var t := DeleteFile(s, disk, req, fileId).out.value.store;
    assert t.users == s.users && t.roles == s.roles && t.permissions == s.permissions;
    assert Bounded(t);
    assert Linked(t);
    forall a, b | a in t.files && b in t.files && t.files[a].filePath == t.files[b].filePath ensures a == b {
      assert t.files[a] == s.files[a] && t.files[b] == s.files[b];
    }
  }

  /** The object a public upload wrote survives its record's deletion once
      a PATCH moved the record's access level off "public": `delete_file`
      looks in `storage/private`, and `storage/public` is served as static
      files. */
  lemma DeleteAfterRelabelLeavesPublicObject(s: Store, disk: Disk, req: AuthRequest, fileId: int)
    requires GetCurrentUser(s, req).Success? && fileId in s.files
    requires s.files[fileId].ownerId == GetCurrentUser(s, req).value
    requires s.files[fileId].accessLevel != "public" && s.files[fileId].filePath in disk.public
    ensures DeleteFile(s, disk, req, fileId).out.Success?
    ensures fileId !in DeleteFile(s, disk, req, fileId).out.value.store.files
    ensures s.files[fileId].filePath in DeleteFile(s, disk, req, fileId).disk.public
  {
  }

  /** `delete_file` corrected: the object is removed from both areas, so
      nothing of the file stays served or stored whatever its level. */
  function DeleteFileRemovingStorage(s: Store, disk: Disk, req: AuthRequest, fileId: int): (e: Effect<string>)
    ensures e.out == DeleteFile(s, disk, req, fileId).out
    ensures e.out.Failure? ==> e.disk == disk
    ensures e.out.Success? ==> var p := s.files[fileId].filePath;
      e.disk == Disk(disk.public - {p}, disk.private - {p})
  {
    var e := DeleteFile(s, disk, req, fileId);
    if e.out.Failure? then e
    else var p := s.files[fileId].filePath; Effect(Disk(disk.public - {p}, disk.private - {p}), e.out)
  }

  /** After the corrected delete, no area holds the deleted record's
      object, however its access level was relabelled. */
  lemma DeleteFileRemovingStorageLeavesNothing(s: Store, disk: Disk, req: AuthRequest, fileId: int)
    requires DeleteFileRemovingStorage(s, disk, req, fileId).out.Success?
    ensures var d := DeleteFileRemovingStorage(s, disk, req, fileId).disk;
      s.files[fileId].filePath !in d.public && s.files[fileId].filePath !in d.private
  {
  }
}

=== FILE: file_utils.dfy ===
/** The pure parts of the file helpers (src/utils/files.py): pathlib's
    `name`/`suffix`/`as_posix` on POSIX paths, the unique stored name, the
    type and size checks, the metadata of a saved upload, URL selection and
    the traversal check. Disk writes and `uuid4` are left to the callers:
    the uuid arrives as a parameter. */
module FileUtils {
  import opened Wrappers
  import opened Text
  import opened Http

  /** `MAX_FILE_SIZE`: 10 MiB. */
  const MaxFileSize: nat := 10 * 1024 * 1024

  const ImageExtensions: set<string> := {".jpg", ".jpeg", ".png", ".gif", ".webp", ".bmp", ".svg"}
  const VideoExtensions: set<string> := {".mp4", ".avi", ".mov", ".wmv", ".flv", ".webm", ".mkv"}
  const AudioExtensions: set<string> := {".mp3", ".wav", ".ogg", ".flac", ".aac", ".m4a"}
  const DocumentExtensions: set<string> :=
    {".pdf", ".doc", ".docx", ".txt", ".rtf", ".odt", ".xls", ".xlsx", ".ppt", ".pptx"}

  // ---------------------------------------------------------------------
  // pathlib on POSIX paths

  /** A component pathlib keeps: neither empty nor ".". */
  predicate ProperComponent(x: string) { x != "" && x != "." && '/' !in x }

  /** The components pathlib keeps, in order: the '/'-separated pieces of
      `p` other than "" and ".". */
  function Components(p: string): (cs: seq<string>)
    ensures forall k | 0 <= k < |cs| :: ProperComponent(cs[k])
    ensures '/' !in p ==> cs == (if p == "" || p == "." then [] else [p])
    decreases |p|
  {
    var i := RFindChar(p, '/');
    if i < 0 then (if p == "" || p == "." then [] else [p])
    else
      var last := p[i + 1..];
      Components(p[..i]) + (if last == "" || last == "." then [] else [last])
  }

  /** The text after the last '/' is the slice after `rfind('/')`. */
  lemma AfterLastIsRFind(p: string, c: char)
    ensures RFindChar(p, c) < 0 ==> AfterLast(p, c) == p
    ensures RFindChar(p, c) >= 0 ==> AfterLast(p, c) == p[RFindChar(p, c) + 1..]
  {
    var i := RFindChar(p, c);
    if i >= 0 {
      assert p == p[..i] + [c] + p[i + 1..];
      AfterLastUnique(p[..i], c, p[i + 1..]);
    }
  }

  /** When the text after the last '/' is a kept component, it is the last
      kept component. */
  lemma ComponentsEndWithLastPiece(p: string)
    requires ProperComponent(AfterLast(p, '/'))
    ensures |Components(p)| > 0 && Components(p)[|Components(p)| - 1] == AfterLast(p, '/')
  {
    AfterLastIsRFind(p, '/');
    var i := RFindChar(p, '/');
    var a := AfterLast(p, '/');
    if i >= 0 {
      assert p[i + 1..] == a;
      var front := Components(p[..i]);
      assert Components(p) == front + [a];
      assert (front + [a])[|front|] == a;
    } else {
      assert a == p;
      assert Components(p) == [a];
    }
  }

  /** `PurePath(p).name`: the last kept component, or "". */
  function PathName(p: string): (r: string)
    ensures '/' !in r && r != "."
    ensures r == "" <==> Components(p) == []
    ensures var a := AfterLast(p, '/'); a != "" && a != "." ==> r == a
  {
    var cs := Components(p);
    if ProperComponent(AfterLast(p, '/')) then ComponentsEndWithLastPiece(p); cs[|cs| - 1]
    else if cs == [] then "" else cs[|cs| - 1]
  }

  /** `PurePath.suffix` (Python 3.12): from the last '.' of the name, unless
      that dot is the first or the last character. */
  function Suffix(name: string): (r: string)
    ensures r != "" <==> |name| >= 3 && name[|name| - 1] != '.' && '.' in name[1..|name| - 1]
    ensures r != "" ==> |r| >= 2 && r[0] == '.' && '.' !in r[1..]
    ensures r != "" ==> |r| < |name| && name[|name| - |r|..] == r
  {
    var i := RFindChar(name, '.');
    SuffixDotPlacement(name);
    if 0 < i < |name| - 1 then
      assert name[i..][1..] == name[i + 1..];
      name[i..]
    else ""
  }

  /** The last '.' is strictly inside the name exactly when the name ends in
      something other than '.' and has a '.' after its first character. */
  lemma SuffixDotPlacement(name: string)
    ensures var i := RFindChar(name, '.');
      0 < i < |name| - 1 <==> |name| >= 3 && name[|name| - 1] != '.' && '.' in name[1..|name| - 1]
  {
    var i := RFindChar(name, '.');
    if |name| >= 3 && name[|name| - 1] != '.' && '.' in name[1..|name| - 1] {
      DotInsideIsLastInside(name);
    }
    if 0 < i < |name| - 1 {
      LastDotInside(name);
    }
  }

  lemma DotInsideIsLastInside(name: string)
    requires |name| >= 3 && name[|name| - 1] != '.' && '.' in name[1..|name| - 1]
    ensures 0 < RFindChar(name, '.') < |name| - 1
  {
    var i := RFindChar(name, '.');
    var inner := name[1..|name| - 1];
    var k :| 0 <= k < |inner| && inner[k] == '.';
    assert name[k + 1] == '.';
    assert k + 1 <= i;
  }

  lemma LastDotInside(name: string)
    requires 0 < RFindChar(name, '.') < |name| - 1
    ensures |name| >= 3 && name[|name| - 1] != '.' && '.' in name[1..|name| - 1]
  {
    var i := RFindChar(name, '.');
    assert name[1..|name| - 1][i - 1] == '.';
    assert name[|name| - 1] == name[i + 1..][|name| - i - 2];
  }

  /** `get_file_extension`: the lower-cased suffix of the file's name. */
  function GetFileExtension(filename: string): (r: string)
    ensures |r| == |Suffix(PathName(filename))|
    ensures forall k | 0 <= k < |r| :: r[k] == LowerChar(Suffix(PathName(filename))[k])
    ensures forall k | 0 <= k < |r| :: !IsUpper(r[k])
    ensures r != "" ==> r[0] == '.'
  {
    Lower(Suffix(PathName(filename)))
  }

  predicate IsImage(filename: string) { GetFileExtension(filename) in ImageExtensions }
  predicate IsVideo(filename: string) { GetFileExtension(filename) in VideoExtensions }
  predicate IsAudio(filename: string) { GetFileExtension(filename) in AudioExtensions }
  predicate IsDocument(filename: string) { GetFileExtension(filename) in DocumentExtensions }

  // ---------------------------------------------------------------------
  // Case-insensitivity of the extension tests

  /** `a` and `b` differ at most in the case of ASCII letters. */
  predicate SameUpToCase(a: string, b: string) {
    |a| == |b| && forall k | 0 <= k < |a| :: LowerChar(a[k]) == LowerChar(b[k])
  }

  /** Strings equal up to case have the same lower-case form. */
  lemma SameUpToCaseLower(a: string, b: string)
    requires SameUpToCase(a, b)
    ensures Lower(a) == Lower(b)
  {
    assert forall k | 0 <= k < |a| :: Lower(a)[k] == Lower(b)[k];
  }

  /** A non-letter is found at the same places in two strings that agree up
      to case. */
  lemma LowerKeepsNonLetter(x: char, y: char, c: char)
    requires LowerChar(x) == LowerChar(y) && !IsLetter(c)
    ensures x == c <==> y == c
  {
  }

  lemma {:induction false} RFindUpToCase(a: string, b: string, c: char)
    requires SameUpToCase(a, b) && !IsLetter(c)
    ensures RFindChar(a, c) == RFindChar(b, c)
    decreases |a|
  {
    if |a| > 0 {
      var n := |a| - 1;
      LowerKeepsNonLetter(a[n], b[n], c);
      assert SameUpToCase(a[..n], b[..n]);
      RFindUpToCase(a[..n], b[..n], c);
    }
  }

  /** Two strings equal up to case, of which one is a (non-letter) marker:
      so is the other. */
  lemma MarkerUpToCase(a: string, b: string, m: string)
    requires SameUpToCase(a, b) && forall k | 0 <= k < |m| :: !IsLetter(m[k])
    ensures a == m <==> b == m
  {
    if a == m || b == m {
      forall k | 0 <= k < |a| ensures a[k] == b[k] {
        LowerKeepsNonLetter(a[k], b[k], m[k]);
      }
    }
  }

  lemma {:induction false} ComponentsUpToCase(a: string, b: string)
    requires SameUpToCase(a, b)
    ensures |Components(a)| == |Components(b)|
    ensures forall k | 0 <= k < |Components(a)| :: SameUpToCase(Components(a)[k], Components(b)[k])
    decreases |a|
  {
    RFindUpToCase(a, b, '/');
    var i := RFindChar(a, '/');
    if i < 0 {
      MarkerUpToCase(a, b, "");
      MarkerUpToCase(a, b, ".");
    } else {
      var la, lb := a[i + 1..], b[i + 1..];
      assert SameUpToCase(la, lb);
      assert SameUpToCase(a[..i], b[..i]);
      MarkerUpToCase(la, lb, "");
      MarkerUpToCase(la, lb, ".");
      ComponentsUpToCase(a[..i], b[..i]);
    }
  }

  lemma PathNameUpToCase(f: string, g: string)
    requires SameUpToCase(f, g)
    ensures SameUpToCase(PathName(f), PathName(g))
  {
    ComponentsUpToCase(f, g);
    PathNameIsLastComponent(f);
    PathNameIsLastComponent(g);
  }

  /** The name is the last kept component, or "" when there is none. */
  lemma PathNameIsLastComponent(p: string)
    ensures var cs := Components(p);
      PathName(p) == if cs == [] then "" else cs[|cs| - 1]
  {
  }

  lemma SuffixUpToCase(a: string, b: string)
    requires SameUpToCase(a, b)
    ensures SameUpToCase(Suffix(a), Suffix(b))
  {
    RFindUpToCase(a, b, '.');
    SuffixAtLastDot(a);
    SuffixAtLastDot(b);
    var i := RFindChar(a, '.');
    if 0 < i < |a| - 1 {
      forall k | 0 <= k < |a| - i ensures LowerChar(a[i..][k]) == LowerChar(b[i..][k]) {
        assert a[i..][k] == a[i + k] && b[i..][k] == b[i + k];
      }
    }
  }

  /** The suffix is the tail from the last '.' when that '.' is strictly
      inside the name, and empty otherwise. */
  lemma SuffixAtLastDot(name: string)
    ensures var i := RFindChar(name, '.');
      Suffix(name) == if 0 < i < |name| - 1 then name[i..] else ""
  {
  }

  /** The extension ignores letter case, so every `is_*` test does too. */
  lemma ExtensionIgnoresCase(f: string, g: string)
    requires SameUpToCase(f, g)
    ensures GetFileExtension(f) == GetFileExtension(g)
    ensures IsImage(f) == IsImage(g) && IsVideo(f) == IsVideo(g)
    ensures IsAudio(f) == IsAudio(g) && IsDocument(f) == IsDocument(g)
  {
    PathNameUpToCase(f, g);
    SuffixUpToCase(PathName(f), PathName(g));
    SameUpToCaseLower(Suffix(PathName(f)), Suffix(PathName(g)));
  }

  // ---------------------------------------------------------------------
  // Stored names

  predicate IsHex(c: char) { IsDigit(c) || 'a' <= c <= 'f' }

  /** The text of a `uuid4()`: 32 lower-case hex digits in 8-4-4-4-12 groups. */
  predicate IsUuid(u: string) {
    |u| == 36 &&
    forall k | 0 <= k < 36 :: if k == 8 || k == 13 || k == 18 || k == 23 then u[k] == '-' else IsHex(u[k])
  }

  /** `generate_unique_filename`: the uuid, then the suffix of the original
      name. */
  function GenerateUniqueFilename(uuid: string, original: string): (r: string)
    requires IsUuid(uuid)
    ensures |r| >= 36 && r[..36] == uuid
    ensures '/' !in r
    ensures PathName(r) == r && Suffix(r) == Suffix(PathName(original)) && r[36..] == Suffix(r)
    ensures GetFileExtension(r) == GetFileExtension(original)
  {
    var sfx := Suffix(PathName(original));
    UuidHasNoSeparators(uuid);
    StoredNameKeepsSuffix(uuid, sfx);
    uuid + sfx
  }

  lemma UuidHasNoSeparators(u: string)
    requires IsUuid(u)
    ensures '/' !in u && '.' !in u && |u| == 36
  {
    forall k | 0 <= k < 36 ensures u[k] != '/' && u[k] != '.' { }
  }

  /** A dot-free, slash-free stem followed by a suffix is its own name, and
      its suffix is that suffix. */
  lemma StoredNameKeepsSuffix(stem: string, sfx: string)
    requires |stem| > 0 && '.' !in stem && '/' !in stem && '/' !in sfx
    requires sfx == "" || (|sfx| >= 2 && sfx[0] == '.' && '.' !in sfx[1..])
    ensures '/' !in stem + sfx
    ensures PathName(stem + sfx) == stem + sfx
    ensures Suffix(stem + sfx) == sfx
  {
    var n := stem + sfx;
    assert n[0] == stem[0] != '.';
    assert AfterLast(n, '/') == n;
    UniqueSuffix(stem, sfx);
  }

  /** Appending a suffix to a dot-free stem keeps exactly that suffix. */
  lemma UniqueSuffix(stem: string, sfx: string)
    requires |stem| > 0 && '.' !in stem
    requires sfx == "" || (|sfx| >= 2 && sfx[0] == '.' && '.' !in sfx[1..])
    ensures Suffix(stem + sfx) == sfx
  {
    if sfx == "" {
      assert stem + sfx == stem;
    } else {
      var n := stem + sfx;
      assert n == stem + ['.'] + sfx[1..];
      RFindAfter(stem, '.', sfx[1..]);
      assert n[|stem|..] == sfx;
    }
  }

  /** Distinct uuids give distinct stored names. */
  lemma UniqueNamesDiffer(u1: string, u2: string, o1: string, o2: string)
    requires IsUuid(u1) && IsUuid(u2) && u1 != u2
    ensures GenerateUniqueFilename(u1, o1) != GenerateUniqueFilename(u2, o2)
  {
    assert GenerateUniqueFilename(u1, o1)[..36] == u1;
    assert GenerateUniqueFilename(u2, o2)[..36] == u2;
  }

  // ---------------------------------------------------------------------
  // Validation

  /** `', '.join(items)`. */
  function JoinComma(items: seq<string>): (r: string)
    ensures |items| == 1 ==> r == items[0]
  {
    if |items| == 0 then ""
    else if |items| == 1 then items[0]
    else JoinComma(items[..|items| - 1]) + ", " + items[|items| - 1]
  }

  /** `validate_file_type`. `allowed` lists the allowed set in its iteration
      order, which the error message follows. A missing content type is
      never allowed. */
  function ValidateFileType(contentType: Option<string>, allowed: seq<string>): (r: Result<(), Error>)
    ensures r.Success? <==> contentType.Some? && contentType.value in allowed
    ensures r.Failure? ==> r.error.status == BadRequest
    ensures r.Failure? ==> StartsWith(r.error.detail, "Invalid file type. Allowed types: ")
  {
    if contentType.Some? && contentType.value in allowed then Success(())
    else Failure(Error(BadRequest, "Invalid file type. Allowed types: " + JoinComma(allowed)))
  }

  /** `f"{n / 1048576:.1f}"` for `n < 2^53`, where the quotient is exact and
      Python rounds its tenths half to even. */
  function FormatMegabytes(n: nat): (r: string)
    ensures exists tenths: nat :: 2 * (if tenths * 1048576 >= n * 10 then tenths * 1048576 - n * 10
                                       else n * 10 - tenths * 1048576) <= 1048576
                                 && r == NatToString(tenths / 10) + "." + [DigitChar(tenths % 10)]
  {
    var q, rem := (n * 10) / 1048576, (n * 10) % 1048576;
    var tenths := if 2 * rem > 1048576 || (2 * rem == 1048576 && q % 2 == 1) then q + 1 else q;
    NatToString(tenths / 10) + "." + [DigitChar(tenths % 10)]
  }

  /** `validate_file_size`: only a size strictly over the limit fails. */
  function ValidateFileSize(size: nat, maxSize: nat): (r: Result<(), Error>)
    ensures r.Success? <==> size <= maxSize
    ensures r.Failure? ==> r.error.status == BadRequest
    ensures r.Failure? ==> StartsWith(r.error.detail, "File too large. Maximum size: ")
  {
    if size > maxSize then Failure(Error(BadRequest, "File too large. Maximum size: " + FormatMegabytes(maxSize) + "MB"))
    else Success(())
  }

  /** At the default limit the message reads "10.0MB", and a file of
      exactly the limit passes. */
  lemma DefaultSizeLimit(size: nat)
    ensures ValidateFileSize(MaxFileSize, MaxFileSize).Success?
    ensures size > MaxFileSize ==>
      ValidateFileSize(size, MaxFileSize) == Failure(Error(400, "File too large. Maximum size: 10.0MB"))
  {
    assert (MaxFileSize * 10) / 1048576 == 100 && (MaxFileSize * 10) % 1048576 == 0;
    assert DigitChar(0) == '0' && DigitChar(1) == '1';
    assert NatToString(10) == NatToString(1) + [DigitChar(0)] == "10";
    assert FormatMegabytes(MaxFileSize) == "10.0";
    assert "File too large. Maximum size: " + "10.0" + "MB" == "File too large. Maximum size: 10.0MB";
  }

  // ---------------------------------------------------------------------
  // Saving an upload

  /** What the request's `UploadFile` carries: its (optional) name and
      content type, and the byte length of its content. */
  datatype Upload = Upload(filename: Option<string>, contentType: Option<string>, size: nat)

  /** The dictionary `save_upload_file` returns. */
  datatype UploadMetadata = UploadMetadata(
    filename: string, relativePath: string, size: nat, contentType: string, ownerId: Option<nat>)

  /** Python's `o or default` on an optional string. */
  function OrDefault(o: Option<string>, default: string): (r: string)
    ensures Truthy(o) ==> r == o.value
    ensures !Truthy(o) ==> r == default
  {
    if o.Some? && o.value != "" then o.value else default
  }

  /** The path under the storage area: the unique name, under `directory`
      when one is given. */
  function RelativePath(directory: string, unique: string): (r: string)
    requires '/' !in unique
    ensures |r| == (if directory != "" then |directory| + 1 else 0) + |unique|
    ensures AfterLast(r, '/') == unique
    ensures directory == "" ==> r == unique
    ensures directory != "" ==> StartsWith(r, directory + "/")
  {
    if directory != "" then
      AfterLastUnique(directory, '/', unique);
      directory + "/" + unique
    else unique
  }

  /** `save_upload_file`, without the write itself: the type check (only
      when `allowed` is non-empty), then the size check, then the metadata. */
  function SaveUploadMetadata(uuid: string, file: Upload, directory: string, allowed: seq<string>,
                              maxSize: nat, ownerId: Option<nat>): (r: Result<UploadMetadata, Error>)
    requires IsUuid(uuid)
    ensures r.Failure? <==>
      (|allowed| > 0 && ValidateFileType(file.contentType, allowed).Failure?) || file.size > maxSize
    ensures r.Failure? && |allowed| > 0 && ValidateFileType(file.contentType, allowed).Failure? ==>
      r.error == ValidateFileType(file.contentType, allowed).error
    ensures r.Success? ==> var m := r.value;
      && m.size == file.size && m.ownerId == ownerId
      && m.filename == (if Truthy(file.filename) then file.filename.value else "file")
      && m.contentType == (if Truthy(file.contentType) then file.contentType.value else "application/octet-stream")
      && AfterLast(m.relativePath, '/') == GenerateUniqueFilename(uuid, m.filename)
      && GetFileExtension(AfterLast(m.relativePath, '/')) == GetFileExtension(m.filename)
      && (directory != "" ==> StartsWith(m.relativePath, directory + "/"))
      && (directory == "" ==> m.relativePath == GenerateUniqueFilename(uuid, m.filename))
  {
    if |allowed| > 0 && ValidateFileType(file.contentType, allowed).Failure? then
      Failure(ValidateFileType(file.contentType, allowed).error)
    else if file.size > maxSize then Failure(ValidateFileSize(file.size, maxSize).error)
    else
      var name := OrDefault(file.filename, "file");
      var unique := GenerateUniqueFilename(uuid, name);
      Success(UploadMetadata(name, RelativePath(directory, unique), file.size,
                             OrDefault(file.contentType, "application/octet-stream"), ownerId))
  }

  // ---------------------------------------------------------------------
  // URLs and the traversal check

  /** `get_file_url`: public files are served statically; the three named
      protected levels have their own route; anything else is private. */
  function GetFileUrl(relativePath: string, accessLevel: string, baseUrl: string): (r: string)
    ensures accessLevel == "public" ==> r == baseUrl + "/storage/" + relativePath
    ensures accessLevel in {"private", "protected", "admin"} ==>
      r == baseUrl + "/api/v1/files/" + accessLevel + "/" + relativePath
  {
    if accessLevel == "public" then baseUrl + "/storage/" + relativePath
    else if accessLevel == "private" then baseUrl + "/api/v1/files/private/" + relativePath
    else if accessLevel == "protected" then baseUrl + "/api/v1/files/protected/" + relativePath
    else if accessLevel == "admin" then baseUrl + "/api/v1/files/admin/" + relativePath
    else baseUrl + "/api/v1/files/private/" + relativePath
  }

  /** Any level outside the four is served as private. */
  lemma GetFileUrlFallsBackToPrivate(relativePath: string, accessLevel: string, baseUrl: string)
    requires accessLevel !in {"public", "private", "protected", "admin"}
    ensures GetFileUrl(relativePath, accessLevel, baseUrl) == GetFileUrl(relativePath, "private", baseUrl)
  {
  }

  /** The URL path `get_file_url` puts before the relative path. */
  function UrlPrefix(accessLevel: string): string {
    if accessLevel == "public" then "/storage/"
    else if accessLevel in {"protected", "admin"} then "/api/v1/files/" + accessLevel + "/"
    else "/api/v1/files/private/"
  }

  /** The URL determines the file: among the four named levels, two URLs
      are equal exactly for the same relative path at the same level. */
  lemma GetFileUrlInjective(p1: string, l1: string, p2: string, l2: string, baseUrl: string)
    requires l1 in {"public", "private", "protected", "admin"} && l2 in {"public", "private", "protected", "admin"}
    ensures GetFileUrl(p1, l1, baseUrl) == GetFileUrl(p2, l2, baseUrl) <==> p1 == p2 && l1 == l2
  {
    var x1, x2 := UrlPrefix(l1), UrlPrefix(l2);
    var u1, u2 := GetFileUrl(p1, l1, baseUrl), GetFileUrl(p2, l2, baseUrl);
    assert u1 == baseUrl + x1 + p1 && u2 == baseUrl + x2 + p2;
    if l1 != l2 {
      var j := if l1 == "public" || l2 == "public" then 1 else if l1 == "admin" || l2 == "admin" then 14 else 16;
      assert u1[|baseUrl| + j] == x1[j] && u2[|baseUrl| + j] == x2[j];
      assert x1[j] != x2[j];
    } else if p1 != p2 {
      assert u1[|baseUrl| + |x1|..] == p1 && u2[|baseUrl| + |x1|..] == p2;
    }
  }

  /** `'/'.join(cs)`, with "" for no components. */
  function JoinPath(cs: seq<string>): string
  {
    if |cs| == 0 then ""
    else if |cs| == 1 then cs[0]
    else JoinPath(cs[..|cs| - 1]) + "/" + cs[|cs| - 1]
  }

  /** The root posixpath keeps: "//" for exactly two leading slashes,
      otherwise "/" for a leading slash. */
  function Root(p: string): (r: string)
    ensures r == "" <==> !StartsWith(p, "/")
    ensures r == "" || r == "/" || r == "//"
  {
    if !StartsWith(p, "/") then ""
    else if |p| >= 2 && p[1] == '/' && !(|p| >= 3 && p[2] == '/') then "//"
    else "/"
  }

  /** `PurePath(p).as_posix()`: the root, then the kept components joined
      by '/', and "." for an empty relative path. Read back as a path, the
      result has the same root and the same components as `p`. */
  function AsPosix(p: string): (r: string)
    ensures r != ""
    ensures Root(r) == Root(p) && Components(r) == Components(p)
  {
    var root, cs := Root(p), Components(p);
    RootJoinReadsBack(root, cs);
    var body := root + JoinPath(cs);
    if body == "" then DotReadsBack(); "." else body
  }

  /** "." has no root and no components. */
  lemma DotReadsBack()
    ensures Root(".") == "" && Components(".") == []
  {
    assert "."[..1][0] == '.';
  }

  /** The parts of `a + "/" + b`, when `b` holds no '/': those of `a`,
      then `b` if it is a proper part. */
  lemma ComponentsOfLastSlash(a: string, b: string)
    requires '/' !in b
    ensures Components(a + "/" + b) == Components(a) + (if b == "" || b == "." then [] else [b])
  {
    var p := a + "/" + b;
    assert p == a + ['/'] + b;
    RFindAfter(a, '/', b);
    assert p[..|a|] == a && p[|a| + 1..] == b;
  }

  /** A leading '/' adds no component. */
  lemma {:induction false} ComponentsAfterSlash(x: string)
    ensures Components("/" + x) == Components(x)
    decreases |x|
  {
    var i := RFindChar(x, '/');
    if i < 0 {
      assert "" + "/" + x == "/" + x;
      ComponentsOfLastSlash("", x);
    } else {
      var pre, post := x[..i], x[i + 1..];
      assert x == pre + "/" + post;
      assert "/" + x == ("/" + pre) + "/" + post;
      ComponentsOfLastSlash(pre, post);
      ComponentsOfLastSlash("/" + pre, post);
      ComponentsAfterSlash(pre);
    }
  }

  /** Joined kept components do not start with '/'. */
  lemma {:induction false} JoinPathStart(cs: seq<string>)
    requires |cs| > 0 && forall k | 0 <= k < |cs| :: ProperComponent(cs[k])
    ensures |JoinPath(cs)| > 0 && JoinPath(cs)[0] != '/'
    decreases |cs|
  {
    if |cs| == 1 {
      assert ProperComponent(cs[0]);
      assert cs[0][0] in cs[0];
    } else {
      var init := cs[..|cs| - 1];
      assert forall k | 0 <= k < |init| :: init[k] == cs[k];
      JoinPathStart(init);
    }
  }

  /** The root of `root + j`, for `j` not starting with '/', is `root`. */
  lemma RootOfRootJoin(root: string, j: string)
    requires root == "" || root == "/" || root == "//"
    requires j == "" || j[0] != '/'
    requires root + j != ""
    ensures Root(root + j) == root
  {
    var b := root + j;
    if root == "" {
      assert b == j;
    } else if root == "/" {
      assert b[0] == '/' && (|b| >= 2 ==> b[1] == j[0]);
    } else {
      assert b[0] == '/' && b[1] == '/' && (|b| >= 3 ==> b[2] == j[0]);
    }
  }

  /** Nor do two. */
  lemma ComponentsAfterTwoSlashes(x: string)
    ensures Components("//" + x) == Components(x)
  {
    var x1 := "/" + x;
    assert "//" + x == "/" + x1;
    ComponentsAfterSlash(x1);
    ComponentsAfterSlash(x);
  }

  /** A root adds no component. */
  lemma ComponentsOfRootJoin(root: string, j: string)
    requires root == "" || root == "/" || root == "//"
    ensures Components(root + j) == Components(j)
  {
    if root == "/" {
      ComponentsAfterSlash(j);
    } else if root == "//" {
      ComponentsAfterTwoSlashes(j);
    } else {
      assert root + j == j;
    }
  }

  /** A root followed by joined components reads back as that root and
      those components. */
  lemma RootJoinReadsBack(root: string, cs: seq<string>)
    requires root == "" || root == "/" || root == "//"
    requires forall k | 0 <= k < |cs| :: ProperComponent(cs[k])
    ensures root + JoinPath(cs) == "" ==> root == "" && cs == []
    ensures root + JoinPath(cs) != "" ==> Root(root + JoinPath(cs)) == root && Components(root + JoinPath(cs)) == cs
  {
    var j := JoinPath(cs);
    ComponentsOfJoin(cs);
    ComponentsOfRootJoin(root, j);
    if |cs| > 0 { JoinPathStart(cs); }
    if root + j != "" { RootOfRootJoin(root, j); }
  }

  /** `sanitize_path`: the normalised path, refused with 400 when it
      contains ".." anywhere or starts with '/'. */
  function SanitizePath(p: string): (r: Result<string, Error>)
    ensures r.Success? <==> !Contains(AsPosix(p), "..") && !StartsWith(AsPosix(p), "/")
    ensures r.Success? ==> r.value == AsPosix(p) && !Contains(r.value, "..") && !StartsWith(r.value, "/")
    ensures r.Failure? ==> r.error == Error(BadRequest, "Invalid file path")
  {
    var clean := AsPosix(p);
    if Contains(clean, "..") || StartsWith(clean, "/") then Failure(Error(BadRequest, "Invalid file path"))
    else Success(clean)
  }

  /** Adding one kept component after a '/' adds it to the components. */
  lemma ComponentsAppend(x: string, y: string)
    requires ProperComponent(y)
    ensures Components(x + "/" + y) == Components(x) + [y]
  {
    var s := x + "/" + y;
    assert s == x + ['/'] + y;
    RFindAfter(x, '/', y);
    assert s[..|x|] == x;
    assert s[|x| + 1..] == y;
  }

  /** Splitting joined kept components gives them back. */
  lemma {:induction false} ComponentsOfJoin(cs: seq<string>)
    requires forall k | 0 <= k < |cs| :: ProperComponent(cs[k])
    ensures Components(JoinPath(cs)) == cs
    decreases |cs|
  {
    if |cs| == 1 {
      assert JoinPath(cs) == cs[0];
    } else if |cs| > 1 {
      var init, last := cs[..|cs| - 1], cs[|cs| - 1];
      assert cs == init + [last];
      assert forall k | 0 <= k < |init| :: ProperComponent(init[k]);
      ComponentsOfJoin(init);
      assert JoinPath(cs) == JoinPath(init) + "/" + last;
      ComponentsAppend(JoinPath(init), last);
    }
  }

  /** An accepted path is already clean: sanitizing it again accepts it
      unchanged. */
  lemma SanitizePathIdempotent(p: string)
    requires SanitizePath(p).Success?
    ensures SanitizePath(SanitizePath(p).value) == SanitizePath(p)
  {
    var clean := SanitizePath(p).value;
    var cs := Components(p);
    assert Root(p) == "";
    ComponentsOfJoin(cs);
    if clean == "." {
      assert Components(".") == [];
    } else {
      assert clean == JoinPath(cs);
      assert Root(clean) == "";
    }
  }
}

=== FILE: graph.dfy ===
/** The identity and access graph (the files under src/models/): users, roles,
    permissions and files, keyed by auto-increment ids, with the
    many-to-many association tables held on the owning side as duplicate-free
    id sequences (the composite primary keys of `user_roles`,
    `user_permissions` and `role_permissions` forbid a repeated pair). */
module AccessGraph {
  import opened Wrappers
  import opened Credentials

  /** A primary key. Auto-increment keys start at 1. */
  type Id = nat

  datatype Permission = Permission(name: string, description: Option<string>)

  /** A role and the ids of its permissions (`role_permissions` rows). */
  datatype Role = Role(name: string, description: Option<string>, permissions: seq<Id>)

  /** A user with the ids of its roles (`user_roles` rows) and of its direct
      permissions (`user_permissions` rows). */
  datatype User = User(
    email: string,
    passwordHash: PasswordHash,
    username: Option<string>,
    firstName: Option<string>,
    lastName: Option<string>,
    phone: Option<string>,
    isActive: bool,
    roles: seq<Id>,
    permissions: seq<Id>)

  /** A file record of the `files` table. */
  datatype FileRecord = FileRecord(
    filename: string,
    originalFilename: string,
    filePath: string,
    fileSize: nat,
    mimeType: string,
    accessLevel: string,
    ownerId: Id,
    requiredPermission: Option<string>,
    isActive: bool,
    downloadCount: nat)

  /** The whole database. `filePermissions` and `fileRoles` are the
      `file_permissions` and `file_roles` pair tables, which no access check
      reads. The `next*` fields are the tables' auto-increment counters. */
  datatype Store = Store(
    users: map<Id, User>,
    roles: map<Id, Role>,
    permissions: map<Id, Permission>,
    files: map<Id, FileRecord>,
    filePermissions: set<(Id, Id)>,
    fileRoles: set<(Id, Id)>,
    nextUserId: Id,
    nextRoleId: Id,
    nextPermissionId: Id,
    nextFileId: Id)

  const EmptyStore := Store(map[], map[], map[], map[], {}, {}, 1, 1, 1, 1)

  /** A freshly inserted user: `is_active` defaults to True and the user has
      no roles and no direct permissions yet. */
  function NewUser(email: string, hash: PasswordHash, username: Option<string>,
                   firstName: Option<string>, lastName: Option<string>, phone: Option<string>): (u: User)
    ensures u.isActive && u.roles == [] && u.permissions == []
    ensures u.email == email && u.passwordHash == hash && u.username == username
    ensures u.firstName == firstName && u.lastName == lastName && u.phone == phone
  {
    User(email, hash, username, firstName, lastName, phone, true, [], [])
  }

  /** A freshly inserted file record: active and never downloaded. */
  function NewFileRecord(filename: string, originalFilename: string, filePath: string, fileSize: nat,
                         mimeType: string, accessLevel: string, ownerId: Id,
                         requiredPermission: Option<string>): (f: FileRecord)
    ensures f.isActive && f.downloadCount == 0
    ensures f.ownerId == ownerId && f.filePath == filePath && f.accessLevel == accessLevel
    ensures f.requiredPermission == requiredPermission && f.filename == filename
    ensures f.originalFilename == originalFilename && f.fileSize == fileSize && f.mimeType == mimeType
  {
    FileRecord(filename, originalFilename, filePath, fileSize, mimeType, accessLevel, ownerId,
               requiredPermission, true, 0)
  }

  /** The `fullname` property: the non-empty values among first and last
      name, joined by one space. */
  function FullName(u: User): (r: string)
    ensures |r| == (if Truthy(u.firstName) then |u.firstName.value| else 0)
                 + (if Truthy(u.lastName) then |u.lastName.value| else 0)
                 + (if Truthy(u.firstName) && Truthy(u.lastName) then 1 else 0)
    ensures r == "" <==> !Truthy(u.firstName) && !Truthy(u.lastName)
    ensures Truthy(u.firstName) ==> r[..|u.firstName.value|] == u.firstName.value
    ensures Truthy(u.lastName) ==> r[|r| - |u.lastName.value|..] == u.lastName.value
    ensures Truthy(u.firstName) && Truthy(u.lastName) ==> r[|u.firstName.value|] == ' '
  {
    if Truthy(u.firstName) && Truthy(u.lastName) then u.firstName.value + " " + u.lastName.value
    else if Truthy(u.firstName) then u.firstName.value
    else if Truthy(u.lastName) then u.lastName.value
    else ""
  }

  /** Strictly ascending ids: the order rows come back in. */
  predicate Increasing(ids: seq<Id>) {
    forall i, j | 0 <= i < j < |ids| :: ids[i] < ids[j]
  }

  predicate NoDup(ids: seq<Id>) {
    forall i, j | 0 <= i < j < |ids| :: ids[i] != ids[j]
  }

  /** Every key lies in [1, next): the counters only ever move forward. */
  predicate Bounded(s: Store) {
    && s.nextUserId >= 1 && s.nextRoleId >= 1 && s.nextPermissionId >= 1 && s.nextFileId >= 1
    && (forall k | k in s.users :: 1 <= k < s.nextUserId)
    && (forall k | k in s.roles :: 1 <= k < s.nextRoleId)
    && (forall k | k in s.permissions :: 1 <= k < s.nextPermissionId)
    && (forall k | k in s.files :: 1 <= k < s.nextFileId)
  }

  /** Foreign-key integrity and the composite primary keys of the
      association tables. */
  predicate Linked(s: Store) {
    && (forall u | u in s.users :: NoDup(s.users[u].roles) && NoDup(s.users[u].permissions))
    && (forall u, i | u in s.users && 0 <= i < |s.users[u].roles| :: s.users[u].roles[i] in s.roles)
    && (forall u, i | u in s.users && 0 <= i < |s.users[u].permissions| :: s.users[u].permissions[i] in s.permissions)
    && (forall r | r in s.roles :: NoDup(s.roles[r].permissions))
    && (forall r, i | r in s.roles && 0 <= i < |s.roles[r].permissions| :: s.roles[r].permissions[i] in s.permissions)
    && (forall f | f in s.files :: s.files[f].ownerId in s.users)
    && (forall p | p in s.filePermissions :: p.0 in s.files && p.1 in s.permissions)
    && (forall p | p in s.fileRoles :: p.0 in s.files && p.1 in s.roles)
  }

  /** The unique columns: `users.email`, `users.username` (when set),
      `roles.name`, `permissions.name` and `files.file_path`. */
  predicate Unique(s: Store) {
    && (forall a, b | a in s.users && b in s.users && s.users[a].email == s.users[b].email :: a == b)
    && (forall a, b | a in s.users && b in s.users && s.users[a].username.Some?
          && s.users[a].username == s.users[b].username :: a == b)
    && (forall a, b | a in s.roles && b in s.roles && s.roles[a].name == s.roles[b].name :: a == b)
    && (forall a, b | a in s.permissions && b in s.permissions
          && s.permissions[a].name == s.permissions[b].name :: a == b)
    && (forall a, b | a in s.files && b in s.files && s.files[a].filePath == s.files[b].filePath :: a == b)
  }

  /** The constraints the database enforces at all times. */
  predicate Valid(s: Store) {
    Bounded(s) && Linked(s) && Unique(s)
  }

  lemma EmptyStoreValid()
    ensures Valid(EmptyStore)
  {
  }

  /** Rewriting one user's own columns, with its links kept and no unique
      column clashing with another user, keeps the constraints. */
  lemma ReplaceUserKeepsValid(s: Store, uid: Id, u: User)
    requires Valid(s) && uid in s.users
    requires u.roles == s.users[uid].roles && u.permissions == s.users[uid].permissions
    requires forall k | k in s.users && k != uid :: s.users[k].email != u.email
    requires u.username.Some? ==> forall k | k in s.users && k != uid :: s.users[k].username != u.username
    ensures Valid(s.(users := s.users[uid := u]))
  {
    ReplaceUserKeepsBounded(s, uid, u);
    ReplaceUserKeepsLinked(s, uid, u);
    ReplaceUserKeepsUnique(s, uid, u);
  }

  lemma ReplaceUserKeepsBounded(s: Store, uid: Id, u: User)
    requires Bounded(s) && uid in s.users
    ensures Bounded(s.(users := s.users[uid := u]))
  {
    assert s.users[uid := u].Keys == s.users.Keys;
  }

  lemma ReplaceUserKeepsLinked(s: Store, uid: Id, u: User)
    requires Linked(s) && uid in s.users
    requires u.roles == s.users[uid].roles && u.permissions == s.users[uid].permissions
    ensures Linked(s.(users := s.users[uid := u]))
  {
    var t := s.(users := s.users[uid := u]);
    forall k | k in t.users
      ensures t.users[k].roles == s.users[k].roles && t.users[k].permissions == s.users[k].permissions
    {
    }
  }

  lemma ReplaceUserKeepsUnique(s: Store, uid: Id, u: User)
    requires Unique(s) && uid in s.users
    requires forall k | k in s.users && k != uid :: s.users[k].email != u.email
    requires u.username.Some? ==> forall k | k in s.users && k != uid :: s.users[k].username != u.username
    ensures Unique(s.(users := s.users[uid := u]))
  {
    var t := s.(users := s.users[uid := u]);
    forall a, b | a in t.users && b in t.users && t.users[a].email == t.users[b].email
      ensures a == b
    {
      if a != uid && b != uid {
        assert t.users[a] == s.users[a] && t.users[b] == s.users[b];
      }
    }
    forall a, b | a in t.users && b in t.users && t.users[a].username.Some? && t.users[a].username == t.users[b].username
      ensures a == b
    {
      if a != uid && b != uid {
        assert t.users[a] == s.users[a] && t.users[b] == s.users[b];
      }
    }
    assert Unique(t);
  }

  /** Rewriting one file's columns, keeping its path and a stored owner,
      keeps the constraints. */
  lemma ReplaceFileKeepsValid(s: Store, fid: Id, f: FileRecord)
    requires Valid(s) && fid in s.files
    requires f.ownerId in s.users && f.filePath == s.files[fid].filePath
    ensures Valid(s.(files := s.files[fid := f]))
  {
    ReplaceFileKeepsBounded(s, fid, f);
    ReplaceFileKeepsLinked(s, fid, f);
    ReplaceFileKeepsUnique(s, fid, f);
  }

  lemma ReplaceFileKeepsBounded(s: Store, fid: Id, f: FileRecord)
    requires Bounded(s) && fid in s.files
    ensures Bounded(s.(files := s.files[fid := f]))
  {
    assert s.files[fid := f].Keys == s.files.Keys;
  }

  lemma ReplaceFileKeepsLinked(s: Store, fid: Id, f: FileRecord)
    requires Linked(s) && fid in s.files && f.ownerId in s.users
    ensures Linked(s.(files := s.files[fid := f]))
  {
  }

  lemma ReplaceFileKeepsUnique(s: Store, fid: Id, f: FileRecord)
    requires Unique(s) && fid in s.files && f.filePath == s.files[fid].filePath
    ensures Unique(s.(files := s.files[fid := f]))
  {
    var t := s.(files := s.files[fid := f]);
    forall a, b | a in t.files && b in t.files && t.files[a].filePath == t.files[b].filePath
      ensures a == b
    {
      assert s.files[a].filePath == t.files[a].filePath && s.files[b].filePath == t.files[b].filePath;
    }
    assert Unique(t);
  }

  /** Adding a file under the next id, owned by a stored user and on a
      path no stored file has, keeps the constraints. */
  lemma AddFileKeepsValid(s: Store, f: FileRecord)
    requires Valid(s) && f.ownerId in s.users
    requires forall k | k in s.files :: s.files[k].filePath != f.filePath
    ensures Valid(s.(files := s.files[s.nextFileId := f], nextFileId := s.nextFileId + 1))
  {
    AddFileKeepsBounded(s, f);
    AddFileKeepsLinked(s, f);
    AddFileKeepsUnique(s, f);
  }

  lemma AddFileKeepsBounded(s: Store, f: FileRecord)
    requires Bounded(s)
    ensures Bounded(s.(files := s.files[s.nextFileId := f], nextFileId := s.nextFileId + 1))
  {
  }

  lemma AddFileKeepsLinked(s: Store, f: FileRecord)
    requires Linked(s) && f.ownerId in s.users
    ensures Linked(s.(files := s.files[s.nextFileId := f], nextFileId := s.nextFileId + 1))
  {
  }

  lemma AddFileKeepsUnique(s: Store, f: FileRecord)
    requires Unique(s) && s.nextFileId !in s.files
    requires forall k | k in s.files :: s.files[k].filePath != f.filePath
    ensures Unique(s.(files := s.files[s.nextFileId := f], nextFileId := s.nextFileId + 1))
  {
    var id := s.nextFileId;
    var t := s.(files := s.files[id := f], nextFileId := id + 1);
    forall a, b | a in t.files && b in t.files && t.files[a].filePath == t.files[b].filePath
      ensures a == b
    {
      if a != id && b != id {
        assert t.files[a] == s.files[a] && t.files[b] == s.files[b];
      }
    }
    assert Unique(t);
  }

  /** The keys of `m` below `n` in ascending order: the order in which an
      unordered `SELECT` over an insert-only table is modelled to return
      rows. */
  function IdsBelow<V>(m: map<Id, V>, n: nat): (r: seq<Id>)
    ensures forall i | 0 <= i < |r| :: r[i] in m && r[i] < n
    ensures forall k | k in m && k < n :: k in r
    ensures Increasing(r)
    decreases n
  {
    if n == 0 then []
    else IdsBelow(m, n - 1) + (if n - 1 in m then [n - 1] else [])
  }

  lemma IncreasingNoDup(r: seq<Id>)
    requires Increasing(r)
    ensures NoDup(r)
  {
  }

  /** The ids a sequence holds. */
  function Elements(r: seq<Id>): (e: set<Id>)
    ensures forall x :: x in e <==> x in r
  {
    if |r| == 0 then {} else Elements(r[..|r| - 1]) + {r[|r| - 1]}
  }

  /** A duplicate-free sequence has as many elements as its set. */
  lemma {:induction false} NoDupCard(r: seq<Id>)
    requires NoDup(r)
    ensures |Elements(r)| == |r|
  {
    if |r| > 0 {
      var p := r[..|r| - 1];
      assert NoDup(p);
      NoDupCard(p);
      assert r[|r| - 1] !in Elements(p);
    }
  }

  /** The listing of a table holds every row once: its length is the row
      count `SELECT count(id)` reports. */
  lemma IdsBelowCount<V>(m: map<Id, V>, n: nat)
    requires forall k | k in m :: k < n
    ensures |IdsBelow(m, n)| == |m|
  {
    var r := IdsBelow(m, n);
    IncreasingNoDup(r);
    NoDupCard(r);
    assert Elements(r) == m.Keys;
  }

  /** The first of `ids` (all keys of `m`) whose entry satisfies `p`: the
      `.first()` of a filtered `SELECT`. */
  function FindFirst<V>(m: map<Id, V>, ids: seq<Id>, p: V -> bool): (r: Option<Id>)
    requires forall i | 0 <= i < |ids| :: ids[i] in m
    ensures r.Some? ==> r.value in m && r.value in ids && p(m[r.value])
    ensures r.None? ==> forall i | 0 <= i < |ids| :: !p(m[ids[i]])
  {
    if |ids| == 0 then None
    else if p(m[ids[0]]) then Some(ids[0])
    else FindFirst(m, ids[1..], p)
  }

  /** The user whose email is `email`, as `select(Users).where(email == ...)`. */
  function FindUserByEmail(s: Store, email: string): (r: Option<Id>)
    requires Bounded(s)
    ensures r.Some? ==> r.value in s.users && s.users[r.value].email == email
    ensures r.None? ==> forall k | k in s.users :: s.users[k].email != email
  {
    FindFirst(s.users, IdsBelow(s.users, s.nextUserId), (u: User) => u.email == email)
  }

  /** The role named `name` (`get_role_by_name`). */
  function FindRoleByName(s: Store, name: string): (r: Option<Id>)
    requires Bounded(s)
    ensures r.Some? ==> r.value in s.roles && s.roles[r.value].name == name
    ensures r.None? ==> forall k | k in s.roles :: s.roles[k].name != name
  {
    FindFirst(s.roles, IdsBelow(s.roles, s.nextRoleId), (r: Role) => r.name == name)
  }

  /** The permission named `name` (`get_permission_by_name`). */
  function FindPermissionByName(s: Store, name: string): (r: Option<Id>)
    requires Bounded(s)
    ensures r.Some? ==> r.value in s.permissions && s.permissions[r.value].name == name
    ensures r.None? ==> forall k | k in s.permissions :: s.permissions[k].name != name
  {
    FindFirst(s.permissions, IdsBelow(s.permissions, s.nextPermissionId), (p: Permission) => p.name == name)
  }

  /** With unique names, the lookup finds the one role that carries the name. */
  lemma FindRoleByNameUnique(s: Store, name: string, id: Id)
    requires Valid(s)
    requires id in s.roles && s.roles[id].name == name
    ensures FindRoleByName(s, name) == Some(id)
  {
  }

  /** With unique names, the lookup finds the one permission that carries
      the name. */
  lemma FindPermissionByNameUnique(s: Store, name: string, id: Id)
    requires Valid(s)
    requires id in s.permissions && s.permissions[id].name == name
    ensures FindPermissionByName(s, name) == Some(id)
  {
  }

  /** `t` is `s` plus exactly one new user `u`, under the next id. */
  predicate AddsOneUser(s: Store, t: Store, id: Id, u: User) {
    && id == s.nextUserId && id !in s.users
    && t == s.(users := t.users, nextUserId := s.nextUserId + 1)
    && t.users.Keys == s.users.Keys + {id}
    && (forall k | k in s.users :: t.users[k] == s.users[k])
    && t.users[id] == u
  }

  /** `session.add(user)` and flush: the row gets the next id. */
  function InsertUser(s: Store, u: User): (r: (Store, Id))
    requires Bounded(s)
    ensures AddsOneUser(s, r.0, r.1, u)
  {
    var id := s.nextUserId;
    (s.(users := s.users[id := u], nextUserId := id + 1), id)
  }

  /** True when some stored user already has `email`. */
  predicate EmailTaken(s: Store, email: string) {
    exists k | k in s.users :: s.users[k].email == email
  }

  /** Some user other than `except` already has the username `username`;
      NULL usernames never clash. */
  predicate UsernameTaken(s: Store, username: Option<string>, except: Option<Id>) {
    username.Some? && exists k | k in s.users :: s.users[k].username == username && Some(k) != except
  }

  /** A user added with a free email and a free username keeps the
      database constraints. */
  lemma InsertUserPreservesValid(s: Store, u: User)
    requires Valid(s) && u.roles == [] && u.permissions == []
    requires forall k | k in s.users :: s.users[k].email != u.email
    requires !UsernameTaken(s, u.username, None)
    ensures Valid(InsertUser(s, u).0)
  {
    var (t, id) := InsertUser(s, u);
    assert Bounded(t);
    assert Linked(t);
    InsertUserKeepsUnique(s, u);
  }

  /** The uniqueness half of `InsertUserPreservesValid`. */
  lemma InsertUserKeepsUnique(s: Store, u: User)
    requires Bounded(s) && Unique(s)
    requires forall k | k in s.users :: s.users[k].email != u.email
    requires !UsernameTaken(s, u.username, None)
    ensures Unique(InsertUser(s, u).0)
  {
    var (t, id) := InsertUser(s, u);
    assert t.users[id] == u && id !in s.users;
    assert forall k | k in t.users && k != id :: k in s.users && t.users[k] == s.users[k];
    forall a, b | a in t.users && b in t.users && t.users[a].email == t.users[b].email
      ensures a == b
    {
      if a != id && b != id {
        assert t.users[a] == s.users[a] && t.users[b] == s.users[b];
      }
    }
    forall a, b | a in t.users && b in t.users && t.users[a].username.Some? && t.users[a].username == t.users[b].username
      ensures a == b
    {
      if a != id && b != id {
        assert t.users[a] == s.users[a] && t.users[b] == s.users[b];
      }
    }
  }

  /** With one user holding `email`, the lookup finds that user. */
  lemma FindUserByEmailUnique(s: Store, email: string, id: Id)
    requires Bounded(s) && id in s.users && s.users[id].email == email
    requires forall k | k in s.users && s.users[k].email == email :: k == id
    ensures FindUserByEmail(s, email) == Some(id)
  {
  }

  /** `items.append(x)` guarded by `x not in items`: appending keeps a
      duplicate-free sequence duplicate-free. */
  function AppendIfAbsent(ids: seq<Id>, x: Id): (r: seq<Id>)
    ensures x in r
    ensures forall y :: y in r <==> y in ids || y == x
    ensures x in ids ==> r == ids
    ensures NoDup(ids) ==> NoDup(r)
    ensures |r| <= |ids| + 1
  {
    if x in ids then ids else ids + [x]
  }
}

=== FILE: http.dfy ===
/** What every handler shares: HTTP error values, the response a handler
    produces together with the database state it leaves in its session,
    query-parameter validation, `OFFSET`/`LIMIT`, and how a request's
    session ends (`get_db` in src/database/db.py). */
module Http {
  import opened Wrappers
  import opened AccessGraph

  /** An `HTTPException`: status code and detail text. */
  datatype Error = Error(status: nat, detail: string)

  const BadRequest: nat := 400
  const Unauthorized: nat := 401
  const Forbidden: nat := 403
  const NotFound: nat := 404
  const Unprocessable: nat := 422
  const InternalError: nat := 500

  /** What the framework sends for an exception no handler caught. */
  const ServerError := Error(InternalError, "Internal Server Error")

  /** The text of the database's unique-constraint violation. */
  const UniqueViolation := "duplicate key value violates unique constraint"

  /** A handler's reply together with the state of its database session
      when it returns. */
  datatype Response<+T> = Response(store: Store, body: T)

  type Outcome<T> = Result<Response<T>, Error>

  /** `Query(1, ge=1)` for `page` and `Query(10, ge=1, le=100)` for
      `page_size`; a request outside these bounds is answered 422 before
      the handler body runs. */
  predicate ValidPaging(page: int, pageSize: int) {
    page >= 1 && 1 <= pageSize <= 100
  }

  /** The 422 the framework sends for out-of-range paging parameters. */
  const PagingError := Error(Unprocessable, "Input should be within range")

  /** `.offset(offset).limit(limit)` over rows in query order. */
  function OffsetLimit<T>(rows: seq<T>, offset: nat, limit: nat): (r: seq<T>)
    ensures |r| <= limit
    ensures offset >= |rows| ==> r == []
    ensures offset < |rows| ==> |r| == if offset + limit <= |rows| then limit else |rows| - offset
    ensures forall i | 0 <= i < |r| :: offset + i < |rows| && r[i] == rows[offset + i]
  {
    if offset >= |rows| then []
    else if offset + limit <= |rows| then rows[offset..offset + limit]
    else rows[offset..]
  }

  /** `offset = (page - 1) * page_size`. */
  function Offset(page: int, pageSize: int): nat
    requires ValidPaging(page, pageSize)
  {
    (page - 1) * pageSize
  }

  /** The page `page` of size `pageSize`: at most `pageSize` rows, taken in
      order from `Offset(page, pageSize)`. */
  function PageOf<T>(rows: seq<T>, page: int, pageSize: int): (r: seq<T>)
    requires ValidPaging(page, pageSize)
    ensures |r| <= pageSize
    ensures forall i | 0 <= i < |r| :: Offset(page, pageSize) + i < |rows| && r[i] == rows[Offset(page, pageSize) + i]
    ensures Offset(page, pageSize) < |rows| ==> |r| == if Offset(page, pageSize) + pageSize <= |rows| then pageSize else |rows| - Offset(page, pageSize)
  {
    OffsetLimit(rows, Offset(page, pageSize), pageSize)
  }

  /** The session of `get_db` is closed without a commit, which rolls back
      whatever a handler only flushed: the database keeps `before`. */
  function EndWithoutCommit<T>(before: Store, out: Outcome<T>): (after: Store)
    ensures after == before
  {
    before
  }

  /** A handler that calls `commit()` before returning keeps its session
      state; a handler that raised keeps nothing. */
  function EndWithCommit<T>(before: Store, out: Outcome<T>): (after: Store)
    ensures out.Success? ==> after == out.value.store
    ensures out.Failure? ==> after == before
  {
    if out.Success? then out.value.store else before
  }
}

=== FILE: listing.dfy ===
/** The paginated list endpoints' common body (`PaginatedUsers`,
    `PaginatedRoles`, `PaginatedPermissions`): one page of rows in query
    order, the row count, the paging parameters echoed, and
    `total_pages` by ceiling division. */
module Listing {
  import opened Http
  import opened Responses

  datatype Page<T> = Page(items: seq<T>, total: nat, page: int, pageSize: int, totalPages: int)

  /** The page `page` of `rows`, with the count and the number of pages. */
  function Paginate<T>(rows: seq<T>, page: int, pageSize: int): (p: Page<T>)
    requires ValidPaging(page, pageSize)
    ensures p.total == |rows| && p.page == page && p.pageSize == pageSize
    ensures p.items == PageOf(rows, page, pageSize)
    ensures p.totalPages >= 0 && p.totalPages * pageSize >= |rows|
    ensures p.totalPages == 0 || (p.totalPages - 1) * pageSize < |rows|
    ensures p.items != [] <==> page <= p.totalPages
  {
    TotalPagesIsCeiling(|rows|, pageSize);
    PageStartsWithinTotal(|rows|, pageSize, page);
    Page(PageOf(rows, page, pageSize), |rows|, page, pageSize, TotalPages(|rows|, pageSize))
  }

  /** Every row is on a page a client can ask for: row `i` is item
      `i % page_size` of page `i / page_size + 1`, and that page is within
      `total_pages`. */
  lemma {:induction false} RowOnItsPage<T>(rows: seq<T>, pageSize: int, i: nat)
    requires 1 <= pageSize <= 100 && i < |rows|
    ensures var page := i / pageSize + 1;
      && ValidPaging(page, pageSize)
      && page <= Paginate(rows, page, pageSize).totalPages
      && i % pageSize < |PageOf(rows, page, pageSize)|
      && PageOf(rows, page, pageSize)[i % pageSize] == rows[i]
  {
    var q, r := i / pageSize, i % pageSize;
    var page := q + 1;
    DivMod(i, pageSize);
    var off := Offset(page, pageSize);
    assert off == q * pageSize;
    assert off + r == i && off < |rows|;
    var items := PageOf(rows, page, pageSize);
    assert r < |items|;
    assert items[r] == rows[i];
    assert Paginate(rows, page, pageSize).items != [];
  }

  /** Euclidean division of a row index by the page size. */
  lemma DivMod(i: nat, n: int)
    requires n >= 1
    ensures i / n >= 0 && 0 <= i % n < n && (i / n) * n + i % n == i
  {
  }
}

=== FILE: permission_routes.dfy ===
/** The permission endpoints (src/routes/permissions/route.py). Like the
    role endpoints they only flush through the service layer, and the
    session is closed without a commit. */
module PermissionRoutes {
  import opened Wrappers
  import opened AccessGraph
  import opened Http
  import opened Deps
  import opened Listing
  import opened Authorization

  const CreateErrorPrefix := "Create permission error: "

  /** The body of `create_permission_endpoint` once the guard has passed:
      no check for a taken name; any exception from `create_permission`
      becomes a 500 whose detail carries the exception's text. */
  function CreatePermissionBody(s: Store, name: string, description: Option<string>): (r: Outcome<Id>)
    requires Bounded(s)
    ensures r.Failure? <==> exists k | k in s.permissions :: s.permissions[k].name == name
    ensures r.Failure? ==> r.error == Error(InternalError, CreateErrorPrefix + UniqueViolation)
    ensures r.Success? ==> AddsOnePermission(s, r.value.store, r.value.body, name, description)
  {
    match CreatePermission(s, name, description)
    case Success(created) => Success(created)
    case Failure(e) => Failure(Error(InternalError, CreateErrorPrefix + e.message))
  }

  /** `create_permission_endpoint`: `administrator.create` is required. */
  function CreatePermissionEndpoint(s: Store, req: AuthRequest, name: string, description: Option<string>): (r: Outcome<Id>)
    requires Bounded(s) && Linked(s)
    ensures RequirePermission(s, req, AdminCreate).Failure? ==> r == Failure(RequirePermission(s, req, AdminCreate).error)
    ensures RequirePermission(s, req, AdminCreate).Success? ==> r == CreatePermissionBody(s, name, description)
  {
    var _ :- RequirePermission(s, req, AdminCreate);
    CreatePermissionBody(s, name, description)
  }

  /** `list_permissions_endpoint`: no guard; one page of permissions in id
      order, with `total` the number of permissions. */
  function ListPermissions(s: Store, page: int, pageSize: int): (r: Result<Page<Id>, Error>)
    requires Bounded(s)
    ensures r.Failure? <==> !ValidPaging(page, pageSize)
    ensures r.Failure? ==> r.error == PagingError
    ensures r.Success? ==> r.value.total == |s.permissions|
    ensures r.Success? ==> r.value.items == PageOf(IdsBelow(s.permissions, s.nextPermissionId), page, pageSize)
    ensures r.Success? ==> forall i | 0 <= i < |r.value.items| :: r.value.items[i] in s.permissions
  {
    if !ValidPaging(page, pageSize) then Failure(PagingError)
    else
      IdsBelowCount(s.permissions, s.nextPermissionId);
      Success(Paginate(IdsBelow(s.permissions, s.nextPermissionId), page, pageSize))
  }

  /** The body of `assign_perm_to_role` once the guard has passed, in a
      session holding the collections `loaded`. */
  function AssignPermToRoleBody(s: Store, loaded: Loaded, roleId: int, permissionId: int): (r: Outcome<Id>)
    ensures r.Failure? <==>
      !HasRole(s, roleId) || !HasPermissionRow(s, permissionId) || roleId !in loaded.rolePermissions
    ensures !HasRole(s, roleId) || !HasPermissionRow(s, permissionId) ==>
      r == Failure(Error(NotFound, "Role or Permission not found"))
    ensures r.Failure? && HasRole(s, roleId) && HasPermissionRow(s, permissionId) ==>
      r.error == Error(InternalError, MissingGreenlet)
    ensures r.Success? ==> r.value.body == roleId && OnlyRoleLinksChanged(s, r.value.store, roleId)
    ensures r.Success? ==>
      forall x :: x in r.value.store.roles[roleId].permissions <==> x in s.roles[roleId].permissions || x == permissionId
  {
    match AssignPermissionToRole(s, loaded, roleId, permissionId)
    case Success(out) => Success(out)
    case Failure(e) => Failure(AsHttpError(e))
  }

  /** `assign_perm_to_role`: `administrator.update` is required, and the
      body runs in the session the guard loaded the caller into. */
  function AssignPermToRole(s: Store, req: AuthRequest, roleId: int, permissionId: int): (r: Outcome<Id>)
    requires Linked(s)
    ensures RequirePermission(s, req, AdminUpdate).Failure? ==> r == Failure(RequirePermission(s, req, AdminUpdate).error)
    ensures RequirePermission(s, req, AdminUpdate).Success? ==>
      var caller := RequirePermission(s, req, AdminUpdate).value;
      caller in s.users && r == AssignPermToRoleBody(s, GuardLoaded(s, caller), roleId, permissionId)
  {
    var caller :- RequirePermission(s, req, AdminUpdate);
    AssignPermToRoleBody(s, GuardLoaded(s, caller), roleId, permissionId)
  }

  /** As written, a permission can be linked only to a role the caller
      holds: any other existing role answers 500. */
  lemma AssignPermToUnheldRoleFails(s: Store, req: AuthRequest, roleId: int, permissionId: int)
    requires Linked(s) && RequirePermission(s, req, AdminUpdate).Success?
    requires HasRole(s, roleId) && HasPermissionRow(s, permissionId)
    ensures var caller := RequirePermission(s, req, AdminUpdate).value;
      && caller in s.users
      && (AssignPermToRole(s, req, roleId, permissionId).Success? <==> roleId in s.users[caller].roles)
      && (roleId !in s.users[caller].roles ==>
            AssignPermToRole(s, req, roleId, permissionId) == Failure(Error(InternalError, MissingGreenlet)))
  {
  }

  /** `assign_perm_to_role` with the role's permissions loaded: 404
      exactly when a row is missing, otherwise the link is added. */
  function AssignPermToRoleLoaded(s: Store, req: AuthRequest, roleId: int, permissionId: int): (r: Outcome<Id>)
    requires Linked(s)
    ensures RequirePermission(s, req, AdminUpdate).Failure? ==> r == Failure(RequirePermission(s, req, AdminUpdate).error)
    ensures RequirePermission(s, req, AdminUpdate).Success? ==>
      && (r.Failure? <==> !HasRole(s, roleId) || !HasPermissionRow(s, permissionId))
      && (r.Failure? ==> r.error == Error(NotFound, "Role or Permission not found"))
      && (r.Success? ==> r.value.body == roleId && OnlyRoleLinksChanged(s, r.value.store, roleId))
      && (r.Success? ==>
            forall x :: x in r.value.store.roles[roleId].permissions <==> x in s.roles[roleId].permissions || x == permissionId)
  {
    var _ :- RequirePermission(s, req, AdminUpdate);
    AssignPermToRoleBody(s, AllLoaded(s), roleId, permissionId)
  }

  /** The body of `assign_perm_to_user` once the guard has passed, in a
      session holding the collections `loaded`. */
  function AssignPermToUserBody(s: Store, loaded: Loaded, userId: int, permissionId: int): (r: Outcome<Id>)
    ensures r.Failure? <==>
      !HasUser(s, userId) || !HasPermissionRow(s, permissionId) || userId !in loaded.userLinks
    ensures !HasUser(s, userId) || !HasPermissionRow(s, permissionId) ==>
      r == Failure(Error(NotFound, "User or Permission not found"))
    ensures r.Failure? && HasUser(s, userId) && HasPermissionRow(s, permissionId) ==>
      r.error == Error(InternalError, MissingGreenlet)
    ensures r.Success? ==> r.value.body == userId && OnlyUserLinksChanged(s, r.value.store, userId)
    ensures r.Success? ==>
      forall x :: x in r.value.store.users[userId].permissions <==> x in s.users[userId].permissions || x == permissionId
  {
    match AssignPermissionToUser(s, loaded, userId, permissionId)
    case Success(out) => Success(out)
    case Failure(e) => Failure(AsHttpError(e))
  }

  /** `assign_perm_to_user`: `administrator.update` is required, and the
      body runs in the session the guard loaded the caller into. */
  function AssignPermToUser(s: Store, req: AuthRequest, userId: int, permissionId: int): (r: Outcome<Id>)
    requires Linked(s)
    ensures RequirePermission(s, req, AdminUpdate).Failure? ==> r == Failure(RequirePermission(s, req, AdminUpdate).error)
    ensures RequirePermission(s, req, AdminUpdate).Success? ==>
      var caller := RequirePermission(s, req, AdminUpdate).value;
      caller in s.users && r == AssignPermToUserBody(s, GuardLoaded(s, caller), userId, permissionId)
  {
    var caller :- RequirePermission(s, req, AdminUpdate);
    AssignPermToUserBody(s, GuardLoaded(s, caller), userId, permissionId)
  }

  /** As written, a direct permission can be granted only to the caller:
      any other existing user answers 500. */
  lemma AssignPermToOtherUserFails(s: Store, req: AuthRequest, userId: int, permissionId: int)
    requires Linked(s) && RequirePermission(s, req, AdminUpdate).Success?
    requires HasUser(s, userId) && HasPermissionRow(s, permissionId)
    ensures AssignPermToUser(s, req, userId, permissionId).Success? <==> userId == RequirePermission(s, req, AdminUpdate).value
    ensures userId != RequirePermission(s, req, AdminUpdate).value ==>
      AssignPermToUser(s, req, userId, permissionId) == Failure(Error(InternalError, MissingGreenlet))
  {
  }

  /** `assign_perm_to_user` with the user's permissions loaded: 404
      exactly when a row is missing, otherwise the grant is added. */
  function AssignPermToUserLoaded(s: Store, req: AuthRequest, userId: int, permissionId: int): (r: Outcome<Id>)
    requires Linked(s)
    ensures RequirePermission(s, req, AdminUpdate).Failure? ==> r == Failure(RequirePermission(s, req, AdminUpdate).error)
    ensures RequirePermission(s, req, AdminUpdate).Success? ==>
      && (r.Failure? <==> !HasUser(s, userId) || !HasPermissionRow(s, permissionId))
      && (r.Failure? ==> r.error == Error(NotFound, "User or Permission not found"))
      && (r.Success? ==> r.value.body == userId && OnlyUserLinksChanged(s, r.value.store, userId))
      && (r.Success? ==>
            forall x :: x in r.value.store.users[userId].permissions <==> x in s.users[userId].permissions || x == permissionId)
  {
    var _ :- RequirePermission(s, req, AdminUpdate);
    AssignPermToUserBody(s, AllLoaded(s), userId, permissionId)
  }

  /** As written, a permission the endpoint reports as created is not in
      the database afterwards. */
  lemma CreatedPermissionIsLost(s: Store, req: AuthRequest, name: string, description: Option<string>)
    requires Bounded(s) && Linked(s) && CreatePermissionEndpoint(s, req, name, description).Success?
    ensures var out := CreatePermissionEndpoint(s, req, name, description).value;
      && out.body in out.store.permissions && out.store.permissions[out.body].name == name
      && forall k | k in EndWithoutCommit(s, CreatePermissionEndpoint(s, req, name, description)).permissions ::
           EndWithoutCommit(s, CreatePermissionEndpoint(s, req, name, description)).permissions[k].name != name
  {
  }

  /** With a commit, the created permission is the one the name lookup
      finds afterwards. */
  lemma CreatedPermissionIsKept(s: Store, req: AuthRequest, name: string, description: Option<string>)
    requires Valid(s) && CreatePermissionEndpoint(s, req, name, description).Success?
    ensures var kept := EndWithCommit(s, CreatePermissionEndpoint(s, req, name, description));
      Valid(kept) && FindPermissionByName(kept, name) == Some(CreatePermissionEndpoint(s, req, name, description).value.body)
  {
    var out := CreatePermissionEndpoint(s, req, name, description).value;
    assert CreatePermissionBody(s, name, description) == Success(out);
    AddsOnePermissionPreservesValid(s, out.store, out.body, name, description);
    FindPermissionByNameUnique(out.store, name, out.body);
  }
}

=== FILE: permissions.dfy ===
/** Permission resolution (src/utils/permissions.py): the decisions taken
    over a user as `get_current_user` loads it, with its direct permissions
    and its roles' permissions eagerly available. */
module Permissions {
  import opened Wrappers
  import opened AccessGraph

  /** A role as loaded with the user: its name and its permission rows. */
  datatype LoadedRole = LoadedRole(id: Id, name: string, permissions: seq<Permission>)

  /** A user as loaded by `get_current_user`: `user.permissions` and
      `user.roles[*].permissions` are lists of rows, not ids. */
  datatype Principal = Principal(id: Id, user: User, permissions: seq<Permission>, roles: seq<LoadedRole>)

  /** The permission rows behind a list of permission ids. */
  function LoadPermissions(s: Store, ids: seq<Id>): (ps: seq<Permission>)
    requires forall i | 0 <= i < |ids| :: ids[i] in s.permissions
    ensures |ps| == |ids|
    ensures forall i | 0 <= i < |ids| :: ps[i] == s.permissions[ids[i]]
  {
    seq(|ids|, i requires 0 <= i < |ids| => s.permissions[ids[i]])
  }

  /** The role rows behind a list of role ids, each with its permissions. */
  function LoadRoles(s: Store, ids: seq<Id>): (rs: seq<LoadedRole>)
    requires Linked(s)
    requires forall i | 0 <= i < |ids| :: ids[i] in s.roles
    ensures |rs| == |ids|
    ensures forall i | 0 <= i < |ids| :: rs[i].id == ids[i] && rs[i].name == s.roles[ids[i]].name
    ensures forall i | 0 <= i < |ids| :: rs[i].permissions == LoadPermissions(s, s.roles[ids[i]].permissions)
  {
    seq(|ids|, i requires 0 <= i < |ids| =>
      LoadedRole(ids[i], s.roles[ids[i]].name, LoadPermissions(s, s.roles[ids[i]].permissions)))
  }

  /** The eager load `selectinload(Users.roles).selectinload(permissions)`
      plus `selectinload(Users.permissions)`. */
  function Load(s: Store, uid: Id): (p: Principal)
    requires Linked(s) && uid in s.users
    ensures p.id == uid && p.user == s.users[uid]
    ensures p.permissions == LoadPermissions(s, s.users[uid].permissions)
    ensures p.roles == LoadRoles(s, s.users[uid].roles)
  {
    var u := s.users[uid];
    Principal(uid, u, LoadPermissions(s, u.permissions), LoadRoles(s, u.roles))
  }

  /** The loaded user depends only on its own row and the role and
      permission tables. */
  lemma LoadFrame(s: Store, t: Store, uid: Id)
    requires Linked(s) && Linked(t) && uid in s.users && uid in t.users
    requires s.users[uid] == t.users[uid] && s.roles == t.roles && s.permissions == t.permissions
    ensures Load(s, uid) == Load(t, uid)
  {
    var u := s.users[uid];
    assert LoadPermissions(s, u.permissions) == LoadPermissions(t, u.permissions);
    assert LoadRoles(s, u.roles) == LoadRoles(t, u.roles);
  }

  /** The first loop of `has_permission`: some direct permission has the
      name. */
  function AnyNamed(ps: seq<Permission>, name: string): (r: bool)
    ensures r <==> exists i | 0 <= i < |ps| :: ps[i].name == name
  {
    if |ps| == 0 then false
    else if ps[0].name == name then true
    else AnyNamed(ps[1..], name)
  }

  /** The nested loop of `has_permission`: some permission of some role has
      the name. */
  function AnyRoleGrants(rs: seq<LoadedRole>, name: string): (r: bool)
    ensures r <==> exists i, j | 0 <= i < |rs| && 0 <= j < |rs[i].permissions| :: rs[i].permissions[j].name == name
  {
    if |rs| == 0 then false
    else if AnyNamed(rs[0].permissions, name) then true
    else
      var r := AnyRoleGrants(rs[1..], name);
      assert r ==> exists i, j | 0 <= i < |rs| && 0 <= j < |rs[i].permissions| :: rs[i].permissions[j].name == name by {
        if r {
          var i, j :| 0 <= i < |rs[1..]| && 0 <= j < |rs[1..][i].permissions| && rs[1..][i].permissions[j].name == name;
          assert rs[i + 1].permissions[j].name == name;
        }
      }
      r
  }

  /** The name set `require_permission` collects: direct permission names
      united with every held role's permission names. */
  function PermissionNames(u: Principal): (names: set<string>)
    ensures forall i | 0 <= i < |u.permissions| :: u.permissions[i].name in names
    ensures forall i, j | 0 <= i < |u.roles| && 0 <= j < |u.roles[i].permissions| :: u.roles[i].permissions[j].name in names
  {
    (set i | 0 <= i < |u.permissions| :: u.permissions[i].name)
    + (set i, j | 0 <= i < |u.roles| && 0 <= j < |u.roles[i].permissions| :: u.roles[i].permissions[j].name)
  }

  /** `has_permission`: the direct permissions are scanned first, then each
      role's permissions. Names match exactly, case included. The answer is
      membership in the union of direct and role permission names. */
  function HasPermission(u: Principal, name: string): (r: bool)
    ensures r <==> name in PermissionNames(u)
  {
    AnyNamed(u.permissions, name) || AnyRoleGrants(u.roles, name)
  }

  /** `has_any_permission`: `any(...)` over the list, so false on []. */
  function HasAnyPermission(u: Principal, names: seq<string>): (r: bool)
    ensures r <==> exists i | 0 <= i < |names| :: names[i] in PermissionNames(u)
    ensures names == [] ==> !r
  {
    if |names| == 0 then false
    else if HasPermission(u, names[0]) then true
    else
      var r := HasAnyPermission(u, names[1..]);
      assert r ==> exists i | 0 <= i < |names| :: names[i] in PermissionNames(u) by {
        if r {
          var i :| 0 <= i < |names[1..]| && names[1..][i] in PermissionNames(u);
          assert names[i + 1] in PermissionNames(u);
        }
      }
      r
  }

  /** `has_all_permissions`: `all(...)` over the list, so true on []. */
  function HasAllPermissions(u: Principal, names: seq<string>): (r: bool)
    ensures r <==> forall i | 0 <= i < |names| :: names[i] in PermissionNames(u)
    ensures names == [] ==> r
  {
    if |names| == 0 then true
    else if !HasPermission(u, names[0]) then false
    else
      var r := HasAllPermissions(u, names[1..]);
      assert r ==> forall i | 0 <= i < |names| :: names[i] in PermissionNames(u) by {
        if r {
          forall i | 1 <= i < |names| ensures names[i] in PermissionNames(u) {
            assert names[i] == names[1..][i - 1];
          }
        }
      }
      r
  }

  /** `check_file_access`: the owner path needs `allow_owner` and a truthy
      `owner_id` (0 and None switch it off); otherwise a truthy required
      permission decides; otherwise access is refused. */
  function CheckFileAccess(u: Principal, requiredPermission: Option<string>, ownerId: Option<int>,
                           allowOwner: bool): (r: bool)
    ensures r <==> (allowOwner && ownerId.Some? && ownerId.value != 0 && u.id == ownerId.value)
                   || (Truthy(requiredPermission) && requiredPermission.value in PermissionNames(u))
  {
    if allowOwner && ownerId.Some? && ownerId.value != 0 && u.id == ownerId.value then true
    else if Truthy(requiredPermission) then HasPermission(u, requiredPermission.value)
    else false
  }

  /** Fail-closed: neither an owner match nor a required permission means no
      access, whatever the user holds. */
  lemma CheckFileAccessFailsClosed(u: Principal, ownerId: Option<int>, allowOwner: bool)
    requires !(allowOwner && ownerId.Some? && ownerId.value != 0 && u.id == ownerId.value)
    ensures !CheckFileAccess(u, None, ownerId, allowOwner)
    ensures !CheckFileAccess(u, Some(""), ownerId, allowOwner)
  {
  }

  /** `is_admin`: some held role is named exactly "Administrator". */
  predicate IsAdmin(u: Principal) {
    exists i | 0 <= i < |u.roles| :: u.roles[i].name == "Administrator"
  }

  /** True when `u` holds a role named exactly `name`. */
  predicate HoldsRoleNamed(u: Principal, name: string) {
    exists i | 0 <= i < |u.roles| :: u.roles[i].name == name
  }

  /** `is_admin` and `require_admin` look for different role names: a user
      whose roles are all named "admin", as the seeder creates them, passes
      the `require_admin` test and fails `is_admin`. */
  lemma AdminChecksDisagree(u: Principal)
    requires |u.roles| > 0 && forall i | 0 <= i < |u.roles| :: u.roles[i].name == "admin"
    ensures HoldsRoleNamed(u, "admin") && !IsAdmin(u)
  {
    assert u.roles[0].name == "admin";
  }

  /** The graph-level grant: some permission named `name` is linked to the
      user directly or through a role the user holds. */
  predicate Grants(s: Store, uid: Id, name: string)
    requires uid in s.users
  {
    exists p | p in s.permissions && s.permissions[p].name == name ::
      p in s.users[uid].permissions
      || exists r | r in s.users[uid].roles && r in s.roles :: p in s.roles[r].permissions
  }

  /** Resolving over the loaded user agrees with the access graph: the loaded
      name set holds `name` exactly when the graph grants it. */
  lemma {:induction false} LoadedNamesAreGrants(s: Store, uid: Id, name: string)
    requires Linked(s) && uid in s.users
    ensures name in PermissionNames(Load(s, uid)) <==> Grants(s, uid, name)
  {
    if name in PermissionNames(Load(s, uid)) {
      LoadedNameIsGrant(s, uid, name);
    }
    if Grants(s, uid, name) {
      GrantIsLoadedName(s, uid, name);
    }
  }

  lemma LoadedNameIsGrant(s: Store, uid: Id, name: string)
    requires Linked(s) && uid in s.users && name in PermissionNames(Load(s, uid))
    ensures Grants(s, uid, name)
  {
    var u := Load(s, uid);
    var usr := s.users[uid];
    if i :| 0 <= i < |u.permissions| && u.permissions[i].name == name {
      var p := usr.permissions[i];
      assert p in s.permissions && s.permissions[p].name == name && p in usr.permissions;
    } else {
      var i, j :| 0 <= i < |u.roles| && 0 <= j < |u.roles[i].permissions| && u.roles[i].permissions[j].name == name;
      var r := usr.roles[i];
      var p := s.roles[r].permissions[j];
      assert r in usr.roles && r in s.roles && p in s.roles[r].permissions;
      assert p in s.permissions && s.permissions[p].name == name;
    }
  }

  lemma GrantIsLoadedName(s: Store, uid: Id, name: string)
    requires Linked(s) && uid in s.users && Grants(s, uid, name)
    ensures name in PermissionNames(Load(s, uid))
  {
    var u := Load(s, uid);
    var usr := s.users[uid];
    var p :| p in s.permissions && s.permissions[p].name == name &&
      (p in usr.permissions || exists r | r in usr.roles && r in s.roles :: p in s.roles[r].permissions);
    if p in usr.permissions {
      var i :| 0 <= i < |usr.permissions| && usr.permissions[i] == p;
      assert u.permissions[i].name == name;
    } else {
      var r :| r in usr.roles && r in s.roles && p in s.roles[r].permissions;
      var i :| 0 <= i < |usr.roles| && usr.roles[i] == r;
      var j :| 0 <= j < |s.roles[r].permissions| && s.roles[r].permissions[j] == p;
      assert u.roles[i].permissions[j].name == name;
    }
  }

  /** `has_permission` on the loaded user is the graph-level grant. */
  lemma HasPermissionIsGrant(s: Store, uid: Id, name: string)
    requires Linked(s) && uid in s.users
    ensures HasPermission(Load(s, uid), name) <==> Grants(s, uid, name)
  {
    LoadedNamesAreGrants(s, uid, name);
  }
}

=== FILE: responses.dfy ===
/** The response envelopes of src/utils/responses.py, built as JSON-like
    values, and the ceiling division behind `total_pages`. */
module Responses {
  import opened Wrappers

  /** The JSON values the envelopes are made of. */
  datatype Json =
    | JNull
    | JBool(b: bool)
    | JInt(i: int)
    | JString(s: string)
    | JArray(items: seq<Json>)
    | JObject(fields: map<string, Json>)

  /** Python's `a // b`: the floor of the quotient, for either sign of `b`.
      Dafny's `/` is Euclidean, which is the floor only for `b > 0`. */
  function FloorDiv(a: int, b: int): (q: int)
    requires b != 0
    ensures b > 0 ==> q * b <= a < q * b + b
    ensures b < 0 ==> q * b >= a > q * b + b
  {
    if b > 0 then a / b else (-a) / (-b)
  }

  /** `(total + page_size - 1) // page_size`. */
  function TotalPages(total: int, pageSize: int): (pages: int)
    requires pageSize != 0
  {
    FloorDiv(total + pageSize - 1, pageSize)
  }

  /** For a positive page size `total_pages` is the ceiling of
      `total / page_size`: the fewest pages of that size holding every
      row, and no page when there is no row. */
  lemma TotalPagesIsCeiling(total: nat, pageSize: int)
    requires pageSize > 0
    ensures TotalPages(total, pageSize) >= 0
    ensures TotalPages(total, pageSize) * pageSize >= total
    ensures TotalPages(total, pageSize) == 0 || (TotalPages(total, pageSize) - 1) * pageSize < total
    ensures TotalPages(total, pageSize) == 0 <==> total == 0
  {
    var q := TotalPages(total, pageSize);
    assert q * pageSize <= total + pageSize - 1 < q * pageSize + pageSize;
    assert (q - 1) * pageSize == q * pageSize - pageSize;
  }

  lemma MulMono(a: int, b: int, c: int)
    requires a <= b && c > 0
    ensures a * c <= b * c
  {
  }

  /** A page number is below `total_pages` exactly when that page starts
      before the end of the rows: the pages a client may ask for. */
  lemma {:induction false} PageStartsWithinTotal(total: nat, pageSize: int, page: int)
    requires pageSize > 0 && page >= 1
    ensures page <= TotalPages(total, pageSize) <==> (page - 1) * pageSize < total
  {
    TotalPagesIsCeiling(total, pageSize);
    var q := TotalPages(total, pageSize);
    if page <= q {
      MulMono(page - 1, q - 1, pageSize);
    } else {
      MulMono(q, page - 1, pageSize);
    }
  }

  /** `success_response`: success true, the message and the data as given.
      The status code argument does not reach the body. */
  function SuccessResponse(data: Json, message: string, statusCode: int): (r: Json)
    ensures r.JObject? && r.fields.Keys == {"success", "message", "data"}
    ensures r.fields["success"] == JBool(true)
    ensures r.fields["message"] == JString(message) && r.fields["data"] == data
  {
    JObject(map["success" := JBool(true), "message" := JString(message), "data" := data])
  }

  /** The status code of `success_response` never shows in the body. */
  lemma SuccessIgnoresStatus(data: Json, message: string, c1: int, c2: int)
    ensures SuccessResponse(data, message, c1) == SuccessResponse(data, message, c2)
  {
  }

  /** `if errors:` on an optional dict: present and non-empty. */
  predicate HasErrors(errors: Option<map<string, Json>>) {
    errors.Some? && |errors.value| > 0
  }

  /** `error_response`: success false and the message, plus an "errors"
      entry exactly when `errors` is a non-empty dict, holding it. */
  function ErrorResponse(message: string, errors: Option<map<string, Json>>, statusCode: int): (r: Json)
    ensures r.JObject? && "success" in r.fields && "message" in r.fields
    ensures r.fields["success"] == JBool(false) && r.fields["message"] == JString(message)
    ensures "errors" in r.fields <==> HasErrors(errors)
    ensures HasErrors(errors) ==> r.fields["errors"] == JObject(errors.value)
    ensures r.fields.Keys <= {"success", "message", "errors"}
  {
    var base := map["success" := JBool(false), "message" := JString(message)];
    if HasErrors(errors) then JObject(base["errors" := JObject(errors.value)]) else JObject(base)
  }

  /** An absent errors dict and an empty one give the same body. */
  lemma ErrorResponseEmptyIsAbsent(message: string, c: int)
    ensures ErrorResponse(message, Some(map[]), c) == ErrorResponse(message, None, c)
  {
  }

  /** `paginated_response`: the items and the paging figures echoed under
      "data", with `total_pages` by ceiling division. A zero page size is
      Python's `ZeroDivisionError`, here `None`. */
  function PaginatedResponse(items: seq<Json>, total: int, page: int, pageSize: int, message: string): (r: Option<Json>)
    ensures r.None? <==> pageSize == 0
    ensures r.Some? ==>
      && r.value.JObject?
      && r.value.fields.Keys == {"success", "message", "data"}
      && r.value.fields["success"] == JBool(true)
      && r.value.fields["message"] == JString(message)
      && r.value.fields["data"].JObject?
      && r.value.fields["data"].fields.Keys == {"items", "pagination"}
      && r.value.fields["data"].fields["items"] == JArray(items)
      && r.value.fields["data"].fields["pagination"] == JObject(map[
           "total" := JInt(total), "page" := JInt(page), "page_size" := JInt(pageSize),
           "total_pages" := JInt(TotalPages(total, pageSize))])
  {
    if pageSize == 0 then None
    else
      var pagination := map[
        "total" := JInt(total), "page" := JInt(page), "page_size" := JInt(pageSize),
        "total_pages" := JInt(TotalPages(total, pageSize))];
      Some(JObject(map[
        "success" := JBool(true),
        "message" := JString(message),
        "data" := JObject(map["items" := JArray(items), "pagination" := JObject(pagination)])]))
  }

  /** Reading the figures back out of a paginated body gives the inputs. */
  lemma PaginatedResponseEchoes(items: seq<Json>, total: nat, page: int, pageSize: int, message: string)
    requires pageSize > 0
    ensures var p := PaginatedResponse(items, total, page, pageSize, message).value.fields["data"].fields["pagination"];
      && p.fields["total"] == JInt(total) && p.fields["page"] == JInt(page) && p.fields["page_size"] == JInt(pageSize)
      && p.fields["total_pages"].i * pageSize >= total
      && (p.fields["total_pages"].i == 0 || (p.fields["total_pages"].i - 1) * pageSize < total)
  {
    TotalPagesIsCeiling(total, pageSize);
  }
}

=== FILE: role_routes.dfy ===
/** The role endpoints (src/routes/roles/route.py). They call the service
    layer, which only flushes, and `get_db` closes the session without a
    commit: what a handler returns is the session's state, and what the
    database keeps is the state before the request. */
module RoleRoutes {
  import opened Wrappers
  import opened AccessGraph
  import opened Http
  import opened Deps
  import opened Listing
  import opened Authorization

  /** The body of `create_role_endpoint` once the guard has passed: a
      taken name is 400, otherwise `create_role`. */
  function CreateRoleBody(s: Store, name: string, description: Option<string>): (r: Outcome<Id>)
    requires Bounded(s)
    ensures r.Failure? <==> exists k | k in s.roles :: s.roles[k].name == name
    ensures r.Failure? ==> r.error == Error(BadRequest, "Role already exists")
    ensures r.Success? ==> AddsOneRole(s, r.value.store, r.value.body, name, description)
  {
    if FindRoleByName(s, name).Some? then Failure(Error(BadRequest, "Role already exists"))
    else Success(CreateRole(s, name, description).value)
  }

  /** `create_role_endpoint`: `administrator.create` is required. */
  function CreateRoleEndpoint(s: Store, req: AuthRequest, name: string, description: Option<string>): (r: Outcome<Id>)
    requires Bounded(s) && Linked(s)
    ensures RequirePermission(s, req, AdminCreate).Failure? ==> r == Failure(RequirePermission(s, req, AdminCreate).error)
    ensures RequirePermission(s, req, AdminCreate).Success? ==> r == CreateRoleBody(s, name, description)
  {
    var _ :- RequirePermission(s, req, AdminCreate);
    CreateRoleBody(s, name, description)
  }

  /** `list_roles_endpoint`: no guard; one page of roles in id order, with
      `total` the number of roles. */
  function ListRoles(s: Store, page: int, pageSize: int): (r: Result<Page<Id>, Error>)
    requires Bounded(s)
    ensures r.Failure? <==> !ValidPaging(page, pageSize)
    ensures r.Failure? ==> r.error == PagingError
    ensures r.Success? ==> r.value.total == |s.roles|
    ensures r.Success? ==> r.value.items == PageOf(IdsBelow(s.roles, s.nextRoleId), page, pageSize)
    ensures r.Success? ==> forall i | 0 <= i < |r.value.items| :: r.value.items[i] in s.roles
  {
    if !ValidPaging(page, pageSize) then Failure(PagingError)
    else
      IdsBelowCount(s.roles, s.nextRoleId);
      Success(Paginate(IdsBelow(s.roles, s.nextRoleId), page, pageSize))
  }

  /** The body of `assign_role` once the guard has passed, in a session
      holding the collections `loaded`. The path gives the role id first;
      the service takes the user id first. */
  function AssignRoleBody(s: Store, loaded: Loaded, roleId: int, userId: int): (r: Outcome<Id>)
    ensures r.Failure? <==> !HasUser(s, userId) || !HasRole(s, roleId) || userId !in loaded.userLinks
    ensures !HasUser(s, userId) || !HasRole(s, roleId) ==> r == Failure(Error(NotFound, "User or Role not found"))
    ensures r.Failure? && HasUser(s, userId) && HasRole(s, roleId) ==> r.error == Error(InternalError, MissingGreenlet)
    ensures r.Success? ==> r.value.body == userId && OnlyUserLinksChanged(s, r.value.store, userId)
    ensures r.Success? ==> forall x :: x in r.value.store.users[userId].roles <==> x in s.users[userId].roles || x == roleId
  {
    match AssignRoleToUser(s, loaded, userId, roleId)
    case Success(out) => Success(out)
    case Failure(e) => Failure(AsHttpError(e))
  }

  /** `assign_role`: `administrator.update` is required, and the body runs
      in the session the guard loaded the caller into. */
  function AssignRole(s: Store, req: AuthRequest, roleId: int, userId: int): (r: Outcome<Id>)
    requires Linked(s)
    ensures RequirePermission(s, req, AdminUpdate).Failure? ==> r == Failure(RequirePermission(s, req, AdminUpdate).error)
    ensures RequirePermission(s, req, AdminUpdate).Success? ==>
      var caller := RequirePermission(s, req, AdminUpdate).value;
      caller in s.users && r == AssignRoleBody(s, GuardLoaded(s, caller), roleId, userId)
  {
    var caller :- RequirePermission(s, req, AdminUpdate);
    AssignRoleBody(s, GuardLoaded(s, caller), roleId, userId)
  }

  /** As written, an administrator can assign a role only to themself: for
      any other existing user the lazy `user.roles` fails and the endpoint
      answers 500. */
  lemma AssignRoleToOtherUserFails(s: Store, req: AuthRequest, roleId: int, userId: int)
    requires Linked(s) && RequirePermission(s, req, AdminUpdate).Success?
    requires HasUser(s, userId) && HasRole(s, roleId)
    ensures AssignRole(s, req, roleId, userId).Success? <==> userId == RequirePermission(s, req, AdminUpdate).value
    ensures userId != RequirePermission(s, req, AdminUpdate).value ==>
      AssignRole(s, req, roleId, userId) == Failure(Error(InternalError, MissingGreenlet))
  {
  }

  /** `assign_role` with the target's collections loaded: after the guard,
      404 exactly when the user or the role is missing, and otherwise the
      role joins that user's roles. */
  function AssignRoleLoaded(s: Store, req: AuthRequest, roleId: int, userId: int): (r: Outcome<Id>)
    requires Linked(s)
    ensures RequirePermission(s, req, AdminUpdate).Failure? ==> r == Failure(RequirePermission(s, req, AdminUpdate).error)
    ensures RequirePermission(s, req, AdminUpdate).Success? ==>
      && (r.Failure? <==> !HasUser(s, userId) || !HasRole(s, roleId))
      && (r.Failure? ==> r.error == Error(NotFound, "User or Role not found"))
      && (r.Success? ==> r.value.body == userId && OnlyUserLinksChanged(s, r.value.store, userId))
      && (r.Success? ==> forall x :: x in r.value.store.users[userId].roles <==> x in s.users[userId].roles || x == roleId)
  {
    var _ :- RequirePermission(s, req, AdminUpdate);
    AssignRoleBody(s, AllLoaded(s), roleId, userId)
  }

  /** As written, a role the endpoint reports as created is not in the
      database afterwards: the session is closed without a commit. */
  lemma CreatedRoleIsLost(s: Store, req: AuthRequest, name: string, description: Option<string>)
    requires Bounded(s) && Linked(s) && CreateRoleEndpoint(s, req, name, description).Success?
    ensures var out := CreateRoleEndpoint(s, req, name, description).value;
      && out.body in out.store.roles && out.store.roles[out.body].name == name
      && forall k | k in EndWithoutCommit(s, CreateRoleEndpoint(s, req, name, description)).roles ::
           EndWithoutCommit(s, CreateRoleEndpoint(s, req, name, description)).roles[k].name != name
  {
  }

  /** With a commit before the session closes, the created role is the one
      `get_role_by_name` finds afterwards. */
  lemma CreatedRoleIsKept(s: Store, req: AuthRequest, name: string, description: Option<string>)
    requires Valid(s) && CreateRoleEndpoint(s, req, name, description).Success?
    ensures var kept := EndWithCommit(s, CreateRoleEndpoint(s, req, name, description));
      Valid(kept) && FindRoleByName(kept, name) == Some(CreateRoleEndpoint(s, req, name, description).value.body)
  {
    var out := CreateRoleEndpoint(s, req, name, description).value;
    assert CreateRoleBody(s, name, description) == Success(out);
    AddsOneRolePreservesValid(s, out.store, out.body, name, description);
    FindRoleByNameUnique(out.store, name, out.body);
  }

  /** As written, a role newly assigned by the endpoint is not held by the
      user afterwards. */
  lemma AssignedRoleIsLost(s: Store, req: AuthRequest, roleId: int, userId: int)
    requires Linked(s) && AssignRole(s, req, roleId, userId).Success?
    requires roleId !in s.users[userId].roles
    ensures var out := AssignRole(s, req, roleId, userId);
      && roleId in out.value.store.users[userId].roles
      && roleId !in EndWithoutCommit(s, out).users[userId].roles
  {
  }

  /** With a commit, and with the target's collections loaded, the
      assigned role is held afterwards by any existing user, and nothing but
      that user's links has changed. */
  lemma AssignedRoleIsKept(s: Store, req: AuthRequest, roleId: int, userId: int)
    requires Valid(s) && AssignRoleLoaded(s, req, roleId, userId).Success?
    ensures var kept := EndWithCommit(s, AssignRoleLoaded(s, req, roleId, userId));
      && Valid(kept) && roleId in kept.users[userId].roles && OnlyUserLinksChanged(s, kept, userId)
  {
    AssignRoleToUserPreservesValid(s, AllLoaded(s), userId, roleId);
  }
}

=== FILE: seed.dfy ===
/** The administrator seeder (scripts/seed_admin.py). It runs in one
    transaction (`session.begin()`), which commits when the block is left
    normally, the early return for an existing administrator included, and
    rolls everything back on an exception. */
module Seed {
  import opened Wrappers
  import opened Credentials
  import opened AccessGraph
  import opened Permissions
  import opened Http
  import opened Deps
  import opened Authorization
  import DbConfig

  /** `DEFAULT_PERMISSIONS`: the guard names with their descriptions. */
  const DefaultPermissions: seq<(string, string)> := [
    (AdminCreate, "Admin can create resources"),
    (AdminRead, "Admin can read resources"),
    (AdminUpdate, "Admin can update resources"),
    (AdminDelete, "Admin can delete resources")
  ]

  const AdminRoleName := "admin"
  const AdminRoleDescription := "Administrator role with full permissions"

  /** The administrator account the seeder creates. */
  datatype AdminAccount = AdminAccount(email: string, password: string, username: string)

  /** `ADMIN_EMAIL`, `ADMIN_PASSWORD` and `ADMIN_USERNAME`, with their
      defaults. */
  function AdminFromEnv(env: map<string, string>): (a: AdminAccount)
    ensures a.email == DbConfig.GetEnv(env, "ADMIN_EMAIL", "admin@example.com")
    ensures a.password == DbConfig.GetEnv(env, "ADMIN_PASSWORD", "admin123")
    ensures a.username == DbConfig.GetEnv(env, "ADMIN_USERNAME", "admin")
  {
    AdminAccount(
      DbConfig.GetEnv(env, "ADMIN_EMAIL", "admin@example.com"),
      DbConfig.GetEnv(env, "ADMIN_PASSWORD", "admin123"),
      DbConfig.GetEnv(env, "ADMIN_USERNAME", "admin"))
  }

  predicate PermissionNamed(s: Store, name: string) {
    exists k | k in s.permissions :: s.permissions[k].name == name
  }

  /** `t` differs from `s` only by permissions added. */
  predicate OnlyPermissionsAdded(s: Store, t: Store) {
    && t == s.(permissions := t.permissions, nextPermissionId := t.nextPermissionId)
    && (forall k | k in s.permissions :: k in t.permissions && t.permissions[k] == s.permissions[k])
  }

  /** One pass of the first loop: the permission is inserted unless a
      permission of that name exists. */
  function EnsurePermission(s: Store, name: string, description: string): (t: Store)
    requires Valid(s)
    ensures Valid(t) && PermissionNamed(t, name) && OnlyPermissionsAdded(s, t)
    ensures PermissionNamed(s, name) ==> t == s
    ensures !PermissionNamed(s, name) ==> AddsOnePermission(s, t, s.nextPermissionId, name, Some(description))
  {
    if FindPermissionByName(s, name).Some? then s
    else
      CreatePermissionPreservesValid(s, name, Some(description));
      CreatePermission(s, name, Some(description)).value.store
  }

  /** The first loop over `perms`. */
  function EnsurePermissions(s: Store, perms: seq<(string, string)>): (t: Store)
    requires Valid(s)
    ensures Valid(t) && OnlyPermissionsAdded(s, t)
    ensures forall i | 0 <= i < |perms| :: PermissionNamed(t, perms[i].0)
    ensures (forall i | 0 <= i < |perms| :: PermissionNamed(s, perms[i].0)) ==> t == s
    decreases |perms|
  {
    if |perms| == 0 then s
    else
      var s1 := EnsurePermission(s, perms[0].0, perms[0].1);
      var t := EnsurePermissions(s1, perms[1..]);
      NamedKept(s1, t, perms[0].0);
      AddedTransitive(s, s1, t);
      assert forall i | 0 <= i < |perms| :: PermissionNamed(t, perms[i].0) by {
        forall i | 1 <= i < |perms|
          ensures PermissionNamed(t, perms[i].0)
        {
          assert perms[i] == perms[1..][i - 1];
        }
      }
      assert (forall i | 0 <= i < |perms| :: PermissionNamed(s, perms[i].0)) ==> t == s by {
        if forall i | 0 <= i < |perms| :: PermissionNamed(s, perms[i].0) {
          forall i | 0 <= i < |perms| - 1
            ensures PermissionNamed(s1, perms[1..][i].0)
          {
            assert perms[1..][i] == perms[i + 1];
          }
        }
      }
      t
  }

  lemma AddedTransitive(s: Store, s1: Store, t: Store)
    requires OnlyPermissionsAdded(s, s1) && OnlyPermissionsAdded(s1, t)
    ensures OnlyPermissionsAdded(s, t)
  {
  }

  /** A permission name present before is present after permissions are
      only added. */
  lemma NamedKept(s: Store, t: Store, name: string)
    requires OnlyPermissionsAdded(s, t) && PermissionNamed(s, name)
    ensures PermissionNamed(t, name)
  {
    var k :| k in s.permissions && s.permissions[k].name == name;
    assert k in t.permissions && t.permissions[k].name == name;
  }

  /** The admin-role lookup, inserting the role when it is missing. */
  function EnsureAdminRole(s: Store): (r: (Store, Id))
    requires Valid(s)
    ensures Valid(r.0) && r.1 in r.0.roles && r.0.roles[r.1].name == AdminRoleName
    ensures r.0 == s.(roles := r.0.roles, nextRoleId := r.0.nextRoleId)
    ensures forall k | k in s.roles :: k in r.0.roles && r.0.roles[k] == s.roles[k]
    ensures FindRoleByName(s, AdminRoleName).Some? ==> r == (s, FindRoleByName(s, AdminRoleName).value)
    ensures FindRoleByName(s, AdminRoleName).None? ==> AddsOneRole(s, r.0, r.1, AdminRoleName, Some(AdminRoleDescription))
  {
    match FindRoleByName(s, AdminRoleName)
    case Some(id) => (s, id)
    case None =>
      CreateRolePreservesValid(s, AdminRoleName, Some(AdminRoleDescription));
      var out := CreateRole(s, AdminRoleName, Some(AdminRoleDescription)).value;
      (out.store, out.body)
  }

  /** The permission named `name`, if any, is among the role's. */
  predicate LinkedTo(s: Store, roleId: Id, name: string)
    requires Bounded(s) && roleId in s.roles
  {
    FindPermissionByName(s, name).Some? ==> FindPermissionByName(s, name).value in s.roles[roleId].permissions
  }

  /** `t` differs from `s` only in the permission list of role `roleId`,
      which has grown. */
  predicate OnlyRoleLinksAdded(s: Store, t: Store, roleId: Id)
    requires roleId in s.roles
  {
    && t == s.(roles := t.roles)
    && t.roles.Keys == s.roles.Keys
    && (forall k | k in s.roles && k != roleId :: t.roles[k] == s.roles[k])
    && t.roles[roleId].name == s.roles[roleId].name
    && t.roles[roleId].description == s.roles[roleId].description
    && (forall x | x in s.roles[roleId].permissions :: x in t.roles[roleId].permissions)
  }

  /** A store with the same permission rows and counter finds the same
      permission by name. */
  lemma FindPermissionByNameFrame(s: Store, t: Store, name: string)
    requires Bounded(s) && Bounded(t)
    requires t.permissions == s.permissions && t.nextPermissionId == s.nextPermissionId
    ensures FindPermissionByName(t, name) == FindPermissionByName(s, name)
  {
  }

  /** One pass of the second loop: link the permission to the role unless
      it is linked already. */
  function LinkPermission(s: Store, roleId: Id, name: string): (t: Store)
    requires Valid(s) && roleId in s.roles
    ensures Valid(t) && OnlyRoleLinksAdded(s, t, roleId)
    ensures LinkedTo(t, roleId, name)
    ensures LinkedTo(s, roleId, name) ==> t == s
  {
    match FindPermissionByName(s, name)
    case None => s
    case Some(pid) =>
      LinkPermissionToRolePreservesValid(s, roleId, pid);
      var t := LinkPermissionToRole(s, roleId, pid);
      FindPermissionByNameFrame(s, t, name);
      t
  }

  /** Linking keeps what an earlier pass linked. */
  lemma LinkedToKept(s: Store, t: Store, roleId: Id, name: string)
    requires Valid(s) && Valid(t) && roleId in s.roles && OnlyRoleLinksAdded(s, t, roleId)
    requires LinkedTo(s, roleId, name)
    ensures LinkedTo(t, roleId, name)
  {
    FindPermissionByNameFrame(s, t, name);
  }

  /** The second loop over `names`. */
  function LinkPermissions(s: Store, roleId: Id, names: seq<string>): (t: Store)
    requires Valid(s) && roleId in s.roles
    ensures Valid(t) && OnlyRoleLinksAdded(s, t, roleId)
    ensures forall i | 0 <= i < |names| :: LinkedTo(t, roleId, names[i])
    ensures (forall i | 0 <= i < |names| :: LinkedTo(s, roleId, names[i])) ==> t == s
    decreases |names|
  {
    if |names| == 0 then s
    else
      var s1 := LinkPermission(s, roleId, names[0]);
      var t := LinkPermissions(s1, roleId, names[1..]);
      LinkedToKept(s1, t, roleId, names[0]);
      assert forall i | 0 <= i < |names| :: LinkedTo(t, roleId, names[i]) by {
        forall i | 1 <= i < |names|
          ensures LinkedTo(t, roleId, names[i])
        {
          assert names[i] == names[1..][i - 1];
        }
      }
      t
  }

  /** The names of `DEFAULT_PERMISSIONS`. */
  function DefaultNames(): (names: seq<string>)
    ensures |names| == |DefaultPermissions|
    ensures forall i | 0 <= i < |names| :: names[i] == DefaultPermissions[i].0
  {
    [AdminCreate, AdminRead, AdminUpdate, AdminDelete]
  }

  /** The seeded access structure is in place: every default permission
      exists, and the role named "admin" exists and holds each of them. */
  predicate AdminReady(s: Store)
    requires Valid(s)
  {
    && DefaultsPresent(s)
    && FindRoleByName(s, AdminRoleName).Some?
    && (forall i | 0 <= i < |DefaultNames()| :: LinkedTo(s, FindRoleByName(s, AdminRoleName).value, DefaultNames()[i]))
  }

  /** Every default permission name is present. */
  predicate DefaultsPresent(s: Store) {
    forall i | 0 <= i < |DefaultPermissions| :: PermissionNamed(s, DefaultPermissions[i].0)
  }

  /** The role lookup and the second loop, once the permissions exist. */
  function RoleWithDefaults(s: Store): (r: (Store, Id))
    requires Valid(s) && DefaultsPresent(s)
    ensures Valid(r.0) && AdminReady(r.0) && FindRoleByName(r.0, AdminRoleName) == Some(r.1)
    ensures r.0.users == s.users && r.0.nextUserId == s.nextUserId
    ensures r.0.files == s.files && r.0.filePermissions == s.filePermissions && r.0.fileRoles == s.fileRoles
    ensures AdminReady(s) ==> r == (s, FindRoleByName(s, AdminRoleName).value)
  {
    var (s2, rid) := EnsureAdminRole(s);
    RoleWithDefaultsReady(s);
    RoleWithDefaultsKeepsReady(s);
    (LinkPermissions(s2, rid, DefaultNames()), rid)
  }

  /** After the role lookup and the second loop the store is ready, and
      only roles and their links changed. */
  lemma RoleWithDefaultsReady(s: Store)
    requires Valid(s) && DefaultsPresent(s)
    ensures var (s2, rid) := EnsureAdminRole(s); var s3 := LinkPermissions(s2, rid, DefaultNames());
      && Valid(s3) && AdminReady(s3) && FindRoleByName(s3, AdminRoleName) == Some(rid)
      && s3.users == s.users && s3.nextUserId == s.nextUserId
      && s3.files == s.files && s3.filePermissions == s.filePermissions && s3.fileRoles == s.fileRoles
  {
    var (s2, rid) := EnsureAdminRole(s);
    var s3 := LinkPermissions(s2, rid, DefaultNames());
    assert s3.permissions == s.permissions && s3.roles[rid].name == AdminRoleName;
    assert DefaultsPresent(s3) by {
      forall i | 0 <= i < |DefaultPermissions|
        ensures PermissionNamed(s3, DefaultPermissions[i].0)
      {
        assert PermissionNamed(s, DefaultPermissions[i].0);
      }
    }
    FindRoleByNameUnique(s3, AdminRoleName, rid);
  }

  /** A store that is already ready passes through unchanged. */
  lemma RoleWithDefaultsKeepsReady(s: Store)
    requires Valid(s) && DefaultsPresent(s)
    ensures var (s2, rid) := EnsureAdminRole(s);
      AdminReady(s) ==> (LinkPermissions(s2, rid, DefaultNames()), rid) == (s, FindRoleByName(s, AdminRoleName).value)
  {
  }

  /** The two loops and the role lookup between them: the store the user
      step starts from, and the admin role's id. */
  function Prepare(s: Store): (r: (Store, Id))
    requires Valid(s)
    ensures Valid(r.0) && AdminReady(r.0) && FindRoleByName(r.0, AdminRoleName) == Some(r.1)
    ensures r.0.users == s.users && r.0.nextUserId == s.nextUserId
    ensures r.0.files == s.files && r.0.filePermissions == s.filePermissions && r.0.fileRoles == s.fileRoles
    ensures AdminReady(s) ==> r == (s, FindRoleByName(s, AdminRoleName).value)
  {
    RoleWithDefaults(EnsurePermissions(s, DefaultPermissions))
  }

  /** The new administrator: email, username and password hash only. */
  function AdminUser(admin: AdminAccount, salt: nat): (u: User)
    ensures u.email == admin.email && u.username == Some(admin.username)
    ensures VerifyPassword(admin.password, u.passwordHash)
    ensures u.roles == [] && u.permissions == []
  {
    NewUser(admin.email, HashPassword(admin.password, salt), Some(admin.username), None, None, None)
  }

  /** The last step: insert the administrator and link the admin role to
      it. */
  function AddAdmin(s: Store, rid: Id, admin: AdminAccount, salt: nat): (r: (Store, Id))
    requires Valid(s) && AdminReady(s) && FindRoleByName(s, AdminRoleName) == Some(rid)
    requires !EmailTaken(s, admin.email) && !UsernameTaken(s, Some(admin.username), None)
    ensures Valid(r.0) && AdminReady(r.0) && FindRoleByName(r.0, AdminRoleName) == Some(rid)
    ensures r.1 in r.0.users && r.1 !in s.users && r.0.users.Keys == s.users.Keys + {r.1}
    ensures forall k | k in s.users :: r.0.users[k] == s.users[k]
    ensures r.0.users[r.1].email == admin.email && r.0.users[r.1].username == Some(admin.username)
    ensures VerifyPassword(admin.password, r.0.users[r.1].passwordHash)
    ensures rid in r.0.users[r.1].roles
    ensures r.0.roles == s.roles && r.0.permissions == s.permissions
  {
    var user := AdminUser(admin, salt);
    InsertUserPreservesValid(s, user);
    var (s4, uid) := InsertUser(s, user);
    assert s4.roles == s.roles && s4.permissions == s.permissions && s4.nextRoleId == s.nextRoleId;
    LinkRoleToUserPreservesValid(s4, uid, rid);
    var t := LinkRoleToUser(s4, uid, rid);
    assert t.roles == s.roles && t.permissions == s.permissions;
    assert t.nextRoleId == s.nextRoleId && t.nextPermissionId == s.nextPermissionId;
    AdminReadyKept(s, t);
    FindRoleByNameUnique(t, AdminRoleName, rid);
    (t, uid)
  }

  /** `main`: prepare the permissions and the admin role; stop (committing)
      when a user has the administrator's email; otherwise insert the
      administrator holding the admin role. A taken username fails the
      flush, and the whole transaction, first steps included, is rolled
      back. */
  function SeedAdmin(s: Store, admin: AdminAccount, salt: nat): (r: Result<Store, string>)
    requires Valid(s)
    ensures r.Failure? <==> !EmailTaken(s, admin.email) && UsernameTaken(s, Some(admin.username), None)
    ensures r.Failure? ==> r.error == UniqueViolation
    ensures r.Success? ==> Valid(r.value) && AdminReady(r.value) && EmailTaken(r.value, admin.email)
    ensures EmailTaken(s, admin.email) ==> r.Success? && r.value.users == s.users
  {
    var (s3, rid) := Prepare(s);
    if FindUserByEmail(s3, admin.email).Some? then Success(s3)
    else if UsernameTaken(s3, Some(admin.username), None) then Failure(UniqueViolation)
    else Success(AddAdmin(s3, rid, admin, salt).0)
  }

  /** Changes that leave roles and permissions alone keep the seeded
      access structure. */
  lemma AdminReadyKept(s: Store, t: Store)
    requires Valid(s) && Valid(t) && AdminReady(s)
    requires t.roles == s.roles && t.permissions == s.permissions
    requires t.nextRoleId == s.nextRoleId && t.nextPermissionId == s.nextPermissionId
    ensures AdminReady(t)
  {
    var rid := FindRoleByName(s, AdminRoleName).value;
    FindRoleByNameUnique(t, AdminRoleName, rid);
    forall i | 0 <= i < |DefaultNames()|
      ensures LinkedTo(t, rid, DefaultNames()[i])
    {
      FindPermissionByNameFrame(s, t, DefaultNames()[i]);
    }
  }

  /** A fresh administrator created by the seeder logs in with the seeded
      password and holds every default permission through the admin role. */
  lemma SeededAdminHoldsEveryPermission(s: Store, admin: AdminAccount, salt: nat)
    requires Valid(s) && !EmailTaken(s, admin.email) && SeedAdmin(s, admin, salt).Success?
    ensures var t := SeedAdmin(s, admin, salt).value;
      && FindUserByEmail(t, admin.email).Some?
      && VerifyPassword(admin.password, t.users[FindUserByEmail(t, admin.email).value].passwordHash)
      && forall i | 0 <= i < |DefaultNames()| ::
           HasPermission(Load(t, FindUserByEmail(t, admin.email).value), DefaultNames()[i])
  {
    SeedAdminAddsAdmin(s, admin, salt);
    AddedAdminHoldsEveryPermission(Prepare(s).0, Prepare(s).1, admin, salt);
  }

  /** With a free email, a successful seed is the prepared store plus the
      new administrator. */
  lemma SeedAdminAddsAdmin(s: Store, admin: AdminAccount, salt: nat)
    requires Valid(s) && !EmailTaken(s, admin.email) && SeedAdmin(s, admin, salt).Success?
    ensures var (s3, rid) := Prepare(s);
      && AdminReady(s3) && FindRoleByName(s3, AdminRoleName) == Some(rid)
      && !EmailTaken(s3, admin.email) && !UsernameTaken(s3, Some(admin.username), None)
      && SeedAdmin(s, admin, salt) == Success(AddAdmin(s3, rid, admin, salt).0)
  {
    var (s3, rid) := Prepare(s);
    assert s3.users == s.users;
    assert FindUserByEmail(s3, admin.email).None?;
  }

  /** The user `AddAdmin` creates is the one found by its email, and holds
      every default permission. */
  lemma AddedAdminHoldsEveryPermission(s: Store, rid: Id, admin: AdminAccount, salt: nat)
    requires Valid(s) && AdminReady(s) && FindRoleByName(s, AdminRoleName) == Some(rid)
    requires !EmailTaken(s, admin.email) && !UsernameTaken(s, Some(admin.username), None)
    ensures var (t, uid) := AddAdmin(s, rid, admin, salt);
      && FindUserByEmail(t, admin.email) == Some(uid)
      && forall i | 0 <= i < |DefaultNames()| :: HasPermission(Load(t, uid), DefaultNames()[i])
  {
    var (t, uid) := AddAdmin(s, rid, admin, salt);
    forall k | k in t.users && t.users[k].email == admin.email
      ensures k == uid
    {
      assert k !in s.users;
    }
    FindUserByEmailUnique(t, admin.email, uid);
    AdminRoleGrantsDefaults(t, uid, rid);
  }

  /** A member of the admin role in a ready store holds every default
      permission. */
  lemma AdminRoleGrantsDefaults(t: Store, uid: Id, rid: Id)
    requires Valid(t) && AdminReady(t) && FindRoleByName(t, AdminRoleName) == Some(rid)
    requires uid in t.users && rid in t.users[uid].roles
    ensures forall i | 0 <= i < |DefaultNames()| :: HasPermission(Load(t, uid), DefaultNames()[i])
  {
    forall i | 0 <= i < |DefaultNames()|
      ensures HasPermission(Load(t, uid), DefaultNames()[i])
    {
      var n := DefaultNames()[i];
      assert PermissionNamed(t, DefaultPermissions[i].0);
      var pid := FindPermissionByName(t, n).value;
      assert LinkedTo(t, rid, n);
      assert pid in t.roles[rid].permissions;
      assert Grants(t, uid, n);
      HasPermissionIsGrant(t, uid, n);
    }
  }

  /** Running the seeder a second time changes nothing. */
  lemma SeedAdminIdempotent(s: Store, admin: AdminAccount, salt1: nat, salt2: nat)
    requires Valid(s) && SeedAdmin(s, admin, salt1).Success?
    ensures var t := SeedAdmin(s, admin, salt1).value;
      SeedAdmin(t, admin, salt2) == Success(t)
  {
  }
}

=== FILE: strings.dfy ===
/** The string helpers of src/utils/strings.py: `truncate`, `mask_email`,
    `extract_filename_from_path` and `generate_random_string`. Python's
    slice rules are written out where a negative bound can reach them, and
    the randomness of `secrets.choice` is a parameter: `pick(k)` is the
    index drawn for the k-th character. */
module Strings {
  import opened Wrappers
  import opened Text

  // ---------------------------------------------------------------------
  // truncate

  /** `k` clamped into `0..hi`. */
  function Clamp(k: int, hi: nat): nat {
    if k < 0 then 0 else if k > hi then hi else k
  }

  /** Python's `s[:n]` for any integer `n`: a negative bound counts from
      the end, and both ends are clamped to the string. */
  function PrefixSlice(s: string, n: int): (r: string)
    ensures |r| <= |s| && r == s[..|r|]
    ensures |r| == Clamp(if n >= 0 then n else n + |s|, |s|)
  {
    if n >= 0 then s[..if n <= |s| then n else |s|]
    else if n + |s| >= 0 then s[..n + |s|]
    else ""
  }

  /** `truncate(text, max_length, suffix)` as written: the text itself when
      it fits, otherwise `text[:max_length - len(suffix)] + suffix`. */
  function Truncate(text: string, maxLength: int, suffix: string): (r: string)
    ensures |text| <= maxLength ==> r == text
    ensures |text| > maxLength && maxLength >= |suffix| ==>
      |r| == maxLength && StartsWith(text, r[..maxLength - |suffix|]) && r[maxLength - |suffix|..] == suffix
  {
    if |text| <= maxLength then text
    else PrefixSlice(text, maxLength - |suffix|) + suffix
  }

  /** When the limit is below the length of the suffix, the slice bound is
      negative and counts from the end of the text, so the result is longer
      than the limit it was meant to respect. */
  lemma TruncateOverflowsShortLimit(text: string, maxLength: int, suffix: string)
    requires 0 <= maxLength < |suffix| && |text| > maxLength
    ensures |Truncate(text, maxLength, suffix)| > maxLength
  {
  }

  /** A concrete instance: truncating "abcdef" to 2 with the default "..."
      keeps five characters of the text. */
  lemma TruncateOverflowExample()
    ensures Truncate("abcdef", 2, "...") == "abcde..."
    ensures |Truncate("abcdef", 2, "...")| == 8
  {
    assert PrefixSlice("abcdef", -1) == "abcde";
  }

  /** `truncate` with the result bounded by the limit: when the suffix does
      not fit, the text is cut at the limit without it. */
  function TruncateBounded(text: string, maxLength: int, suffix: string): (r: string)
    ensures |text| <= maxLength ==> r == text
    ensures |text| > maxLength ==> |r| <= (if maxLength < 0 then 0 else maxLength)
    ensures |text| > maxLength ==> StartsWith(text, r) || (|r| >= |suffix| && r[|r| - |suffix|..] == suffix)
  {
    if |text| <= maxLength then text
    else if maxLength < |suffix| then text[..if maxLength < 0 then 0 else maxLength]
    else text[..maxLength - |suffix|] + suffix
  }

  /** Wherever the suffix fits, the bounded version is the one as written. */
  lemma TruncateBoundedAgrees(text: string, maxLength: int, suffix: string)
    requires maxLength >= |suffix| || |text| <= maxLength
    ensures TruncateBounded(text, maxLength, suffix) == Truncate(text, maxLength, suffix)
  {
  }

  /** Truncating an already truncated text changes nothing. */
  lemma TruncateBoundedIdempotent(text: string, maxLength: int, suffix: string)
    requires maxLength >= 0
    ensures TruncateBounded(TruncateBounded(text, maxLength, suffix), maxLength, suffix)
         == TruncateBounded(text, maxLength, suffix)
  {
  }

  // ---------------------------------------------------------------------
  // mask_email

  /** `'*' * n`. */
  function Stars(n: nat): (r: string)
    ensures |r| == n
    ensures forall k | 0 <= k < n :: r[k] == '*'
  {
    seq(n, k => '*')
  }

  /** The masked local part: first character and a star when it has one or
      two characters, otherwise first character, one star per hidden
      character, last character. `local[0]` on an empty local part raises
      `IndexError`, which is `None` here. */
  function MaskLocal(local: string): (r: Option<string>)
    ensures r.None? <==> local == ""
    ensures 1 <= |local| <= 2 ==> r == Some([local[0], '*'])
    ensures |local| > 2 ==> |r.value| == |local| && r.value[0] == local[0] && r.value[|local| - 1] == local[|local| - 1]
    ensures |local| > 2 ==> forall k | 0 < k < |local| - 1 :: r.value[k] == '*'
    ensures r.Some? ==> forall k | 0 <= k < |r.value| :: r.value[k] == '*' || r.value[k] in local
  {
    if |local| == 0 then None
    else if |local| <= 2 then Some([local[0], '*'])
    else Some([local[0]] + Stars(|local| - 2) + [local[|local| - 1]])
  }

  /** `email.split('@', 1)`: the text before the first '@' and the rest. */
  function SplitAtFirst(email: string): (r: (string, string))
    requires '@' in email
    ensures email == r.0 + "@" + r.1
    ensures '@' !in r.0
  {
    var i := FindChar(email, '@');
    assert email == email[..i] + "@" + email[i + 1..];
    (email[..i], email[i + 1..])
  }

  /** `mask_email`: unchanged without an '@'; otherwise the local part is
      masked and everything after the first '@' is kept verbatim. An email
      that starts with '@' makes the source raise, which is `None`. */
  function MaskEmail(email: string): (r: Option<string>)
    ensures '@' !in email ==> r == Some(email)
    ensures '@' in email ==> (r.None? <==> email[0] == '@')
    ensures '@' in email && r.Some? ==>
      var (local, domain) := SplitAtFirst(email);
      && r.value == MaskLocal(local).value + "@" + domain
      && (|local| > 2 ==> |r.value| == |email|)
  {
    if '@' !in email then Some(email)
    else
      var (local, domain) := SplitAtFirst(email);
      var masked :- MaskLocal(local);
      Some(masked + "@" + domain)
  }

  /** The domain of a masked address is the domain of the original: the
      masked local part holds no '@', so the first '@' stays where the
      domain begins. */
  lemma MaskEmailKeepsDomain(email: string)
    requires '@' in email && MaskEmail(email).Some?
    ensures '@' in MaskEmail(email).value
    ensures SplitAtFirst(MaskEmail(email).value).1 == SplitAtFirst(email).1
  {
    var (local, domain) := SplitAtFirst(email);
    var m := MaskLocal(local).value;
    var r := m + "@" + domain;
    assert '@' !in m;
    assert r[|m|] == '@';
    SplitUnique(m, domain, r);
  }

  /** Splitting `m + "@" + d` at its first '@' gives `m` and `d` back when
      `m` holds no '@'. */
  lemma SplitUnique(m: string, d: string, r: string)
    requires r == m + "@" + d && '@' !in m
    ensures '@' in r && SplitAtFirst(r) == (m, d)
  {
    assert r[|m|] == '@';
    var i := FindChar(r, '@');
    assert r[..|m|] == m;
    assert i == |m|;
    assert r[i + 1..] == d;
  }

  /** Masking is idempotent: a masked address masks to itself. */
  lemma {:induction false} MaskEmailIdempotent(email: string)
    requires MaskEmail(email).Some?
    ensures MaskEmail(MaskEmail(email).value) == MaskEmail(email)
  {
    if '@' in email {
      var (local, domain) := SplitAtFirst(email);
      var m := MaskLocal(local).value;
      SplitUnique(m, domain, m + "@" + domain);
      if |local| > 2 {
        assert MaskLocal(m).value == m;
      }
    }
  }

  // ---------------------------------------------------------------------
  // extract_filename_from_path

  /** `path.split('/')[-1]`: the text after the last '/', or the whole
      path when it has none. */
  function ExtractFilenameFromPath(path: string): (r: string)
    ensures '/' !in r
    ensures '/' !in path ==> r == path
    ensures '/' in path ==> |r| < |path| && path == path[..|path| - |r| - 1] + "/" + r
  {
    var parts := Split(path, '/');
    if '/' in path then
      AfterLastSplits(path, '/');
      parts[|parts| - 1]
    else parts[|parts| - 1]
  }

  /** The file name of `directory + "/" + name` is `name`, whatever the
      directory: the inverse of building a path from a directory. */
  lemma ExtractFilenameOfJoin(directory: string, name: string)
    requires '/' !in name
    ensures ExtractFilenameFromPath(directory + "/" + name) == name
  {
    AfterLastUnique(directory, '/', name);
  }

  // ---------------------------------------------------------------------
  // generate_random_string

  /** The `n` consecutive ASCII characters from `first`. */
  function CharRange(first: char, n: nat): (r: string)
    requires first as int + n <= 128
    ensures |r| == n
    ensures forall k | 0 <= k < n :: r[k] as int == first as int + k
  {
    seq(n, k requires 0 <= k < n => (first as int + k) as char)
  }

  /** `string.ascii_letters`: "a" to "z", then "A" to "Z". */
  const AsciiLetters: string := CharRange('a', 26) + CharRange('A', 26)
  /** `string.digits`: "0" to "9". */
  const Digits: string := CharRange('0', 10)
  /** `string.punctuation`. */
  const Punctuation: string := "!\"#$%&'()*+,-./:;<=>?@[\\]^_`{|}~"

  /** The characters `secrets.choice` draws from. */
  function Alphabet(includePunctuation: bool): (r: string)
    ensures |r| == (if includePunctuation then 94 else 62)
    ensures forall k | 0 <= k < |r| :: IsAlnum(r[k]) || (includePunctuation && r[k] in Punctuation)
  {
    AsciiLetters + Digits + (if includePunctuation then Punctuation else "")
  }

  /** `n` draws from `chars`, the k-th being the character at `pick(k)`
      modulo the number of characters. */
  function Draws(chars: string, n: nat, pick: nat -> nat): (r: string)
    requires |chars| > 0
    ensures |r| == n
    ensures forall k | 0 <= k < n :: r[k] in chars
  {
    seq(n, k requires 0 <= k < n => chars[pick(k) % |chars|])
  }

  lemma SmallMod(i: nat, n: nat)
    requires i < n
    ensures i % n == i
  {
  }

  /** Every string over `chars` comes out of some sequence of draws. */
  lemma DrawsReachAll(chars: string, w: string)
    requires |chars| > 0
    requires forall k | 0 <= k < |w| :: w[k] in chars
    ensures exists pick: nat -> nat :: Draws(chars, |w|, pick) == w
  {
    var pick: nat -> nat := (k: nat) => if k < |w| && FindChar(chars, w[k]) >= 0 then FindChar(chars, w[k]) else 0;
    var r := Draws(chars, |w|, pick);
    forall k | 0 <= k < |w|
      ensures r[k] == w[k]
    {
      var i := FindChar(chars, w[k]);
      assert 0 <= i < |chars| && pick(k) == i;
      SmallMod(i, |chars|);
    }
    assert r == w;
  }

  /** `generate_random_string`: `length` draws from the alphabet, none when
      `length` is negative, as `range` then gives nothing. */
  function GenerateRandomString(length: int, includePunctuation: bool, pick: nat -> nat): (r: string)
    ensures |r| == (if length < 0 then 0 else length)
    ensures forall k | 0 <= k < |r| :: r[k] in Alphabet(includePunctuation)
    ensures !includePunctuation ==> All(r, IsAlnum)
  {
    Draws(Alphabet(includePunctuation), if length < 0 then 0 else length, pick)
  }

  /** Every string of the right length over the alphabet is a possible
      result: some sequence of draws produces it. */
  lemma GenerateRandomStringReachesAll(w: string, includePunctuation: bool)
    requires forall k | 0 <= k < |w| :: w[k] in Alphabet(includePunctuation)
    ensures exists pick: nat -> nat :: GenerateRandomString(|w|, includePunctuation, pick) == w
  {
    var chars := Alphabet(includePunctuation);
    DrawsReachAll(chars, w);
    var pick: nat -> nat :| Draws(chars, |w|, pick) == w;
    assert GenerateRandomString(|w|, includePunctuation, pick) == w;
  }
}

=== FILE: text.dfy ===
/** Character and string helpers with Python `str` semantics, restricted to
    ASCII: `lower`, `find`/`rfind`, `in`, `startswith`, `split`/`join` on a
    single-character separator, and decimal rendering of integers. */
module Text {

  predicate IsUpper(c: char) { 'A' <= c <= 'Z' }
  predicate IsLower(c: char) { 'a' <= c <= 'z' }
  predicate IsDigit(c: char) { '0' <= c <= '9' }
  predicate IsLetter(c: char) { IsUpper(c) || IsLower(c) }
  predicate IsAlnum(c: char) { IsLetter(c) || IsDigit(c) }

  /** True when every character of `s` satisfies `p`. */
  predicate All(s: string, p: char -> bool) {
    forall i | 0 <= i < |s| :: p(s[i])
  }

  /** True when some character of `s` satisfies `p` (a `re.search` for a
      one-character class). */
  predicate Any(s: string, p: char -> bool) {
    exists i | 0 <= i < |s| :: p(s[i])
  }

  /** `str.lower()` on one character; only ASCII letters change. */
  function LowerChar(c: char): (r: char)
    ensures IsUpper(c) ==> IsLower(r) && r as int - 'a' as int == c as int - 'A' as int
    ensures !IsUpper(c) ==> r == c
  {
    if IsUpper(c) then (c as int - 'A' as int + 'a' as int) as char else c
  }

  /** `str.lower()`: same length, each character lower-cased on its own. */
  function Lower(s: string): (r: string)
    ensures |r| == |s|
    ensures forall i | 0 <= i < |s| :: r[i] == LowerChar(s[i])
    ensures forall i | 0 <= i < |r| :: !IsUpper(r[i])
  {
    seq(|s|, i requires 0 <= i < |s| => LowerChar(s[i]))
  }

  /** Text without upper-case letters is its own lower-case form. */
  lemma LowerKeepsLower(s: string)
    requires forall i | 0 <= i < |s| :: !IsUpper(s[i])
    ensures Lower(s) == s
  {
  }

  lemma LowerIdempotent(s: string)
    ensures Lower(Lower(s)) == Lower(s)
  {
  }

  /** `sub` occurs in `s` starting at index `i`. */
  predicate OccursAt(s: string, sub: string, i: nat) {
    i + |sub| <= |s| && s[i..i + |sub|] == sub
  }

  /** Python's `sub in s`. */
  predicate Contains(s: string, sub: string) {
    exists i: nat | i <= |s| :: OccursAt(s, sub, i)
  }

  /** Python's `s.startswith(prefix)`. */
  predicate StartsWith(s: string, prefix: string) {
    |prefix| <= |s| && s[..|prefix|] == prefix
  }

  /** Python's `s.find(c)`: the first index of `c`, or -1. */
  function FindChar(s: string, c: char): (r: int)
    ensures -1 <= r < |s|
    ensures r >= 0 ==> s[r] == c && c !in s[..r]
    ensures r == -1 <==> c !in s
  {
    if |s| == 0 then -1
    else if s[0] == c then 0
    else
      var k := FindChar(s[1..], c);
      if k == -1 then -1
      else
        assert s[..k + 1] == [s[0]] + s[1..][..k];
        k + 1
  }

  /** Python's `s.rfind(c)`: the last index of `c`, or -1. */
  function RFindChar(s: string, c: char): (r: int)
    ensures -1 <= r < |s|
    ensures r >= 0 ==> s[r] == c && c !in s[r + 1..]
    ensures r == -1 <==> c !in s
  {
    if |s| == 0 then -1
    else if s[|s| - 1] == c then |s| - 1
    else
      var k := RFindChar(s[..|s| - 1], c);
      assert k >= 0 ==> s[k + 1..] == s[..|s| - 1][k + 1..] + [s[|s| - 1]];
      k
  }

  /** Python's `s.split(c)[-1]`: the text after the last `c`, or all of `s`. */
  function AfterLast(s: string, c: char): (r: string)
    ensures c !in r
    ensures c !in s ==> r == s
    ensures |r| <= |s|
  {
    if |s| == 0 then ""
    else if s[|s| - 1] == c then ""
    else
      var init := s[..|s| - 1];
      assert s == init + [s[|s| - 1]];
      AfterLast(init, c) + [s[|s| - 1]]
  }

  /** When `c` occurs, `s` is some text, then `c`, then `AfterLast(s, c)`. */
  lemma {:induction false} AfterLastSplits(s: string, c: char)
    requires c in s
    ensures |AfterLast(s, c)| < |s|
    ensures s == s[..|s| - |AfterLast(s, c)| - 1] + [c] + AfterLast(s, c)
    decreases |s|
  {
    if s[|s| - 1] != c {
      var init := s[..|s| - 1];
      assert s == init + [s[|s| - 1]];
      assert c in init;
      AfterLastSplits(init, c);
    }
  }

  /** Whatever precedes the last `c`, the text after it is `AfterLast`. */
  lemma {:induction false} AfterLastUnique(p: string, c: char, r: string)
    requires c !in r
    ensures AfterLast(p + [c] + r, c) == r
    decreases |r|
  {
    var s := p + [c] + r;
    if |r| > 0 {
      var r' := r[..|r| - 1];
      assert r == r' + [r[|r| - 1]];
      assert s[..|s| - 1] == p + [c] + r';
      AfterLastUnique(p, c, r');
    }
  }

  /** The first `c` of `x + [c] + y` is the one between them when `x`
      has none. */
  lemma {:induction false} FindBefore(x: string, c: char, y: string)
    requires c !in x
    ensures FindChar(x + [c] + y, c) == |x|
    decreases |x|
  {
    var s := x + [c] + y;
    if |x| > 0 {
      assert s[1..] == x[1..] + [c] + y;
      FindBefore(x[1..], c, y);
    }
  }

  /** The last `c` of `x + [c] + y` is the one between them when `y` has
      none. */
  lemma {:induction false} RFindAfter(x: string, c: char, y: string)
    requires c !in y
    ensures RFindChar(x + [c] + y, c) == |x|
    decreases |y|
  {
    var s := x + [c] + y;
    if |y| > 0 {
      var y' := y[..|y| - 1];
      assert s[..|s| - 1] == x + [c] + y';
      RFindAfter(x, c, y');
    } else {
      assert s[|s| - 1] == c;
    }
  }

  /** Python's `s.split(c)` for a one-character separator: the pieces
      between occurrences of `c`, always at least one, none holding `c`;
      the last piece is the text after the last `c`. */
  function Split(s: string, c: char): (parts: seq<string>)
    ensures |parts| >= 1
    ensures forall k | 0 <= k < |parts| :: c !in parts[k]
    ensures parts[|parts| - 1] == AfterLast(s, c)
  {
    if |s| == 0 then [""]
    else
      var init, last := s[..|s| - 1], s[|s| - 1];
      var ps := Split(init, c);
      if last == c then ps + [""]
      else ps[..|ps| - 1] + [ps[|ps| - 1] + [last]]
  }

  /** Python's `c.join(parts)`. */
  function Join(parts: seq<string>, c: char): string
    requires |parts| >= 1
  {
    if |parts| == 1 then parts[0]
    else Join(parts[..|parts| - 1], c) + [c] + parts[|parts| - 1]
  }

  /** Joining the pieces of a split with the same separator gives the
      string back. */
  lemma {:induction false} JoinSplit(s: string, c: char)
    ensures Join(Split(s, c), c) == s
    decreases |s|
  {
    if |s| > 0 {
      var init, last := s[..|s| - 1], s[|s| - 1];
      var ps := Split(init, c);
      JoinSplit(init, c);
      assert s == init + [last];
      if last != c {
        JoinAppendToLast(ps, c, last);
      }
    }
  }

  /** Extending the last piece extends the joined text. */
  lemma JoinAppendToLast(ps: seq<string>, c: char, x: char)
    requires |ps| >= 1
    ensures Join(ps[..|ps| - 1] + [ps[|ps| - 1] + [x]], c) == Join(ps, c) + [x]
  {
    var qs := ps[..|ps| - 1] + [ps[|ps| - 1] + [x]];
    if |ps| > 1 {
      assert qs[..|qs| - 1] == ps[..|ps| - 1];
    }
  }

  /** One decimal digit for `d < 10`. */
  function DigitChar(d: nat): (c: char)
    requires d < 10
    ensures IsDigit(c)
  {
    ('0' as int + d) as char
  }

  /** `str(n)` for a natural number: its shortest decimal numeral. */
  function NatToString(n: nat): (r: string)
    ensures |r| >= 1
    ensures All(r, IsDigit)
    ensures |r| > 1 ==> r[0] != '0'
    decreases n
  {
    if n < 10 then [DigitChar(n)] else NatToString(n / 10) + [DigitChar(n % 10)]
  }

  /** The value of a decimal numeral. */
  function DigitsValue(s: string): nat
    requires All(s, IsDigit)
  {
    if |s| == 0 then 0 else 10 * DigitsValue(s[..|s| - 1]) + (s[|s| - 1] as int - '0' as int)
  }

  /** Rendering then reading a natural number gives it back, so distinct
      numbers render distinctly. */
  lemma {:induction false} NatToStringRoundTrip(n: nat)
    ensures DigitsValue(NatToString(n)) == n
    decreases n
  {
    if n >= 10 {
      NatToStringRoundTrip(n / 10);
      var r := NatToString(n);
      assert r[..|r| - 1] == NatToString(n / 10);
    }
  }

  /** `str(i)` for any integer. */
  function IntToString(i: int): (r: string)
    ensures i >= 0 ==> r == NatToString(i)
    ensures i < 0 ==> r == "-" + NatToString(-i)
  {
    if i >= 0 then NatToString(i) else "-" + NatToString(-i)
  }
}

=== FILE: user_routes.dfy ===
/** The user endpoints (src/routes/users/): create, list, read, update,
    delete, and the caller's own profile and password. Every one of them
    except `create_user` resolves its security dependency first, so its
    401 and 403 come before anything the handler checks. Each ends with
    `commit()`, so what the session holds on success is what the database
    keeps. */
module UserRoutes {
  import opened Wrappers
  import opened Credentials
  import opened AccessGraph
  import opened Permissions
  import opened Http
  import opened Deps
  import opened Listing

  // ---------------------------------------------------------------------
  // create_user

  /** The `UserCreate` body. `is_active` is accepted but never copied. */
  datatype UserCreateIn = UserCreateIn(
    email: string, username: Option<string>, firstName: Option<string>, lastName: Option<string>,
    phone: Option<string>, isActive: Option<bool>, password: string)

  /** The user `create_user` builds: the request's profile fields, the hash
      of its password, active, without roles or permissions. */
  function CreatedUser(data: UserCreateIn, salt: nat): (u: User)
    ensures u.email == data.email && u.username == data.username
    ensures u.firstName == data.firstName && u.lastName == data.lastName && u.phone == data.phone
    ensures VerifyPassword(data.password, u.passwordHash) && u.passwordHash.Bcrypt?
    ensures u.isActive && u.roles == [] && u.permissions == []
  {
    NewUser(data.email, HashPassword(data.password, salt), data.username, data.firstName, data.lastName, data.phone)
  }

  /** `create_user`: no guard. The 400 for a taken email is raised inside
      the `try` whose `except Exception` turns it into a 500 carrying
      "400: Email already registered"; a taken username fails the commit
      and surfaces as a 500 too. */
  function CreateUser(s: Store, data: UserCreateIn, salt: nat): (r: Outcome<Id>)
    requires Bounded(s)
    ensures r.Failure? <==> EmailTaken(s, data.email) || UsernameTaken(s, data.username, None)
    ensures r.Failure? ==> r.error.status == InternalError
    ensures EmailTaken(s, data.email) ==> r == Failure(Error(InternalError, "400: Email already registered"))
    ensures r.Success? ==> AddsOneUser(s, r.value.store, r.value.body, CreatedUser(data, salt))
  {
    if FindUserByEmail(s, data.email).Some? then Failure(Error(InternalError, "400: Email already registered"))
    else if UsernameTaken(s, data.username, None) then Failure(Error(InternalError, UniqueViolation))
    else
      var (t, id) := InsertUser(s, CreatedUser(data, salt));
      Success(Response(t, id))
  }

  lemma CreateUserPreservesValid(s: Store, data: UserCreateIn, salt: nat)
    requires Valid(s) && CreateUser(s, data, salt).Success?
    ensures Valid(CreateUser(s, data, salt).value.store)
  {
    InsertUserPreservesValid(s, CreatedUser(data, salt));
  }

  // ---------------------------------------------------------------------
  // get_all_users, get_user

  /** `get_all_users`: `administrator.read` is required, then the paging
      parameters are checked, then one page of users in id order. */
  function GetAllUsers(s: Store, req: AuthRequest, page: int, pageSize: int): (r: Result<Page<Id>, Error>)
    requires Linked(s)
    ensures RequirePermission(s, req, AdminRead).Failure? ==> r == Failure(RequirePermission(s, req, AdminRead).error)
    ensures RequirePermission(s, req, AdminRead).Success? && !ValidPaging(page, pageSize) ==> r == Failure(PagingError)
    ensures r.Success? ==> ValidPaging(page, pageSize) && r.value == Paginate(IdsBelow(s.users, s.nextUserId), page, pageSize)
    ensures r.Success? ==> HasPermission(Load(s, GetCurrentUser(s, req).value), AdminRead)
    ensures r.Success? ==> forall i | 0 <= i < |r.value.items| :: r.value.items[i] in s.users
  {
    var _ :- RequirePermission(s, req, AdminRead);
    if !ValidPaging(page, pageSize) then Failure(PagingError)
    else Success(Paginate(IdsBelow(s.users, s.nextUserId), page, pageSize))
  }

  /** `get_user`: `administrator.read` is required; an id no user has is
      404. */
  function GetUser(s: Store, req: AuthRequest, userId: int): (r: Result<User, Error>)
    requires Linked(s)
    ensures RequirePermission(s, req, AdminRead).Failure? ==> r == Failure(RequirePermission(s, req, AdminRead).error)
    ensures RequirePermission(s, req, AdminRead).Success? ==>
      if userId >= 0 && userId in s.users then r == Success(s.users[userId])
      else r == Failure(Error(NotFound, "User not found"))
  {
    var _ :- RequirePermission(s, req, AdminRead);
    if userId >= 0 && userId in s.users then Success(s.users[userId])
    else Failure(Error(NotFound, "User not found"))
  }

  // ---------------------------------------------------------------------
  // update_user

  /** A field of a partial update: left out of the request, or given
      (possibly as null). */
  datatype Field<T> = Unset | Set(value: T)

  /** The `UserUpdate` body as `model_dump(exclude_unset=True)` sees it.
      Email is not among its fields. */
  datatype UserPatch = UserPatch(
    username: Field<Option<string>>, firstName: Field<Option<string>>, lastName: Field<Option<string>>,
    phone: Field<Option<string>>, isActive: Field<Option<bool>>, password: Field<Option<string>>)

  function Apply<T>(f: Field<T>, current: T): T {
    if f.Set? then f.value else current
  }

  /** A patch the database accepts: a given password is a string (hashing
      null raises), `is_active` is not set to null (the column is NOT
      NULL), and a given username is free. */
  predicate PatchAccepted(s: Store, userId: Id, patch: UserPatch) {
    && patch.password != Set(None)
    && patch.isActive != Set(None)
    && !(patch.username.Set? && UsernameTaken(s, patch.username.value, Some(userId)))
  }

  /** The user after the patch: given fields overwritten, a given password
      replaced by its hash, everything else kept. */
  function Patched(u: User, patch: UserPatch, salt: nat): (v: User)
    requires patch.password != Set(None) && patch.isActive != Set(None)
    ensures v.email == u.email && v.roles == u.roles && v.permissions == u.permissions
    ensures v.username == Apply(patch.username, u.username) && v.firstName == Apply(patch.firstName, u.firstName)
    ensures v.lastName == Apply(patch.lastName, u.lastName) && v.phone == Apply(patch.phone, u.phone)
    ensures patch.isActive.Set? ==> v.isActive == patch.isActive.value.value
    ensures patch.isActive.Unset? ==> v.isActive == u.isActive
    ensures patch.password.Set? ==> VerifyPassword(patch.password.value.value, v.passwordHash)
    ensures patch.password.Unset? ==> v.passwordHash == u.passwordHash
  {
    var hash := if patch.password.Set? then HashPassword(patch.password.value.value, salt) else u.passwordHash;
    var active := if patch.isActive.Set? then patch.isActive.value.value else u.isActive;
    u.(passwordHash := hash, username := Apply(patch.username, u.username),
       firstName := Apply(patch.firstName, u.firstName), lastName := Apply(patch.lastName, u.lastName),
       phone := Apply(patch.phone, u.phone), isActive := active)
  }

  /** The body of `update_user` once the guard has passed. */
  function UpdateUserBody(s: Store, userId: int, patch: UserPatch, salt: nat): (r: Outcome<Id>)
    ensures r.Failure? <==> !(userId >= 0 && userId in s.users) || !PatchAccepted(s, userId, patch)
    ensures !(userId >= 0 && userId in s.users) ==> r == Failure(Error(NotFound, "User not found"))
    ensures userId >= 0 && userId in s.users && !PatchAccepted(s, userId, patch) ==> r == Failure(ServerError)
    ensures r.Success? ==>
      && r.value.body == userId
      && r.value.store == s.(users := s.users[userId := Patched(s.users[userId], patch, salt)])
  {
    if !(userId >= 0 && userId in s.users) then Failure(Error(NotFound, "User not found"))
    else if !PatchAccepted(s, userId, patch) then Failure(ServerError)
    else Success(Response(s.(users := s.users[userId := Patched(s.users[userId], patch, salt)]), userId as Id))
  }

  /** `update_user`: `administrator.update` is required, a missing user is
      404, and only the fields present in the request change. */
  function UpdateUser(s: Store, req: AuthRequest, userId: int, patch: UserPatch, salt: nat): (r: Outcome<Id>)
    requires Linked(s)
    ensures RequirePermission(s, req, AdminUpdate).Failure? ==> r == Failure(RequirePermission(s, req, AdminUpdate).error)
    ensures RequirePermission(s, req, AdminUpdate).Success? ==> r == UpdateUserBody(s, userId, patch, salt)
  {
    var _ :- RequirePermission(s, req, AdminUpdate);
    UpdateUserBody(s, userId, patch, salt)
  }

  /** Sending the same patch twice (with the same hashing salt) leaves the
      database as the first time did. */
  lemma UpdateUserBodyIdempotent(s: Store, userId: int, patch: UserPatch, salt: nat)
    requires UpdateUserBody(s, userId, patch, salt).Success?
    ensures var t := UpdateUserBody(s, userId, patch, salt).value.store;
      UpdateUserBody(t, userId, patch, salt) == Success(Response(t, userId as Id))
  {
    var t := UpdateUserBody(s, userId, patch, salt).value.store;
    var u := s.users[userId];
    var v := Patched(u, patch, salt);
    assert t.users[userId] == v;
    assert PatchAccepted(t, userId, patch);
    assert Patched(v, patch, salt) == v;
    assert t.users[userId := v] == t.users;
  }

  /** An accepted update keeps the database constraints. */
  lemma UpdateUserBodyPreservesValid(s: Store, userId: int, patch: UserPatch, salt: nat)
    requires Valid(s) && UpdateUserBody(s, userId, patch, salt).Success?
    ensures Valid(UpdateUserBody(s, userId, patch, salt).value.store)
  {
    var uid := userId as Id;
    var u := Patched(s.users[uid], patch, salt);
    forall k | k in s.users && k != uid
      ensures s.users[k].email != u.email
      ensures u.username.Some? ==> s.users[k].username != u.username
    {
    }
    ReplaceUserKeepsValid(s, uid, u);
  }

  // ---------------------------------------------------------------------
  // delete_user

  /** Some file is owned by `userId`. */
  predicate OwnsFiles(s: Store, userId: Id) {
    exists f | f in s.files :: s.files[f].ownerId == userId
  }

  /** The body of `delete_user` once the guard has passed. The user's
      role and permission links go with the row; the user's files are not
      deleted but have their `owner_id` set to NULL, which the NOT NULL
      column rejects, so deleting a user who owns files is a 500. */
  function DeleteUserBody(s: Store, userId: int): (r: Outcome<int>)
    ensures !(userId >= 0 && userId in s.users) ==> r == Failure(Error(NotFound, "User not found"))
    ensures userId >= 0 && userId in s.users && OwnsFiles(s, userId) ==> r == Failure(ServerError)
    ensures r.Success? <==> userId >= 0 && userId in s.users && !OwnsFiles(s, userId)
    ensures r.Success? ==> r.value.body == userId && r.value.store == s.(users := s.users - {userId})
  {
    if !(userId >= 0 && userId in s.users) then Failure(Error(NotFound, "User not found"))
    else if OwnsFiles(s, userId) then Failure(ServerError)
    else Success(Response(s.(users := s.users - {userId}), userId))
  }

  /** `delete_user`: `administrator.delete` is required; the reply echoes
      the id. */
  function DeleteUser(s: Store, req: AuthRequest, userId: int): (r: Outcome<int>)
    requires Linked(s)
    ensures RequirePermission(s, req, AdminDelete).Failure? ==> r == Failure(RequirePermission(s, req, AdminDelete).error)
    ensures RequirePermission(s, req, AdminDelete).Success? ==> r == DeleteUserBody(s, userId)
  {
    var _ :- RequirePermission(s, req, AdminDelete);
    DeleteUserBody(s, userId)
  }

  lemma DeleteUserBodyPreservesValid(s: Store, userId: int)
    requires Valid(s) && DeleteUserBody(s, userId).Success?
    ensures Valid(DeleteUserBody(s, userId).value.store)
  {
    var t := DeleteUserBody(s, userId).value.store;
    assert Bounded(t);
    assert Linked(t);
    assert Unique(t);
  }

  /** Deleting a user who owns no file leaves no dangling reference. */
  lemma DeleteUserBodyKeepsLinked(s: Store, userId: int)
    requires Linked(s) && DeleteUserBody(s, userId).Success?
    ensures Linked(DeleteUserBody(s, userId).value.store)
  {
    var t := DeleteUserBody(s, userId).value.store;
    assert forall f | f in t.files :: t.files[f].ownerId != userId;
  }

  /** After a deletion by another administrator, reading the deleted user
      is 404 for a caller who may read users. */
  lemma DeletedUserIsNotFound(s: Store, req: AuthRequest, userId: int)
    requires Linked(s) && DeleteUserBody(s, userId).Success?
    requires GetCurrentUser(s, req).Success? && GetCurrentUser(s, req).value != userId
    requires HasPermission(Load(s, GetCurrentUser(s, req).value), AdminRead)
    ensures var t := DeleteUserBody(s, userId).value.store;
      Linked(t) && GetUser(t, req, userId) == Failure(Error(NotFound, "User not found"))
  {
    var t := DeleteUserBody(s, userId).value.store;
    var uid := GetCurrentUser(s, req).value;
    assert t.roles == s.roles && t.permissions == s.permissions && t.users[uid] == s.users[uid];
    DeleteUserBodyKeepsLinked(s, userId);
    GetCurrentUserFrame(s, t, req);
    LoadFrame(s, t, uid);
    assert RequirePermission(t, req, AdminRead) == Success(uid);
  }

  // ---------------------------------------------------------------------
  // get_profile, change_password

  /** `get_profile`: the authenticated caller's own row, unchanged. */
  function GetProfile(s: Store, req: AuthRequest): (r: Result<User, Error>)
    ensures r.Failure? <==> GetCurrentUser(s, req).Failure?
    ensures r.Failure? ==> r.error.status == Unauthorized
    ensures r.Success? ==> r.value == s.users[GetCurrentUser(s, req).value]
  {
    var uid :- GetCurrentUser(s, req);
    Success(s.users[uid])
  }

  /** The body of `change_password` for the authenticated user `uid`: the
      old password must verify against the stored hash; the new one is
      stored hashed. */
  function ChangePasswordAs(s: Store, uid: Id, oldPassword: string, newPassword: string, salt: nat): (r: Outcome<string>)
    requires uid in s.users
    ensures r.Failure? <==> !VerifyPassword(oldPassword, s.users[uid].passwordHash)
    ensures r.Failure? ==> r.error == Error(BadRequest, "Old password is incorrect")
    ensures r.Success? ==>
      && r.value.body == "ok"
      && r.value.store == s.(users := s.users[uid := s.users[uid].(passwordHash := HashPassword(newPassword, salt))])
      && VerifyPassword(newPassword, r.value.store.users[uid].passwordHash)
  {
    if !VerifyPassword(oldPassword, s.users[uid].passwordHash) then Failure(Error(BadRequest, "Old password is incorrect"))
    else Success(Response(s.(users := s.users[uid := s.users[uid].(passwordHash := HashPassword(newPassword, salt))]), "ok"))
  }

  /** `change_password`: 401 from authentication first, then the check of
      the old password. */
  function ChangePassword(s: Store, req: AuthRequest, oldPassword: string, newPassword: string, salt: nat): (r: Outcome<string>)
    ensures GetCurrentUser(s, req).Failure? ==> r == Failure(GetCurrentUser(s, req).error)
    ensures GetCurrentUser(s, req).Success? ==> r == ChangePasswordAs(s, GetCurrentUser(s, req).value, oldPassword, newPassword, salt)
  {
    var uid :- GetCurrentUser(s, req);
    ChangePasswordAs(s, uid, oldPassword, newPassword, salt)
  }

  lemma ChangePasswordPreservesValid(s: Store, uid: Id, oldPassword: string, newPassword: string, salt: nat)
    requires Valid(s) && uid in s.users && ChangePasswordAs(s, uid, oldPassword, newPassword, salt).Success?
    ensures Valid(ChangePasswordAs(s, uid, oldPassword, newPassword, salt).value.store)
  {
    var u := s.users[uid].(passwordHash := HashPassword(newPassword, salt));
    forall k | k in s.users && k != uid
      ensures s.users[k].email != u.email
      ensures u.username.Some? ==> s.users[k].username != u.username
    {
    }
    ReplaceUserKeepsValid(s, uid, u);
  }
}

=== FILE: validators.dfy ===
/** The input validators of src/utils/validators.py. Each is a `re.match`
    of an anchored pattern; the patterns are modelled by the characters
    they admit and by how `re.match` treats `$`, which also matches just
    before one final newline. Python's `\d` and `\s` are restricted to
    ASCII here. */
module Validators {
  import opened Wrappers
  import opened Text

  // ---------------------------------------------------------------------
  // `re.match` of `^C{lo,hi}$`

  /** Where `$` can match: at the end, or just before a final "\n". */
  predicate EndAnchorAt(s: string, k: nat) {
    k == |s| || (k == |s| - 1 && s[k] == '\n')
  }

  /** The number of leading characters of `s` that satisfy `p`, at most
      `hi`: how far a greedy `C{lo,hi}` runs. */
  function GreedyRun(s: string, p: char -> bool, hi: nat): (n: nat)
    ensures n <= hi && n <= |s|
    ensures forall k | 0 <= k < n :: p(s[k])
    ensures n < hi && n < |s| ==> !p(s[n])
    decreases |s|
  {
    if hi == 0 || |s| == 0 || !p(s[0]) then 0 else 1 + GreedyRun(s[1..], p, hi - 1)
  }

  /** The backtracking search of `C{lo,hi}$`: try the greedy run, then
      each shorter one down to `lo`, for a place where `$` matches. */
  function Backtrack(s: string, lo: nat, n: nat): (ok: bool)
    ensures ok <==> exists k: nat | lo <= k <= n :: EndAnchorAt(s, k)
    decreases n
  {
    if n < lo then false
    else if EndAnchorAt(s, n) then true
    else if n == 0 then false
    else Backtrack(s, lo, n - 1)
  }

  /** `re.match("^C{lo,hi}$", s)` where `p` decides membership of `C`. */
  function MatchRepeat(s: string, p: char -> bool, lo: nat, hi: nat): (ok: bool)
  {
    Backtrack(s, lo, GreedyRun(s, p, hi))
  }

  /** What `^C{lo,hi}$` accepts: `lo` to `hi` characters of `C`, optionally
      followed by one newline that `C` does not consume. */
  lemma {:induction false} MatchRepeatMeaning(s: string, p: char -> bool, lo: nat, hi: nat)
    requires !p('\n')
    ensures MatchRepeat(s, p, lo, hi) <==>
      (lo <= |s| <= hi && All(s, p)) ||
      (1 <= |s| && s[|s| - 1] == '\n' && lo <= |s| - 1 <= hi && All(s[..|s| - 1], p))
  {
    var n := GreedyRun(s, p, hi);
    if MatchRepeat(s, p, lo, hi) {
      var k: nat :| lo <= k <= n && EndAnchorAt(s, k);
      if k == |s| - 1 && s[k] == '\n' {
        assert forall j | 0 <= j < |s| - 1 :: s[..|s| - 1][j] == s[j];
      }
    }
    if lo <= |s| <= hi && All(s, p) {
      assert n == |s|;
      assert EndAnchorAt(s, n);
    }
    if 1 <= |s| && s[|s| - 1] == '\n' && lo <= |s| - 1 <= hi && All(s[..|s| - 1], p) {
      forall j | 0 <= j < |s| - 1
        ensures p(s[j])
      {
        assert s[..|s| - 1][j] == s[j];
      }
      assert n == |s| - 1;
      assert EndAnchorAt(s, n);
    }
  }

  /** What `^C{lo,}$` accepts when `C` admits a newline: at least `lo`
      characters, all of `C`. */
  lemma {:induction false} MatchUnboundedMeaning(s: string, p: char -> bool, lo: nat)
    requires p('\n')
    ensures MatchRepeat(s, p, lo, |s|) <==> lo <= |s| && All(s, p)
  {
    var n := GreedyRun(s, p, |s|);
    if MatchRepeat(s, p, lo, |s|) {
      var k: nat :| lo <= k <= n && EndAnchorAt(s, k);
      assert n == |s|;
    }
    if lo <= |s| && All(s, p) {
      assert n == |s|;
      assert EndAnchorAt(s, n);
    }
  }

  // ---------------------------------------------------------------------
  // is_valid_username

  /** `[a-zA-Z0-9_-]`. */
  predicate UsernameChar(c: char) { IsAlnum(c) || c == '_' || c == '-' }

  /** `is_valid_username`: `^[a-zA-Z0-9_-]{3,30}$`. */
  function IsValidUsername(username: string): (ok: bool)
    ensures ok ==> 3 <= |username| <= 31
    ensures ok ==> forall k | 0 <= k < |username| - 1 :: UsernameChar(username[k])
  {
    MatchRepeatMeaning(username, UsernameChar, 3, 30);
    MatchRepeat(username, UsernameChar, 3, 30)
  }

  /** A name is valid exactly when it has 3 to 30 allowed characters,
      or is such a name followed by a single newline. */
  lemma ValidUsernameIff(username: string)
    ensures IsValidUsername(username) <==>
      (3 <= |username| <= 30 && All(username, UsernameChar)) ||
      (|username| >= 4 && username[|username| - 1] == '\n' && |username| - 1 <= 30 &&
       All(username[..|username| - 1], UsernameChar))
  {
    MatchRepeatMeaning(username, UsernameChar, 3, 30);
  }

  /** The trailing-newline quirk: "abc\n" is accepted, though "\n" is not
      an allowed character. */
  lemma UsernameTrailingNewline()
    ensures IsValidUsername("abc\n")
    ensures !IsValidUsername("ab\n")
    ensures !IsValidUsername("abc\n\n")
  {
    ValidUsernameIff("abc\n");
    assert "abc\n"[..3] == "abc";
    ValidUsernameIff("ab\n");
    ValidUsernameIff("abc\n\n");
    assert !UsernameChar("abc\n\n"[3]);
  }

  // ---------------------------------------------------------------------
  // is_valid_phone

  /** `\s` on ASCII: tab, newline, vertical tab, form feed, carriage
      return, the four separator controls 0x1C-0x1F, and space. */
  predicate AsciiSpace(c: char) { 9 <= c as int <= 13 || 0x1C <= c as int <= 0x20 }

  /** `[\d\s\-\(\)]`. */
  predicate PhoneChar(c: char) { IsDigit(c) || AsciiSpace(c) || c == '-' || c == '(' || c == ')' }

  /** `is_valid_phone`: `^\+?[\d\s\-\(\)]{10,}$`. A leading '+' is taken by
      `\+?` (the class cannot match it), and the unbounded class swallows a
      final newline itself. */
  function IsValidPhone(phone: string): (ok: bool)
    ensures ok <==>
      var digits := if |phone| > 0 && phone[0] == '+' then phone[1..] else phone;
      |digits| >= 10 && All(digits, PhoneChar)
  {
    var rest := if |phone| > 0 && phone[0] == '+' then phone[1..] else phone;
    MatchUnboundedMeaning(rest, PhoneChar, 10);
    MatchRepeat(rest, PhoneChar, 10, |rest|)
  }

  // ---------------------------------------------------------------------
  // is_valid_email

  /** `[a-zA-Z0-9._%+-]`. */
  predicate LocalChar(c: char) { IsAlnum(c) || c == '.' || c == '_' || c == '%' || c == '+' || c == '-' }

  /** `[a-zA-Z0-9.-]`. */
  predicate DomainChar(c: char) { IsAlnum(c) || c == '.' || c == '-' }

  /** The text `$` leaves to the pattern: all of `s`, or all but a final
      newline (no class of the pattern admits a newline). */
  function BeforeEndAnchor(s: string): (b: string)
    ensures |b| <= |s| && b == s[..|b|]
    ensures '\n' !in s ==> b == s
    ensures s == b + (if |s| > |b| then "\n" else "")
  {
    if |s| > 0 && s[|s| - 1] == '\n' then s[..|s| - 1] else s
  }

  /** `[a-zA-Z0-9.-]+\.[a-zA-Z]{2,}`: the top-level label after the last
      '.' has at least two letters, and before it come domain characters. */
  predicate HostMatches(host: string) {
    var j := RFindChar(host, '.');
    && j >= 1
    && All(host[..j], DomainChar)
    && |host| - (j + 1) >= 2
    && All(host[j + 1..], IsLetter)
  }

  /** `is_valid_email`:
      `^[a-zA-Z0-9._%+-]+@[a-zA-Z0-9.-]+\.[a-zA-Z]{2,}$`. No class admits
      '@', so the '@' is the first one; no class of the top-level label
      admits '.', so that label follows the last '.'. */
  function IsValidEmail(email: string): (ok: bool)
    ensures ok ==>
      var b := BeforeEndAnchor(email);
      && '@' in b && FindChar(b, '@') >= 1
      && '@' !in b[FindChar(b, '@') + 1..]
      && |b| >= 3 && b[|b| - 1] != '.' && IsLetter(b[|b| - 1]) && IsLetter(b[|b| - 2])
    ensures ok <==> exists i, j :: EmailParts(BeforeEndAnchor(email), i, j)
  {
    var b := BeforeEndAnchor(email);
    var i := FindChar(b, '@');
    PartsMatchPattern(b);
    if i >= 1 && All(b[..i], LocalChar) && HostMatches(b[i + 1..]) then
      EmailShape(b, i);
      HostSplitsEmail(b, i);
      true
    else false
  }

  /** `b` splits at `i` and `j` into the pattern's three parts: a non-empty
      local part `b[..i]`, '@', a non-empty domain `b[i + 1..j]`, '.', and a
      top-level label `b[j + 1..]` of at least two letters. */
  predicate EmailParts(b: string, i: int, j: int) {
    && 1 <= i && i + 1 < j < |b|
    && b[i] == '@' && b[j] == '.'
    && All(b[..i], LocalChar)
    && All(b[i + 1..j], DomainChar)
    && |b| - (j + 1) >= 2
    && All(b[j + 1..], IsLetter)
  }

  /** The shape of a text whose first '@' is followed by a matching host. */
  lemma EmailShape(b: string, i: int)
    requires 1 <= i < |b| && i == FindChar(b, '@') && HostMatches(b[i + 1..])
    ensures '@' in b && '@' !in b[i + 1..]
    ensures |b| >= 3 && b[|b| - 1] != '.' && IsLetter(b[|b| - 1]) && IsLetter(b[|b| - 2])
  {
    var host := b[i + 1..];
    HostShape(host);
    assert b[|b| - 1] == host[|host| - 1] && b[|b| - 2] == host[|host| - 2];
  }

  /** A local part, '@' and a matching host split at the host's last '.'. */
  lemma HostSplitsEmail(b: string, i: int)
    requires 1 <= i < |b| && b[i] == '@' && All(b[..i], LocalChar) && HostMatches(b[i + 1..])
    ensures EmailParts(b, i, i + 1 + RFindChar(b[i + 1..], '.'))
  {
    var host := b[i + 1..];
    var jh := RFindChar(host, '.');
    var j := i + 1 + jh;
    assert b[i + 1..j] == host[..jh];
    assert b[j + 1..] == host[jh + 1..];
  }

  /** Any split into the pattern's parts puts the '@' first and leaves a
      matching host after it, so the pattern accepts it. */
  lemma PartsMatchPattern(b: string)
    ensures (exists i, j :: EmailParts(b, i, j)) ==>
      var i := FindChar(b, '@');
      i >= 1 && All(b[..i], LocalChar) && HostMatches(b[i + 1..])
  {
    if exists i, j :: EmailParts(b, i, j) {
      var i, j :| EmailParts(b, i, j);
      PartsMatch(b, i, j);
    }
  }

  /** The '@' of a split is the first one, and the text after it is a
      matching host. */
  lemma PartsMatch(b: string, i: int, j: int)
    requires EmailParts(b, i, j)
    ensures i == FindChar(b, '@') && HostMatches(b[i + 1..])
  {
    FirstAtOfParts(b, i, j);
    var domain, tld := b[i + 1..j], b[j + 1..];
    assert b[i + 1..] == domain + "." + tld;
    HostFromParts(domain, tld);
  }

  /** No local character is '@', so the '@' of a split is the first. */
  lemma FirstAtOfParts(b: string, i: int, j: int)
    requires EmailParts(b, i, j)
    ensures i == FindChar(b, '@')
  {
    var local := b[..i];
    assert '@' !in local by {
      forall k | 0 <= k < |local| ensures local[k] != '@' { assert LocalChar(local[k]); }
    }
    assert b == local + ['@'] + b[i + 1..];
    FindBefore(local, '@', b[i + 1..]);
  }

  /** A matching host holds no '@' and ends in two letters. */
  lemma HostShape(host: string)
    requires HostMatches(host)
    ensures '@' !in host
    ensures |host| >= 3 && IsLetter(host[|host| - 1]) && IsLetter(host[|host| - 2])
  {
    var j := RFindChar(host, '.');
    assert host == host[..j] + [host[j]] + host[j + 1..];
    assert '@' !in host[..j] by {
      forall k | 0 <= k < j ensures host[..j][k] != '@' { assert DomainChar(host[..j][k]); }
    }
    assert '@' !in host[j + 1..] by {
      var tail := host[j + 1..];
      forall k | 0 <= k < |tail| ensures tail[k] != '@' { assert IsLetter(tail[k]); }
    }
    assert host[|host| - 1] == host[j + 1..][|host| - j - 2];
    assert host[|host| - 2] == host[j + 1..][|host| - j - 3];
  }

  /** Any local part, '@', domain, '.', and top-level label of at least two
      letters forms a valid address, with or without a final newline. With
      `ValidEmailHasParts` this is the whole rule, in both directions. */
  lemma ValidEmailFromParts(local: string, domain: string, tld: string, newline: bool)
    requires |local| >= 1 && All(local, LocalChar)
    requires |domain| >= 1 && All(domain, DomainChar)
    requires |tld| >= 2 && All(tld, IsLetter)
    ensures IsValidEmail(local + "@" + domain + "." + tld + (if newline then "\n" else ""))
  {
    var host := domain + "." + tld;
    var b := local + "@" + domain + "." + tld;
    assert b == local + "@" + host;
    var email := b + (if newline then "\n" else "");
    assert b[|b| - 1] == tld[|tld| - 1];
    assert BeforeEndAnchor(email) == b by {
      if newline { assert email[..|email| - 1] == b; } else { assert email == b; }
    }
    HostFromParts(domain, tld);
    ValidEmailOfParts(email, local, host);
  }

  /** An address whose text before the end anchor is a local part of
      allowed characters, '@', and a matching host is valid. */
  lemma ValidEmailOfParts(email: string, local: string, host: string)
    requires BeforeEndAnchor(email) == local + "@" + host
    requires |local| >= 1 && All(local, LocalChar) && HostMatches(host)
    ensures IsValidEmail(email)
  {
    var b := local + "@" + host;
    assert '@' !in local by {
      forall k | 0 <= k < |local| ensures local[k] != '@' { assert LocalChar(local[k]); }
    }
    assert b == local + ['@'] + host;
    FindBefore(local, '@', host);
    assert b[..|local|] == local && b[|local| + 1..] == host;
  }

  /** A domain, '.', and a label of at least two letters form a host. */
  lemma HostFromParts(domain: string, tld: string)
    requires |domain| >= 1 && All(domain, DomainChar)
    requires |tld| >= 2 && All(tld, IsLetter)
    ensures HostMatches(domain + "." + tld)
  {
    var host := domain + "." + tld;
    assert '.' !in tld by {
      forall k | 0 <= k < |tld| ensures tld[k] != '.' { assert IsLetter(tld[k]); }
    }
    RFindAfter(domain, '.', tld);
    assert host[..|domain|] == domain && host[|domain| + 1..] == tld;
  }

  /** The converse of `ValidEmailFromParts`: every valid address is a local
      part, '@', a domain, '.', and a top-level label of at least two
      letters, with or without one final newline. */
  lemma ValidEmailHasParts(email: string)
    requires IsValidEmail(email)
    ensures
      var b := BeforeEndAnchor(email);
      exists i, j :: EmailParts(b, i, j) &&
        email == b[..i] + "@" + b[i + 1..j] + "." + b[j + 1..] + (if |email| > |b| then "\n" else "")
  {
    var b := BeforeEndAnchor(email);
    var i, j :| EmailParts(b, i, j);
    EmailJoin(email, i, j);
  }

  /** An address splits into its parts, its final newline included. */
  lemma EmailJoin(email: string, i: int, j: int)
    requires EmailParts(BeforeEndAnchor(email), i, j)
    ensures
      var b := BeforeEndAnchor(email);
      email == b[..i] + "@" + b[i + 1..j] + "." + b[j + 1..] + (if |email| > |b| then "\n" else "")
  {
    PartsJoin(BeforeEndAnchor(email), i, j);
  }

  /** The three parts and their separators give back the text. */
  lemma PartsJoin(b: string, i: int, j: int)
    requires EmailParts(b, i, j)
    ensures b == b[..i] + "@" + b[i + 1..j] + "." + b[j + 1..]
  {
    var rest := b[i + 1..];
    assert b == b[..i] + [b[i]] + rest;
    assert rest == b[i + 1..j] + [b[j]] + b[j + 1..];
  }

  // ---------------------------------------------------------------------
  // is_strong_password

  const UppercaseMessage := "Password must contain at least one uppercase letter"
  const LowercaseMessage := "Password must contain at least one lowercase letter"
  const NumberMessage := "Password must contain at least one number"

  function LengthMessage(minLength: int): string {
    "Password must be at least " + IntToString(minLength) + " characters"
  }

  /** The four requirements together. */
  predicate Strong(password: string, minLength: int) {
    |password| >= minLength && Any(password, IsUpper) && Any(password, IsLower) && Any(password, IsDigit)
  }

  /** `is_strong_password`: the checks run in order (length, an upper-case
      letter, a lower-case letter, a digit) and the first failing one names
      the result. */
  function IsStrongPassword(password: string, minLength: int): (r: (bool, Option<string>))
    ensures r.0 <==> Strong(password, minLength)
    ensures r.0 <==> r.1 == None
    ensures |password| < minLength ==> r.1 == Some(LengthMessage(minLength))
    ensures r.1 == Some(UppercaseMessage) <==> |password| >= minLength && !Any(password, IsUpper)
    ensures r.1 == Some(LowercaseMessage) <==>
      |password| >= minLength && Any(password, IsUpper) && !Any(password, IsLower)
    ensures r.1 == Some(NumberMessage) <==>
      |password| >= minLength && Any(password, IsUpper) && Any(password, IsLower) && !Any(password, IsDigit)
  {
    if |password| < minLength then
      var m := LengthMessage(minLength);
      assert m[14] == 'b' && UppercaseMessage[14] == LowercaseMessage[14] == NumberMessage[14] == 'c';
      (false, Some(m))
    else if !Any(password, IsUpper) then (false, Some(UppercaseMessage))
    else if !Any(password, IsLower) then (false, Some(LowercaseMessage))
    else if !Any(password, IsDigit) then (false, Some(NumberMessage))
    else (true, None)
  }

  /** Appending characters never makes a strong password weak. */
  lemma StrongPasswordExtends(password: string, more: string, minLength: int)
    requires IsStrongPassword(password, minLength).0
    ensures IsStrongPassword(password + more, minLength).0
  {
    var p := password + more;
    var u :| 0 <= u < |password| && IsUpper(password[u]);
    var l :| 0 <= l < |password| && IsLower(password[l]);
    var d :| 0 <= d < |password| && IsDigit(password[d]);
    assert p[u] == password[u] && p[l] == password[l] && p[d] == password[d];
  }
}

=== FILE: wrappers.dfy ===
/** Failure-compatible wrappers shared by every module of the model:
    `Option` for Python's `Optional[...]`/`None`, `Result` for a value or
    the exception a call raises. */
module Wrappers {

  datatype Option<+T> = None | Some(value: T) {

    predicate IsFailure() {
      None?
    }

    function PropagateFailure<U>(): Option<U>
      requires None?
    {
      None
    }

    function Extract(): T
      requires Some?
    {
      value
    }

    /** The value, or `default` when there is none. */
    function GetOr(default: T): T {
      match this
      case Some(v) => v
      case None => default
    }
  }

  datatype Result<+R, +E> = Success(value: R) | Failure(error: E) {

    predicate IsFailure() {
      Failure?
    }

    function PropagateFailure<U>(): Result<U, E>
      requires Failure?
    {
      Failure(error)
    }

    function Extract(): R
      requires Success?
    {
      value
    }
  }

  /** Python truthiness of an optional string: present and non-empty. */
  predicate Truthy(o: Option<string>) {
    o.Some? && o.value != ""
  }
}
